=== FILE: README.md ===
# Farm monitoring: controllers and pages

This project is a Dafny model of a farm-monitoring application. Producers register farms identified by their CCIR. Operators and mosaic workers ("mosaiqueiros") link themselves to a farm by searching for its CCIR. Operators upload geotagged plant photos; an analyser flags each one as anomalous or normal. Each farm gets a heat map of its anomalous photos and a health report that classifies it as healthy, warning or critical.

The model covers both halves of that flow:

- **Backend.** The three Flask controllers (producer, operator, mosaiqueiro) are pure functions from a session, a request and a database state to a reply and a new database state:
  - `Flask` models Python values, truthiness, `or`, `int()` and `float()`.
  - `Store` models the MySQL tables the data-access objects read and write.
  - `ProdutorController`, `OperadorController`, `MosaiqueiroController` and `FarmLinkRoutes` model the routes. `FarmLinkRoutes` holds the two routes the operator and the mosaiqueiro share.
  - `FlaskApp` models the URL map: which view a method and path reach once the blueprints are registered under their prefixes.
  - `FarmHealth` models the report's 30 % / 70 % classification.
- **Frontend.** The React pages are state-transition functions. A handler takes the page state and the server's answer, and returns the new state and the alert it shows, if any:
  - `OperadorPage` models the photo upload queue, including its simulated progress timers, and `StatusBadge` models its colours.
  - `MosaiqueiroPage` models CCIR search, farm linking and CPF formatting.
  - `HeatMapPage` models the heat map's layers and the map's lifetime.
  - `ProdutorPage` models the farm form and the farm list.
  - `LoginPage` and `RegisterPage` model the two forms.
  - `Router` models the route table, and is there only to judge where a navigation lands.

Several lemmas join the halves. They send a page's request through the URL map to the modelled route, and check what the page then shows. For the mosaiqueiro page this is done twice: with the rules as registered, where the request reaches no view, and with the intended rules.

## Model

| member | source | states |
|---|---|---|
| Flask.Or | backend/MVC/controllers/produtorController.py:21-22 | Python `a or b` is `a` when `a` is truthy and `b` otherwise, so it is truthy exactly when either operand is |
| Flask.FalsyValues | backend/MVC/controllers/produtorController.py:27-28 | exactly `None`, `False`, the number 0 and the empty text are falsy |
| Flask.ToFloat | backend/MVC/controllers/produtorController.py:33 | `float()` raises on `None`, keeps a number, and reads a run of digits as the number it spells |
| Flask.ToInt | backend/MVC/controllers/mosaiqueiroController.py:32 | `int()` raises on `None`, truncates a number toward zero, and reads a run of digits as the number it spells |
| Store.FindFarm | backend/MVC/model/fazenda_dao.py:46-59 | a lookup by id finds nothing exactly when no row has that id; otherwise it finds a row of the table with that id |
| Store.FarmById | backend/MVC/model/fazenda_dao.py:46-59 | the join with `usuarios` yields a farm exactly when the farm exists and its owner is a user; the row carries the farm's name, CCIR, coordinates and area, the owner's name, and the owner as `producerCpf`, with no `cpf_produtor` column |
| Store.InsertFarm | backend/MVC/model/fazenda_dao.py:24-43 | the insert fails exactly when the CCIR is already taken (the UNIQUE constraint), adding no row but using up the auto-increment id, as InnoDB does; otherwise it appends exactly one row with the next id and returns that id |
| Store.InsertFarmPreservesValid | backend/MVC/model/fazenda_dao.py:24-43 | an insert, refused or not, keeps ids unique and below the counter, and keeps CCIRs unique |
| Store.FarmsWithCcir | backend/MVC/model/usuario_fazenda_dao.py:18-33 | the CCIR query returns exactly the projections of the farms whose CCIR equals the argument |
| Store.ImagesOfFarm | backend/MVC/model/fazenda_dao.py:62-74 | the images query returns exactly the farm's images, one row each, with `anomala` as 0 or 1 |
| Store.ImagesOfFarmAppend | backend/MVC/model/fazenda_dao.py:62-74 | a new image of the farm adds its row at the end, and an image of another farm adds nothing: the rows keep the table's order |
| Store.StatsOfFarm | backend/MVC/model/relatorio_dao.py:24-38 | `COUNT` is the farm's image count; `SUM` is NULL exactly when there are no images, and otherwise the number of the farm's anomalous images |
| Store.InsertLink | backend/MVC/model/usuario_fazenda_dao.py:35-48 | a link insert fails exactly when the (cpf, farm) pair already exists; otherwise it adds just that pair |
| Store.InsertImage | backend/MVC/model/imagem_dao.py:20-63 | a rolled-back transaction adds no row, and uses up the next id exactly when the `imagens` insert had taken it; a committed one appends exactly one image row with the next id and the anomaly flag |
| Store.CountOfFarmAppend | backend/MVC/model/relatorio_dao.py:24-38 | appending an image raises the farm's count, and its anomalous count, by one exactly when the image is that farm's (and anomalous) |
| FarmHealth.Classify | backend/MVC/controllers/produtorController.py:134-142 | with no images the farm is healthy; otherwise critical iff the anomalous share is at least 0.7, warning iff it is in [0.3, 0.7), healthy iff it is below 0.3 |
| FarmHealth.RatioThreshold | backend/MVC/controllers/produtorController.py:136-141 | comparing the percentage with a threshold is the same as the integer comparison `100·a >= pct·t` |
| FarmHealth.ClassifyMonotone | backend/MVC/controllers/produtorController.py:134-142 | more anomalous images never give a less severe status |
| FarmHealth.ThresholdsInclusive | backend/MVC/controllers/produtorController.py:138-141 | exactly 70 % is critical and exactly 30 % is warning; one image fewer drops a level |
| ProdutorController.CreateFarm | backend/MVC/controllers/produtorController.py:12-39 | no session gives 401; a missing or falsy field gives 400; a field that `float()` rejects gives 500; a taken CCIR gives 409; otherwise 201 with the new id, and exactly one row appended; 401, 400 and 500 leave the database unchanged, and 409 adds no row but uses up the id |
| ProdutorController.CreateAfterConflictSkipsId | backend/MVC/controllers/produtorController.py:30-37 | after a 409, the next farm created is answered with, and stored under, the id one past the counter the 409 saw |
| ProdutorController.CreateFarmAliases | backend/MVC/controllers/produtorController.py:21-22 | the stored CCIR is `ccm`, or `ccir` when `ccm` is falsy; the same holds for `name` and `nome`; the owner is the session's CPF |
| ProdutorController.CreateFarmPreservesValid | backend/MVC/controllers/produtorController.py:12-39 | every outcome of the create route keeps the database well formed |
| ProdutorController.ZeroLatitudeIsMissing | backend/MVC/controllers/produtorController.py:27-28 | a numeric latitude of 0 is falsy, so the route refuses it with 400 |
| ProdutorController.ReadFarmFields | backend/MVC/controllers/produtorController.py:20-24 | the CCIR is present when `ccm` or `ccir` is truthy and is `ccm` when that is truthy; the same for `name` and `nome`; the three numbers are read as sent |
| ProdutorController.FarmsOfOwner | backend/MVC/controllers/produtorController.py:54-61 | the listing holds exactly the formatted rows of the farms the producer owns |
| ProdutorController.ToFarmItem | backend/MVC/controllers/produtorController.py:54-61 | a listed farm's id is sent as text that `int()` reads back as the farm's id |
| ProdutorController.ListFarmsAsWritten | backend/MVC/controllers/produtorController.py:41-66 | as written, the route calls a DAO method that does not exist, so every logged-in request gets 500 |
| ProdutorController.ListFarms | backend/MVC/controllers/produtorController.py:41-66 | corrected: 401 without a session; otherwise 200, with exactly the producer's own farms, formatted |
| ProdutorController.ListFarmsFinding | backend/MVC/controllers/produtorController.py:51 | for every producer and database, the route as written answers 500 and the corrected one answers 200 |
| ProdutorController.CheckAccess | backend/MVC/controllers/produtorController.py:76-80 | 401 without a session, 404 for an unknown farm, 403 for another producer's farm; admitted exactly for the owner |
| ProdutorController.CheckAccessAsWritten | backend/MVC/controllers/produtorController.py:78-80 | reading the absent `cpf_produtor` key raises KeyError for every existing farm, which becomes a 500 |
| ProdutorController.CoerceImages | backend/MVC/controllers/produtorController.py:95 | `bool(anomala)` keeps name and coordinates, and is true exactly when the stored flag is non-zero |
| ProdutorController.ToHeatMapFarm | backend/MVC/controllers/produtorController.py:84-93 | the heat map's farm id is text that `int()` reads back; CCIR, area and owner CPF are the stored ones |
| ProdutorController.HeatImagesOfFarm | backend/MVC/controllers/produtorController.py:82-95 | the heat map's images are exactly the farm's stored images, each with its name, position and boolean verdict |
| ProdutorController.HeatMap | backend/MVC/controllers/produtorController.py:68-104 | corrected heat-map route: the access errors of `CheckAccess`; 200 exactly for the owner, with the farm's details and exactly the farm's stored images, one entry each |
| ProdutorController.HeatMapAsWritten | backend/MVC/controllers/produtorController.py:68-104 | as written: 401, 404, and a 500 for every existing farm |
| ProdutorController.HeatMapFinding | backend/MVC/controllers/produtorController.py:80 | for the owner of an existing farm, the route as written answers 500 and the corrected one answers 200 |
| ProdutorController.CreatedFarmHasHeatMap | backend/MVC/controllers/produtorController.py:12-104 | a farm the producer has just created has a heat map (corrected route), and it has no images |
| ProdutorController.ReportCounts | backend/MVC/controllers/produtorController.py:130-132 | missing or NULL statistics count as 0; normal images are total minus anomalous |
| ProdutorController.BuildReport | backend/MVC/controllers/produtorController.py:144-185 | the report carries the counts and the classified status; its two slices are anomalous and normal; weekly, monthly and recommendation lists are empty |
| ProdutorController.FarmReport | backend/MVC/controllers/produtorController.py:107-189 | corrected report route: the access errors; 200 exactly for the owner, with counts that match the stored images, normal = total − anomalous ≥ 0, and the status `Classify` gives |
| ProdutorController.FarmReportAsWritten | backend/MVC/controllers/produtorController.py:107-189 | as written: 401, 404, and a 500 for every existing farm |
| ProdutorController.FarmReportFinding | backend/MVC/controllers/produtorController.py:124 | for the owner of an existing farm, the report as written answers 500 and the corrected one answers 200 |
| ProdutorController.EmptyFarmIsHealthy | backend/MVC/controllers/produtorController.py:130-142 | a farm with no images reports zero counts and is healthy |
| FarmLinkRoutes.ListByCcir | backend/MVC/controllers/operadorController.py:26-34 | 401 without a session; 400 when `ccir` is missing or empty; otherwise 200, with exactly the projections of the committed farms with that CCIR (the search as evidently intended; the shared connection's snapshot is `ListByCcirOn`) |
| FarmLinkRoutes.Associate | backend/MVC/controllers/operadorController.py:36-50 | 401; 400 for a falsy `farm_id`; 500 when `int()` rejects it; 409 when the pair is already linked; 201 otherwise, with exactly that pair added; every failure leaves the database unchanged |
| FarmLinkRoutes.AssociateTwice | backend/MVC/controllers/operadorController.py:47-48 | repeating a successful link gives 409 and changes nothing |
| FarmLinkRoutes.ListByCcirOn | backend/MVC/model/usuario_fazenda_dao.py:4-33 | the search on the controller's long-lived connection: the guards leave the connection alone; the SELECT reads the open snapshot, or else the committed database, which becomes the snapshot; the reply holds exactly the snapshot's farms with that CCIR |
| FarmLinkRoutes.AssociateOn | backend/MVC/model/usuario_fazenda_dao.py:35-48 | the link on that connection changes the database as `Associate` does; a 201 commits and ends the snapshot, and every other outcome leaves the connection as it was |
| FarmLinkRoutes.SnapshotIgnoresLaterWrites | backend/MVC/model/usuario_fazenda_dao.py:18-33 | once a snapshot is open, the search answers the same whatever has been committed since |
| FarmLinkRoutes.StaleSearchMissesNewFarm | backend/MVC/controllers/operadorController.py:17 | after a first search on a fresh connection, a farm inserted with a new CCIR is not found: the second search answers 200 with no farm |
| FarmLinkRoutes.FreshSearchSeesNewFarm | backend/MVC/controllers/operadorController.py:26-34 | a search that reads the committed database lists a farm inserted just before it |
| FarmLinkRoutes.LinkRefreshesSearch | backend/MVC/model/usuario_fazenda_dao.py:44-46 | after a successful link the next search reads the committed database again |
| FarmLinkRoutes.AssociateLinksOnlyThePair | backend/MVC/controllers/operadorController.py:36-50 | the route touches only the link table, and adds at most the session's (cpf, farm) pair |
| OperadorController.ListFarmsByCcir | backend/MVC/controllers/operadorController.py:26-34 | the operator's search: 401; 400 for a missing or empty CCIR; otherwise 200 with exactly the projections of the committed farms with that CCIR (as intended; see `FarmLinkRoutes.ListByCcirOn`) |
| OperadorController.AssociateFarm | backend/MVC/controllers/operadorController.py:36-50 | the operator's link route: 401; 400 for a falsy `farm_id`; 500 when `int()` rejects it; 409 when already linked; 201 otherwise, adding exactly that pair; every failure leaves the database unchanged |
| OperadorController.UploadImage | backend/MVC/controllers/operadorController.py:61-123 | 401; 400 for no file, an empty file name or a missing form field; 500 (no row stored, no file left) when saving or analysing raises, a field does not parse or the transaction is rolled back, and only a rollback after the `imagens` insert uses up an image id; otherwise 201, with exactly one image row holding the parsed farm id, coordinates and the verdict "Anômala" as the flag, and the file kept |
| OperadorController.UploadStoresVerdict | backend/MVC/controllers/operadorController.py:106-117 | the `resultado` in the reply is the flag stored in the new row, and it is true exactly for the verdict "Anômala" |
| OperadorController.UploadFailureLeavesNothing | backend/MVC/controllers/operadorController.py:115-123 | when saving or analysing the file raises, the reply is the generic 500, the database is unchanged and no file is left |
| OperadorController.UploadAfterRollbackSkipsId | backend/MVC/model/imagem_dao.py:29-57 | after a transaction rolled back past its `imagens` insert, the next committed upload is answered with the id one past the counter the failed one saw |
| OperadorController.UploadTouchesOnlyImages | backend/MVC/controllers/operadorController.py:61-123 | an upload never changes farms, users or links |
| MosaiqueiroController.ListFarmsByCcir | backend/MVC/controllers/mosaiqueiroController.py:8-19 | the mosaiqueiro's search, the same as the operator's: 401, 400, or 200 with exactly the committed farms with that CCIR (as intended; see `FarmLinkRoutes.ListByCcirOn`) |
| MosaiqueiroController.AssociateFarm | backend/MVC/controllers/mosaiqueiroController.py:21-37 | the mosaiqueiro's link route, the same as the operator's: 401, 400, 500, 409, or 201 adding exactly that pair |
| StatusBadge.StatusColor | frontend/src/pages/Operador/styled.ts:896-909 | each known status has its own badge colours; any other status gets the grey default, and only those do |
| StatusBadge.KnownBackgroundsDistinct | frontend/src/pages/Operador/styled.ts:896-909 | two different known statuses never share a background, and none uses the default's |
| OperadorPage.StatusText | frontend/src/pages/Operador/index.tsx:143-156 | the four statuses show "Enviando", "Processando", "Concluído" and "Erro"; any other status shows "Aguardando", and only those do |
| OperadorPage.StatusesAreDistinguishable | frontend/src/pages/Operador/index.tsx:143-156 | two different photo statuses never show the same text or the same badge background |
| OperadorPage.Admit | frontend/src/pages/Operador/index.tsx:46-55 | a file is admitted exactly when its MIME type starts with `image/` and it has at most 10 MiB; the type is checked first |
| OperadorPage.SizeLimitInclusive | frontend/src/pages/Operador/index.tsx:52 | 10 485 760 bytes is admitted; one byte more is refused |
| OperadorPage.RejectionAlert | frontend/src/pages/Operador/index.tsx:46-55 | the alert starts with the file's name and then says which check failed: not an image exactly when the MIME check failed |
| OperadorPage.AddFiles | frontend/src/pages/Operador/index.tsx:43-95 | admitted files are prepended newest first; each refused file raises its alert, in order; each admitted photo gets a timer; other timers are kept |
| OperadorPage.UpdateById | frontend/src/pages/Operador/index.tsx:78-91 | `map` with an id test changes exactly the photos with that id, keeps the order and the length, and changes nothing when no photo has the id |
| OperadorPage.RemoveById | frontend/src/pages/Operador/index.tsx:158-160 | a photo survives the filter exactly when its id differs |
| OperadorPage.RemoveByIdSplits | frontend/src/pages/Operador/index.tsx:158-160 | filtering distributes over concatenation |
| OperadorPage.Tick | frontend/src/pages/Operador/index.tsx:72-93 | only the photos with that id change: at 100 or more they become "processing" at 100 and the timer waits for the timeout; below 100 they show the rounded progress; the list keeps its length and order; a stopped timer changes nothing |
| OperadorPage.Finish | frontend/src/pages/Operador/index.tsx:83-87 | the processing timeout marks the photos with that id "completed", leaves the others alone and ends the timer; without a pending timer it changes nothing |
| OperadorPage.TickThenFinishCompletes | frontend/src/pages/Operador/index.tsx:72-93 | the tick that reaches 100 and the timeout after it leave the photo completed at 100, and a later timeout changes nothing |
| OperadorPage.Delete | frontend/src/pages/Operador/index.tsx:158-160 | deleting keeps exactly the photos with other ids and leaves the timers running |
| OperadorPage.InitialConsistent | frontend/src/pages/Operador/index.tsx:43-95 | the empty page satisfies the photo/timer invariant |
| OperadorPage.ProgressInRange | frontend/src/pages/Operador/index.tsx:72-93 | under the invariant every shown progress lies in 0..100 |
| OperadorPage.AddFilesPreservesConsistent | frontend/src/pages/Operador/index.tsx:43-95 | adding files with fresh, distinct ids keeps every photo in step with its timer |
| OperadorPage.TickPreservesConsistent | frontend/src/pages/Operador/index.tsx:72-93 | every tick keeps every photo in step with its timer |
| OperadorPage.FinishPreservesConsistent | frontend/src/pages/Operador/index.tsx:83-87 | the processing timeout keeps the invariant |
| OperadorPage.DeletePreservesConsistent | frontend/src/pages/Operador/index.tsx:158-160 | deleting keeps the invariant, even while the deleted photo's timer still runs |
| OperadorPage.RemoveKeepsDistinct | frontend/src/pages/Operador/index.tsx:158-160 | filtering keeps ids distinct |
| OperadorPage.DeleteRemovesOne | frontend/src/pages/Operador/index.tsx:158-160 | with distinct ids, deleting a present id removes exactly one photo, and deleting an absent id changes nothing |
| OperadorPage.TimersOnlyAdvance | frontend/src/pages/Operador/index.tsx:72-93 | no timer event moves a photo back a stage or lowers its progress, and none reorders photos |
| OperadorPage.TickAdvances | frontend/src/pages/Operador/index.tsx:74 | each tick of a running timer adds at least 5, or ends the upload |
| OperadorPage.Visible | frontend/src/pages/Operador/index.tsx:323 | the grid shows the first six photos (all of them if fewer) |
| OperadorPage.ViewAllWhenHidden | frontend/src/pages/Operador/index.tsx:399 | "view all" appears exactly when the grid hides some photo |
| MosaiqueiroPage.ToFarm | frontend/src/pages/Mosaiqueiro/index.tsx:123-134 | the JSON-to-farm mapping: id as text or "", name or "Sem nome" (never empty), area or 0, status healthy |
| MosaiqueiroPage.ToFarms | frontend/src/pages/Mosaiqueiro/index.tsx:123-134 | the mapping is applied element by element, keeping the order |
| MosaiqueiroPage.Search | frontend/src/pages/Mosaiqueiro/index.tsx:102-144 | loading ends on every path; results are replaced exactly on a successful answer; a non-2xx status, a thrown fetch and a failure answer each raise their own alert and keep the old results |
| MosaiqueiroPage.SearchButtonAroundSearch | frontend/src/pages/Mosaiqueiro/index.tsx:307 | the search button is disabled while a search runs, and enabled again afterwards exactly when a CCIR is typed |
| MosaiqueiroPage.FromRow | backend/MVC/model/usuario_fazenda_dao.py:18-33 | a CCIR row reaches the page with its id and with no producer name or CPF |
| MosaiqueiroPage.FromRows | backend/MVC/model/usuario_fazenda_dao.py:18-33 | the page gets one JSON object per CCIR row, in the same order |
| MosaiqueiroPage.ToSearchResponse | frontend/src/pages/Mosaiqueiro/index.tsx:113-117 | the page takes the error path exactly for a non-2xx status |
| MosaiqueiroPage.SearchServed | frontend/src/pages/Mosaiqueiro/index.tsx:105-117 | a search the URL map does not send to the search view gets Flask's 404, so the page shows "Erro ao buscar fazenda" |
| MosaiqueiroPage.SearchDispatch | frontend/src/pages/Mosaiqueiro/index.tsx:105-106 | the search request reaches no view with the rules as registered, and the mosaiqueiro's search view with the intended rules |
| MosaiqueiroPage.SearchAsWrittenFails | backend/MVC/controllers/mosaiqueiroController.py:8 | with the rules as registered, every search shows "Erro ao buscar fazenda" and keeps the old results, whatever the session, CCIR and database |
| MosaiqueiroPage.SearchAgainstBackend | frontend/src/pages/Mosaiqueiro/index.tsx:102-144 | with the intended rules, no session gives "Erro ao buscar fazenda"; with a session, one card per committed farm with that CCIR (the search as intended, not the connection's snapshot), with the stored ids and blank producer fields |
| MosaiqueiroPage.AddUnique | frontend/src/pages/Mosaiqueiro/index.tsx:160-162 | a farm is appended exactly when no linked farm has its id |
| MosaiqueiroPage.AddUniqueProperties | frontend/src/pages/Mosaiqueiro/index.tsx:160-162 | the linked list keeps ids unique, contains the farm afterwards, only grows, and adding twice equals adding once |
| MosaiqueiroPage.Confirm | frontend/src/pages/Mosaiqueiro/index.tsx:146-175 | success adds the farm, clears search and CCIR and closes the dialog; a failure or a thrown fetch only alerts; loading ends on every path |
| MosaiqueiroPage.ConfirmTwice | frontend/src/pages/Mosaiqueiro/index.tsx:159-165 | confirming the same farm twice leaves the page as the first confirmation did |
| MosaiqueiroPage.ToAssociateResponse | frontend/src/pages/Mosaiqueiro/index.tsx:158-159 | the page sees a JSON answer whose `status` is 'success' exactly for a success reply, carrying the error's message otherwise |
| MosaiqueiroPage.ConfirmServed | frontend/src/pages/Mosaiqueiro/index.tsx:146-175 | a confirmation the URL map does not send to the link view fails before it is sent: the JSON POST is cross-origin, so the browser first sends a CORS preflight, which gets a 404 and is refused; `fetch` rejects, the page alerts "Erro ao associar fazenda" and nothing is linked |
| MosaiqueiroPage.ConfirmDispatch | frontend/src/pages/Mosaiqueiro/index.tsx:149-150 | the link request reaches no view with the rules as registered, and the mosaiqueiro's link view with the intended rules |
| MosaiqueiroPage.ConfirmAsWrittenFails | backend/MVC/controllers/mosaiqueiroController.py:21 | with the rules as registered, every confirmation alerts "Erro ao associar fazenda" and links nothing |
| MosaiqueiroPage.AssociateRequestLinksFarm | frontend/src/pages/Mosaiqueiro/index.tsx:155 | with the intended rules, a farm whose id came from a search is linked to the logged-in user, the page accepts exactly when the link is new, and nothing else is linked |
| MosaiqueiroPage.FirstRun | frontend/src/pages/Mosaiqueiro/index.tsx:216 | finds the leftmost run of eleven digits, the match a regex without `g` replaces |
| MosaiqueiroPage.FormatCpf | frontend/src/pages/Mosaiqueiro/index.tsx:214-217 | text without an eleven-digit run is unchanged; otherwise only the leftmost run is rewritten as `ddd.ddd.ddd-dd` |
| MosaiqueiroPage.DigitsOfAppend | frontend/src/pages/Mosaiqueiro/index.tsx:214-217 | keeping only digits distributes over concatenation |
| MosaiqueiroPage.LayoutDigits | frontend/src/pages/Mosaiqueiro/index.tsx:216 | the punctuation the layout adds carries no digits |
| MosaiqueiroPage.FormatCpfKeepsDigits | frontend/src/pages/Mosaiqueiro/index.tsx:214-217 | a bare eleven-digit CPF is laid out, and its digits read back unchanged |
| MosaiqueiroPage.FormatCpfIdempotent | frontend/src/pages/Mosaiqueiro/index.tsx:214-217 | formatting a formatted CPF changes nothing |
| MosaiqueiroPage.HealthText | frontend/src/pages/Mosaiqueiro/index.tsx:201-212 | "warning" shows "Atenção", "critical" shows "Crítico", and every other status shows "Saudável" |
| MosaiqueiroPage.HealthTextsDistinct | frontend/src/pages/Mosaiqueiro/index.tsx:201-212 | the three health levels show three different texts |
| MosaiqueiroPage.FarmSelect | frontend/src/pages/Mosaiqueiro/index.tsx:178-181 | choosing a farm closes the dialog and navigates under `/heat-map/` |
| MosaiqueiroPage.FarmSelectOpensHeatMap | frontend/src/pages/Mosaiqueiro/index.tsx:178-181 | the route table takes that path, with its query, to the heat map of the chosen farm |
| HeatMapPage.HeatData | frontend/src/pages/Mapa_calor/index.tsx:184-187 | the heat layer has at most one point per image, each of weight 1 |
| HeatMapPage.HeatDataAppend | frontend/src/pages/Mapa_calor/index.tsx:184-187 | a further image adds its point at the end exactly when it is anomalous: the points keep the images' order |
| HeatMapPage.NormalMarkersAppend | frontend/src/pages/Mapa_calor/index.tsx:204-216 | a further image adds its marker and popup at the end exactly when it is normal: the markers keep the images' order |
| HeatMapPage.LayersPartitionImages | frontend/src/pages/Mapa_calor/index.tsx:184-216 | each anomalous image is a heat point and each normal image a circle marker with its popup; nothing else is drawn; the counts add up |
| HeatMapPage.Draw | frontend/src/pages/Mapa_calor/index.tsx:184-216 | the heat layer is drawn exactly when the plugin is present; the markers are drawn always |
| HeatMapPage.RemoveCurrent | frontend/src/pages/Mapa_calor/index.tsx:165-167 | removing the map in the ref kills only that map |
| HeatMapPage.RunEffect | frontend/src/pages/Mapa_calor/index.tsx:154-225 | without farm, element or Leaflet nothing happens; otherwise the old map is removed and a fresh one becomes current and live |
| HeatMapPage.Cleanup | frontend/src/pages/Mapa_calor/index.tsx:220-224 | cleanup removes the current map and creates none |
| HeatMapPage.ReplayKeepsOneLiveMap | frontend/src/pages/Mapa_calor/index.tsx:154-225 | after any sequence of effects and cleanups, at most one map is alive, and it is the one in the ref |
| HeatMapPage.CleanupLeavesNone | frontend/src/pages/Mapa_calor/index.tsx:220-224 | unmounting leaves no live map |
| HeatMapPage.SampleFarm | frontend/src/pages/Mapa_calor/index.tsx:122-133 | the sample farm takes the route's id, or "1" when there is none |
| HeatMapPage.SampleLayers | frontend/src/pages/Mapa_calor/index.tsx:136-147 | the ten sample images give six heat points and four markers |
| HeatMapPage.GoBack | frontend/src/pages/Mapa_calor/index.tsx:227-231 | back goes to the producer area exactly when the farm has a producer name, and to the mosaiqueiro area otherwise |
| HeatMapPage.SampleFarmGoesBackToProducer | frontend/src/pages/Mapa_calor/index.tsx:122-133 | the sample farm always sends "back" to the producer area, whoever opened it |
| HeatMapPage.GoBackResolves | frontend/src/pages/Mapa_calor/index.tsx:227-231 | both back targets are routed screens |
| ProdutorPage.SetField | frontend/src/pages/Produtor/index.tsx:123-126 | an input change sets its field and leaves the others |
| ProdutorPage.SelectLocation | frontend/src/pages/Produtor/index.tsx:256-263 | picking a map point fills latitude and longitude only |
| ProdutorPage.LoadFarms | frontend/src/pages/Produtor/index.tsx:128-145 | the list is the answer's farms on success and empty otherwise |
| ProdutorPage.Submit | frontend/src/pages/Produtor/index.tsx:76-108 | success reloads the list, clears the form and closes the dialog; a failure alerts the message, a thrown fetch alerts the connection error; loading ends on every path |
| ProdutorPage.FarmSelectAsWritten | frontend/src/pages/Produtor/index.tsx:112-116 | as written, the farm choice navigates to `/area-produtor/heat-map/<id>` |
| ProdutorPage.FarmSelect | frontend/src/pages/Produtor/index.tsx:112-116 | corrected, it navigates to `/heat-map/<id>` |
| ProdutorPage.HeatMapLinkFinding | frontend/src/Router.tsx:13-27 | the as-written path matches no route; the corrected path opens the chosen farm's heat map |
| ProdutorPage.ReportSelect | frontend/src/pages/Produtor/index.tsx:118-121 | the report choice closes its dialog and navigates to `/relatorio/<id>` |
| ProdutorPage.RoutesDistinguishFarms | frontend/src/pages/Produtor/index.tsx:112-121 | different farms get different paths, heat map and report paths never coincide, and the report path opens that farm's report |
| ProdutorPage.FormBody | frontend/src/pages/Produtor/index.tsx:85-91 | the request body carries exactly ccm, name, latitude, longitude and area, each the text typed into its input |
| ProdutorPage.EmptyInputIsRefused | backend/MVC/controllers/produtorController.py:27-28 | the create route answers the page's body with 400 exactly when some input is empty |
| ProdutorPage.AcceptableIsCreated | backend/MVC/controllers/produtorController.py:30-35 | a form with numeric fields and a free CCIR is stored as exactly one new row |
| ProdutorPage.AddedFarmIsListed | frontend/src/pages/Produtor/index.tsx:95-98 | after an accepted submit the page reloads an empty list from the route as written, and a list holding the new farm from the corrected route |
| LoginPage.RoleRoute | frontend/src/pages/Login/index.tsx:36-48 | exactly the three user types have an area |
| LoginPage.RoleRoutesResolve | frontend/src/pages/Login/index.tsx:36-48 | each type's area is a routed screen, the one for that role |
| LoginPage.RoleRouteInjective | frontend/src/pages/Login/index.tsx:36-48 | different types go to different areas |
| LoginPage.Login | frontend/src/pages/Login/index.tsx:20-56 | navigation happens exactly on a success with a known type; otherwise the unknown-type, server-message-or-default, or connection alert |
| LoginPage.FailedLoginAlerts | frontend/src/pages/Login/index.tsx:50 | a refused login always shows a non-empty alert |
| RegisterPage.EveryTypeHasAnArea | frontend/src/pages/Register/index.tsx:98-101 | every selectable user type is one the login page can route |
| RegisterPage.SignUp | frontend/src/pages/Register/index.tsx:24-66 | the request is sent exactly when every field is filled; navigation to `/login` happens exactly on a 2xx success; exactly one alert on every path |
| RegisterPage.SuccessNeedsOkStatus | frontend/src/pages/Register/index.tsx:51 | a success body with a non-2xx status is treated as a failure |
| RegisterPage.SignUpOpensLogin | frontend/src/pages/Register/index.tsx:56 | the success target is the login screen |
| RegisterPage.DisabledFormIsStopped | frontend/src/pages/Register/index.tsx:110 | the form the disabled button describes (no type chosen) is never sent |
| Router.PathPartKeepsPrefix | frontend/src/Router.tsx:13-27 | stripping the query keeps a query-free prefix intact |
| Router.PathPart | frontend/src/Router.tsx:13-27 | the matched part is a query-free prefix of the location, and a location without '?' is matched whole |
| Router.Match | frontend/src/Router.tsx:13-27 | each fixed page is matched exactly at its path; a farm page only at its prefix followed by a non-empty id segment |
| Router.Resolve | frontend/src/Router.tsx:13-27 | a location without a query resolves as its path is matched; a farm page is opened only by a location starting with its prefix and the farm id |
| Router.HeatMapPathResolves | frontend/src/Router.tsx:24 | `/heat-map/<id>` with or without a query opens that farm's heat map |
| Router.ReportPathResolves | frontend/src/Router.tsx:26 | `/relatorio/<id>` opens that farm's report |
| Router.BelowProducerAreaUnrouted | frontend/src/Router.tsx:13-27 | no path that continues below `/area-produtor/` into a further segment is routed |
| Router.FixedPathsResolve | frontend/src/Router.tsx:15-21 | the login and the three role areas are routed to their screens |
| Numerals.IntTextRoundTrip | backend/MVC/controllers/mosaiqueiroController.py:32 | an id the page turned into text is read back by `int()` as the same id |
| Numerals.FloatOfIntText | backend/MVC/controllers/operadorController.py:101-102 | `float()` of an integer's text is that integer |
| Numerals.FloatOfDigits | backend/MVC/controllers/operadorController.py:101-102 | `float()` of a run of digits is the number they spell |
| Numerals.ParseIntOfDigits | backend/MVC/controllers/operadorController.py:99 | `int()` of a run of digits is the number they spell |
| FlaskApp.Mount | backend/MVC/app.py:26-29 | a registered blueprint serves each of its rules, in order, at the prefix followed by the rule's path, with the same method and view |
| FlaskApp.Lookup | backend/MVC/app.py:26-29 | a request finds a view only through a rule with its method and path, and finds one whenever such a rule exists |
| FlaskApp.LookupAppend | backend/MVC/app.py:26-29 | the map of several blueprints answers as the first blueprint that has a rule for the request |
| FlaskApp.Dispatch | backend/MVC/app.py:26-29 | every served rule is reached by its method and path, whatever the query; otherwise only the producer's two farm-id routes, for GET with a run of digits; everything else is a 404 |
| FlaskApp.PathOfDropsQuery | backend/MVC/app.py:26-29 | a path followed by a query is dispatched on the path alone |
| FlaskApp.OperadorRulesPrefixed | backend/MVC/controllers/operadorController.py:26-61 | the operator's rules as written are its intended rules with `/area-operador` already in front |
| FlaskApp.MosaiqueiroRulesPrefixed | backend/MVC/controllers/mosaiqueiroController.py:8-21 | the mosaiqueiro's rules as written are its intended rules with `/area-mosaiqueiro` already in front |
| FlaskApp.AsWrittenMountsTwice | backend/MVC/app.py:28-29 | registered under its prefix, each of those two blueprints ends up mounted under the prefix twice |
| FlaskApp.MosaiqueiroFarmsUnservedAsWritten | backend/MVC/controllers/mosaiqueiroController.py:8-21 | as registered, no rule serves `/area-mosaiqueiro/fazendas` |
| FlaskApp.MosaiqueiroDoubledPathServed | backend/MVC/controllers/mosaiqueiroController.py:8-21 | as registered, the mosaiqueiro's views are served at `/area-mosaiqueiro/area-mosaiqueiro/fazendas` |
| FlaskApp.MosaiqueiroFarmsServedAsIntended | backend/MVC/app.py:29 | with the intended rules, `/area-mosaiqueiro/fazendas` reaches the search (GET) or link (POST) view |
| FlaskApp.MosaiqueiroFarmsDispatch | backend/MVC/app.py:29 | with any query: as registered the page's path is a 404 and the doubled path is served; with the intended rules the page's path is served |

## Left out

- The database is abstracted into `Store`: cursors, commits and the `usuarios` table's other columns are not modelled, and neither are connections, except the search routes' long-lived one (`FarmLinkRoutes.Connection`). Foreign keys are not enforced, except the `usuarios` join that `buscar_fazenda_por_id` performs.
- `Flask.ToFloat` and `Flask.ToInt` accept a decimal subset of Python's `float()` and `int()`. Exponents, `inf`, `nan`, underscores and surrounding whitespace are not modelled.
- The 500 replies built from an exception's text (`f'... {e}'`) carry only the fixed prefix. Python's exception messages are not modelled.
- MySQL's coercion of a non-string CCIR or name into a VARCHAR is not modelled. Stored values keep their JSON value.
- `secure_filename`, saving the file to `uploads/` and the image analyser are parameters of `UploadImage`: the stored name, the verdict (or none, when saving or analysing raises), and how the transaction ends: committed, or rolled back before or after the `imagens` insert took its AUTO_INCREMENT value.
- The route `/area-operador/fazendas/associadas` and the mosaiqueiro page's `fetchAssociatedFarms` effect are not modelled. They call a DAO method that is not part of this model.
- The report page (`Relatorio`) is not part of this model. Its report is produced by `ProdutorController.FarmReport`.
- Geometry is not modelled: the farm circle's radius, zoom, tile layer, colours and blur. Also left out are `toFixed`, the formatting of numbers as text in the listings and in the heat map's farm (`str()` of latitude and longitude), and `parseFloat` of the farm's coordinates.
- Dates, preview URLs, file sizes in MB and `lastInspection` come from the clock or the browser and are left out. Photo ids are given to `AddFiles` by the caller; the source builds them from the clock and `Math.random`.
- The Operador timers are abstracted into events. `Tick` takes the random increment, constrained to the source's range [5, 20). `Finish` is the processing timeout firing. The delays of 300 ms and 2–5 s are not modelled.
- HTML `required` attributes are not modelled. They are browser-side validation the React handlers never see.
- Trailing slashes, URL-encoding and the `userType` query parameter are not modelled in `Router`. The router keeps only the path part of a URL, and the heat-map page never reads the query.
- `MosaiqueiroPage.FromRow`: a farm name that is not a string becomes a missing name on the page, which then shows "Sem nome".
- The heat-map page draws mock data, not the backend's heat-map reply, and the model draws the same sample farm and images. The code draws one heat layer of the anomalous points and one circle marker per normal image, and the model follows the code.
- `ProdutorPage.LoadFarms`: a success answer without a `fazendas` array is not modelled. The page would then store `undefined`.
- `ProdutorController.BuildReport` and `ProdutorController.ReportCounts`: MySQL's `SUM` yields a DECIMAL, which `jsonify` writes as a JSON string, so `anomalousImages`, `normalImages` and the values of `anomalyTypes` are sent as text. The model keeps them as integers.
- `Store.FarmsWithCcir` and `Store.CcirTaken`: these compare CCIRs exactly. MySQL's default collation compares case- and accent-insensitively.
- `Flask.Body`: request bodies are JSON objects whose fields are scalars. Flask's other outcomes are not modelled. `get_json()` answers a body that is not sent as JSON with 415, and malformed JSON with 400. A JSON `null`, array or string body makes `data.get` raise AttributeError, which Flask turns into an HTML 500. A field holding an array or object is truthy unless empty and would reach `float()`, `int()` or MySQL.
- `Router.Match`: matching is case-sensitive. React Router matches paths case-insensitively.
- `FlaskApp.Dispatch` covers the producer, operator and mosaiqueiro blueprints. The `auth`, upload and status blueprints and the `/` route are not part of this model. Werkzeug's other answers are not modelled either: 405 for a known path with another method, and the redirect for a missing trailing slash.
- The search page puts the typed CCIR into the query without URL-encoding it. The model hands the route the CCIR as typed, which holds only when the CCIR has no `&`, `#`, `+` or `%`.
- The operator's rules are served under the prefix twice, like the mosaiqueiro's (`FlaskApp.AsWrittenMountsTwice`). No page of this model calls them; the operator page's uploads are simulated.
- The older copy of the frontend under `Front-End/` is not part of this model.

## Findings

| source | as written | input that shows it | evidently intended | confidence | as-written member | corrected member |
|---|---|---|---|---|---|---|
| backend/MVC/controllers/produtorController.py:51 | calls `fazenda_dao.buscar_fazendas_por_produtor`, which `FazendaDAO` does not define; the AttributeError becomes a 500 | any logged-in producer, any database | list the producer's own farms with 200 | not executed | ProdutorController.ListFarmsAsWritten | ProdutorController.ListFarms |
| backend/MVC/controllers/produtorController.py:80 | reads `detalhes_fazenda['cpf_produtor']`, but `buscar_fazenda_por_id` selects the owner as `producerCpf`; the KeyError becomes a 500 | the owner asking for the heat map of an existing farm | compare `producerCpf` with the session's CPF | not executed | ProdutorController.HeatMapAsWritten | ProdutorController.HeatMap |
| backend/MVC/controllers/produtorController.py:124 | reads `farm_data['cpf_produtor']`, with the same missing key; every existing farm gets a 500 | the owner asking for the report of an existing farm | compare `producerCpf` with the session's CPF | not executed | ProdutorController.FarmReportAsWritten | ProdutorController.FarmReport |
| frontend/src/pages/Produtor/index.tsx:114 | navigates to `/area-produtor/heat-map/<id>`, which no route in `Router.tsx` matches | choosing farm "7" in the heat-map dialog | navigate to the routed `/heat-map/<id>`, as the mosaiqueiro page does | not executed | ProdutorPage.FarmSelectAsWritten | ProdutorPage.FarmSelect |
| backend/MVC/model/usuario_fazenda_dao.py:32 | the search's SELECT runs on the controller's module-level connection (operadorController.py:17, mosaiqueiroController.py:6). Autocommit is off and only a successful link commits, so under InnoDB's REPEATABLE READ every search reads the snapshot fixed by the first search after the last successful link | an operator searches CCIR "A"; a producer then creates a farm with CCIR "B"; the operator searches "B" and gets 200 with no farm | each search reads the committed farms, as the producer routes do by opening a connection per request | not executed; medium: relies on MySQL's default isolation level | FarmLinkRoutes.StaleSearchMissesNewFarm | FarmLinkRoutes.FreshSearchSeesNewFarm |
| backend/MVC/controllers/mosaiqueiroController.py:8 | the rule is `/area-mosaiqueiro/fazendas`, and `app.py` registers the blueprint under `/area-mosaiqueiro`, so the view is served at `/area-mosaiqueiro/area-mosaiqueiro/fazendas` and the page's search gets a 404 | any search from the mosaiqueiro page, e.g. CCIR "123" with a session | the rule `/fazendas`, served at the path the page requests | not executed | MosaiqueiroPage.SearchAsWrittenFails | MosaiqueiroPage.SearchAgainstBackend |
| backend/MVC/controllers/mosaiqueiroController.py:21 | the POST rule carries the same doubled prefix; the CORS preflight of the page's JSON POST gets a 404, so the browser refuses it and `fetch` rejects before the POST is sent | confirming any farm from the mosaiqueiro page | the rule `/fazendas`, so the link is stored | not executed | MosaiqueiroPage.ConfirmAsWrittenFails | MosaiqueiroPage.AssociateRequestLinksFarm |

=== FILE: farm_health.dfy ===
/**
 * The farm-health status of the report route: critical from 70 % anomalous
 * images up, warning from 30 %, healthy below that and for a farm with no
 * images. The frontend pages carry the same three statuses.
 */
module FarmHealth {

  datatype Health = Healthy | Warning | Critical

  /** The status string the JSON carries. */
  function HealthName(h: Health): string {
    match h
    case Healthy => "healthy"
    case Warning => "warning"
    case Critical => "critical"
  }

  /** Severity order: healthy < warning < critical. */
  function Severity(h: Health): nat {
    match h
    case Healthy => 0
    case Warning => 1
    case Critical => 2
  }

  /**
   * The report's status rule on integer counts. The contract states it on
   * the anomalous share `anomalous / total` as an exact ratio.
   */
  function Classify(total: int, anomalous: int): (h: Health)
    ensures total <= 0 ==> h == Healthy
    ensures total > 0 ==> (h == Critical <==> anomalous as real / total as real >= 0.7)
    ensures total > 0 ==> (h == Warning <==> 0.3 <= anomalous as real / total as real < 0.7)
    ensures total > 0 ==> (h == Healthy <==> anomalous as real / total as real < 0.3)
  {
    if total > 0 then
      RatioThreshold(anomalous, total, 70);
      RatioThreshold(anomalous, total, 30);
      if 100 * anomalous >= 70 * total then Critical
      else if 100 * anomalous >= 30 * total then Warning
      else Healthy
    else Healthy
  }

  /** The ratio comparison and the cross-multiplied integer comparison agree. */
  lemma RatioThreshold(a: int, t: int, pct: int)
    requires t > 0
    ensures a as real / t as real >= pct as real / 100.0 <==> 100 * a >= pct * t
  {
    var q := a as real / t as real;
    assert q * t as real == a as real;
    if 100 * a >= pct * t {
      assert (100 * a) as real >= (pct * t) as real;
      assert q * 100.0 * t as real >= pct as real * t as real;
      assert q * 100.0 >= pct as real;
    } else {
      assert (100 * a) as real < (pct * t) as real;
      assert q * 100.0 * t as real < pct as real * t as real;
      assert q * 100.0 < pct as real;
    }
  }

  /** With the total fixed, more anomalous images never give a better status. */
  lemma ClassifyMonotone(total: int, a1: int, a2: int)
    requires a1 <= a2
    ensures Severity(Classify(total, a1)) <= Severity(Classify(total, a2))
  {
  }

  /** The thresholds are inclusive: exactly 70 % is critical and exactly 30 % is a warning. */
  lemma ThresholdsInclusive(k: int)
    requires k > 0
    ensures Classify(10 * k, 7 * k) == Critical
    ensures Classify(10 * k, 3 * k) == Warning
    ensures Classify(10 * k, 7 * k - 1) == Warning
    ensures Classify(10 * k, 3 * k - 1) == Healthy
  {
  }
}

=== FILE: farm_link_routes.dfy ===
/**
 * The two routes the operator and mosaiqueiro controllers both define, with
 * the same guards and messages: list farms by CCIR and link the logged-in
 * user to a farm.
 */
module FarmLinkRoutes {
  import opened Wrappers
  import opened Flask
  import opened Store

  const CcirRequired: string := "ccir é obrigatório."
  const FarmIdRequired: string := "farm_id é obrigatório."
  const AlreadyLinked: string := "Já associado a essa fazenda."
  /** Prefix of the 500 message; the exception text that follows it is not modelled. */
  const LinkFailed: string := "Erro ao associar fazenda: "

  /** Query-string parameters: `request.args`. */
  type Args = map<string, string>

  /** `request.args.get(k)`: None when absent. */
  function Arg(args: Args, k: string): Option<string> {
    if k in args then Some(args[k]) else None
  }

  /** `GET .../fazendas?ccir=`: 401, then 400 for a missing or empty `ccir`, else the farms with that CCIR. */
  function ListByCcir(session: Option<Cpf>, args: Args, db: Db): (r: Reply<seq<CcirRow>>)
    ensures session.None? ==> r == Fail(401, NotAuthenticated)
    ensures session.Some? && (Arg(args, "ccir").None? || Arg(args, "ccir") == Some("")) ==> r == Fail(400, CcirRequired)
    ensures r.code == 200 <==> session.Some? && "ccir" in args && args["ccir"] != ""
    ensures r.code == 200 ==> r.payload.Success?
    ensures r.code == 200 ==> forall row :: row in r.payload.data <==>
              exists f :: f in db.farms && f.ccir == Str(args["ccir"]) && row == ToCcirRow(f)
  {
    if session.None? then Fail(401, NotAuthenticated)
    else match Arg(args, "ccir")
      case None => Fail(400, CcirRequired)
      case Some(ccir) => if ccir == "" then Fail(400, CcirRequired) else Reply(200, Success(FarmsWithCcir(db.farms, ccir)))
  }

  /** `POST .../fazendas`: 401, then 400 for a falsy `farm_id`, 500 when `int()` fails, 409 for a link that exists, else 201. */
  function Associate(session: Option<Cpf>, body: Body, db: Db): (r: (Reply<()>, Db))
    ensures session.None? ==> r.0 == Fail(401, NotAuthenticated) && r.1 == db
    ensures session.Some? && !Truthy(Get(body, "farm_id")) ==> r.0 == Fail(400, FarmIdRequired) && r.1 == db
    ensures r.0.code == 500 <==> session.Some? && Truthy(Get(body, "farm_id")) && ToInt(Get(body, "farm_id")).None?
    ensures r.0.code == 409 <==>
              session.Some? && Truthy(Get(body, "farm_id")) && ToInt(Get(body, "farm_id")).Some?
              && (session.value, ToInt(Get(body, "farm_id")).value) in db.links
    ensures r.0.code == 201 <==>
              session.Some? && Truthy(Get(body, "farm_id")) && ToInt(Get(body, "farm_id")).Some?
              && (session.value, ToInt(Get(body, "farm_id")).value) !in db.links
    ensures r.0.code in {201, 400, 401, 409, 500}
    ensures r.0.code == 201 ==> r.0.payload.Success?
    ensures r.0.code == 201 ==>
              r.1 == db.(links := db.links + {(session.value, ToInt(Get(body, "farm_id")).value)})
    ensures r.0.code != 201 ==> r.1 == db && r.0.payload.Error?
  {
    if session.None? then (Fail(401, NotAuthenticated), db)
    else
      var farmId := Get(body, "farm_id");
      if !Truthy(farmId) then (Fail(400, FarmIdRequired), db)
      else match ToInt(farmId)
        case None => (Fail(500, LinkFailed), db)
        case Some(id) =>
          match InsertLink(db, session.value, id)
          case None => (Fail(409, AlreadyLinked), db)
          case Some(db') => (Reply(201, Success(())), db')
  }

  // ---------------------------------------------------------- the connection

  /**
   * The module-level `UsuarioFazendaDAO` each controller builds at import:
   * one MySQL connection for the life of the process, with autocommit off.
   * Under InnoDB's default REPEATABLE READ the first SELECT of a transaction
   * fixes a snapshot that later SELECTs read until the transaction ends, and
   * the only commit on this connection is a successful link. `snapshot` is
   * the open transaction's snapshot, if one was taken.
   */
  datatype Connection = Connection(snapshot: Option<Db>)

  /** The connection as built at import: no transaction has read anything. */
  const FreshConnection: Connection := Connection(None)

  /**
   * `GET .../fazendas?ccir=` as the source runs it on the shared connection:
   * the guards touch no connection; the SELECT reads the open snapshot, or
   * the committed database, which then becomes the snapshot.
   */
  function ListByCcirOn(session: Option<Cpf>, args: Args, conn: Connection, db: Db)
    : (r: (Reply<seq<CcirRow>>, Connection))
    ensures r.0.code == 200 <==> session.Some? && "ccir" in args && args["ccir"] != ""
    ensures r.0.code != 200 ==> r.0 == ListByCcir(session, args, db) && r.1 == conn
    ensures r.0.code == 200 ==> r.1.snapshot == (if conn.snapshot.Some? then conn.snapshot else Some(db))
    ensures r.0.code == 200 ==> r.0.payload.Success? && forall row :: row in r.0.payload.data <==>
              exists f :: f in r.1.snapshot.value.farms && f.ccir == Str(args["ccir"]) && row == ToCcirRow(f)
  {
    if session.None? || Arg(args, "ccir").None? || Arg(args, "ccir") == Some("") then
      (ListByCcir(session, args, db), conn)
    else
      var view := if conn.snapshot.Some? then conn.snapshot.value else db;
      (ListByCcir(session, args, view), Connection(Some(view)))
  }

  /**
   * `POST .../fazendas` on the shared connection. The INSERT checks the
   * latest committed links, not the snapshot; a successful link commits and
   * so ends the snapshot, and every other outcome leaves the transaction open.
   */
  function AssociateOn(session: Option<Cpf>, body: Body, conn: Connection, db: Db): (r: (Reply<()>, Db, Connection))
    ensures (r.0, r.1) == Associate(session, body, db)
    ensures r.0.code == 201 ==> r.2 == FreshConnection
    ensures r.0.code != 201 ==> r.2 == conn
  {
    var (reply, db') := Associate(session, body, db);
    (reply, db', if reply.code == 201 then FreshConnection else conn)
  }

  /** Once a snapshot is open, the search answers the same whatever has been committed since. */
  lemma SnapshotIgnoresLaterWrites(session: Option<Cpf>, args: Args, conn: Connection, db1: Db, db2: Db)
    requires conn.snapshot.Some?
    requires session.Some? && "ccir" in args && args["ccir"] != ""
    ensures ListByCcirOn(session, args, conn, db1) == ListByCcirOn(session, args, conn, db2)
  {
  }

  /** No farm of the database has this CCIR, so the search finds none. */
  lemma NoRowsWithoutCcir(farms: seq<FarmRow>, ccir: string)
    requires !CcirTaken(farms, Str(ccir))
    ensures FarmsWithCcir(farms, ccir) == []
  {
  }

  /**
   * As written: a user searches once, a producer then creates a farm with a
   * new CCIR, and the same user's search for that CCIR still answers 200
   * with no farm, because it reads the snapshot of the first search.
   */
  lemma {:induction false} StaleSearchMissesNewFarm(cpf: Cpf, first: string, ccir: string, db: Db,
                                                    owner: Cpf, nome: Value, latitude: real, longitude: real, area: real)
    requires first != "" && ccir != ""
    requires !CcirTaken(db.farms, Str(ccir))
    ensures var conn1 := ListByCcirOn(Some(cpf), map["ccir" := first], FreshConnection, db).1;
            var db2 := InsertFarm(db, owner, Str(ccir), nome, latitude, longitude, area).1;
            && InsertFarm(db, owner, Str(ccir), nome, latitude, longitude, area).0.Some?
            && ListByCcirOn(Some(cpf), map["ccir" := ccir], conn1, db2).0 == Reply(200, Success([]))
  {
    NoRowsWithoutCcir(db.farms, ccir);
  }

  /**
   * Corrected: a search that reads the committed database, as `ListByCcir`
   * does, lists a farm created just before it.
   */
  lemma FreshSearchSeesNewFarm(cpf: Cpf, ccir: string, db: Db,
                               owner: Cpf, nome: Value, latitude: real, longitude: real, area: real)
    requires ccir != ""
    requires !CcirTaken(db.farms, Str(ccir))
    ensures var ins := InsertFarm(db, owner, Str(ccir), nome, latitude, longitude, area);
            && ins.0.Some?
            && ToCcirRow(FarmRow(ins.0.value, owner, Str(ccir), nome, latitude, longitude, area))
               in ListByCcir(Some(cpf), map["ccir" := ccir], ins.1).payload.data
  {
  }

  /** A successful link commits, so the next search reads the committed database again. */
  lemma LinkRefreshesSearch(session: Option<Cpf>, body: Body, args: Args, conn: Connection, db: Db)
    requires AssociateOn(session, body, conn, db).0.code == 201
    ensures var (_, db1, conn1) := AssociateOn(session, body, conn, db);
            ListByCcirOn(session, args, conn1, db1).0 == ListByCcir(session, args, db1)
  {
  }

  /** Linking is idempotent on the database: repeating a successful request gets 409 and changes nothing. */
  lemma AssociateTwice(cpf: Cpf, body: Body, db: Db)
    requires Associate(Some(cpf), body, db).0.code == 201
    ensures var db1 := Associate(Some(cpf), body, db).1;
            Associate(Some(cpf), body, db1) == (Fail(409, AlreadyLinked), db1)
  {
  }

  /** Whatever the outcome, the links afterwards are the links before plus at most the requested pair. */
  lemma AssociateLinksOnlyThePair(session: Option<Cpf>, body: Body, db: Db)
    ensures var db1 := Associate(session, body, db).1;
            && db.links <= db1.links
            && db1.(links := db.links) == db
            && |db1.links - db.links| <= 1
            && (db1.links != db.links ==>
                  && session.Some? && ToInt(Get(body, "farm_id")).Some?
                  && db1.links - db.links == {(session.value, ToInt(Get(body, "farm_id")).value)})
  {
    var db1 := Associate(session, body, db).1;
    if db1.links != db.links {
      var p := (session.value, ToInt(Get(body, "farm_id")).value);
      assert db1.links - db.links == {p};
    } else {
      assert db1.links - db.links == {};
    }
  }
}

=== FILE: flask.dfy ===
/**
 * The request and response vocabulary shared by the Flask controllers: JSON
 * values with Python's truthiness, `dict.get`, the `or` operator, the
 * built-in conversions `int()` / `float()`, and a reply made of an HTTP code
 * and a `{'status': 'success' | 'error', ...}` body.
 */
module Flask {
  import opened Wrappers
  import Numerals

  /** A JSON value of a request body or form, as Python sees it after decoding. */
  datatype Value = Null | Bool(b: bool) | Num(x: real) | Str(s: string)

  /** A decoded JSON object. */
  type Body = map<string, Value>

  /** Python's truth value: `None`, `False`, `0` and `''` are false. */
  predicate Truthy(v: Value) {
    match v
    case Null => false
    case Bool(b) => b
    case Num(x) => x != 0.0
    case Str(s) => s != ""
  }

  /** `d.get(k)`: a missing key reads as `None`. */
  function Get(d: Body, k: string): (v: Value)
    ensures k !in d ==> v == Null
  {
    if k in d then d[k] else Null
  }

  /** Python's `a or b`: the first operand when it is truthy, otherwise the second. */
  function Or(a: Value, b: Value): (r: Value)
    ensures Truthy(a) ==> r == a
    ensures !Truthy(a) ==> r == b
    ensures Truthy(r) <==> Truthy(a) || Truthy(b)
  {
    if Truthy(a) then a else b
  }

  /** Python's `all([...])`. */
  predicate AllTruthy(vs: seq<Value>) {
    forall i :: 0 <= i < |vs| ==> Truthy(vs[i])
  }

  /** Exactly four values are falsy: `None`, `False`, zero and the empty text. */
  lemma FalsyValues(v: Value)
    ensures !Truthy(v) <==> v == Null || v == Bool(false) || v == Num(0.0) || v == Str("")
  {
  }

  /** Python's `float(v)`: None where it raises. */
  function ToFloat(v: Value): (r: Option<real>)
    ensures v.Null? ==> r.None?
    ensures v.Num? ==> r == Some(v.x)
    ensures v.Str? && |v.s| > 0 && Numerals.IsDigits(v.s) ==> r == Some(Numerals.DigitsValue(v.s) as real)
  {
    match v
    case Null => None
    case Bool(b) => Some(if b then 1.0 else 0.0)
    case Num(x) => Some(x)
    case Str(s) =>
      if |s| > 0 && Numerals.IsDigits(s) then Numerals.FloatOfDigits(s); Numerals.ParseFloat(s)
      else Numerals.ParseFloat(s)
  }

  /** Python's `int(v)`: None where it raises; a number is truncated toward zero. */
  function ToInt(v: Value): (r: Option<int>)
    ensures v.Null? ==> r.None?
    ensures v.Num? ==> r.Some? && (if v.x >= 0.0 then 0.0 <= r.value as real <= v.x < r.value as real + 1.0
                                   else r.value as real - 1.0 < v.x <= r.value as real <= 0.0)
    ensures v.Str? && |v.s| > 0 && Numerals.IsDigits(v.s) ==> r == Some(Numerals.DigitsValue(v.s) as int)
  {
    match v
    case Null => None
    case Bool(b) => Some(if b then 1 else 0)
    case Num(x) => Some(Numerals.Truncate(x))
    case Str(s) =>
      if |s| > 0 && Numerals.IsDigits(s) then Numerals.ParseIntOfDigits(s); Numerals.ParseInt(s)
      else Numerals.ParseInt(s)
  }

  /** The JSON body of a reply: `{'status': 'success', ...data}` or `{'status': 'error', 'message': ...}`. */
  datatype Payload<+T> = Success(data: T) | Error(message: string)

  /** A Flask reply: HTTP status code and body. */
  datatype Reply<+T> = Reply(code: int, payload: Payload<T>)

  /** An error reply with the given code and message. */
  function Fail<T>(code: int, message: string): (r: Reply<T>)
    ensures r.code == code && r.payload.Error? && r.payload.message == message
  {
    Reply(code, Error(message))
  }

  /** The message every controller sends when the session holds no `cpf`. */
  const NotAuthenticated: string := "Usuário não autenticado."
}

=== FILE: flask_app.dfy ===
/**
 * The application's URL map: each controller's blueprint is registered under
 * a prefix, and Flask serves every rule of the blueprint at the prefix
 * followed by the rule. The operator and mosaiqueiro blueprints write that
 * prefix into their rules again, so their routes are served under the prefix
 * twice. `asWritten` selects those rules; without it the rules carry no
 * prefix of their own.
 */
module FlaskApp {
  import opened Wrappers
  import Numerals

  datatype Method = Get | Post

  /** The view function a request reaches. */
  datatype Endpoint =
    | CreateFarm | ListOwnFarms | HeatMap(farmId: nat) | Report(farmId: nat)
    | OperatorListByCcir | OperatorAssociate | OperatorAssociatedFarms | OperatorUpload
    | MosaiqueiroListByCcir | MosaiqueiroAssociate

  /** A rule of a blueprint or of the whole map: method, path, endpoint. */
  datatype Rule = Rule(verb: Method, path: string, endpoint: Endpoint)

  const ProdutorPrefix: string := "/area-produtor"
  const OperadorPrefix: string := "/area-operador"
  const MosaiqueiroPrefix: string := "/area-mosaiqueiro"

  /** The producer blueprint's rules without a path parameter. */
  function ProdutorRules(): seq<Rule> {
    [Rule(Post, "/fazendas", CreateFarm), Rule(Get, "/fazendas", ListOwnFarms)]
  }

  /** The operator blueprint's rules; as written each one starts with the blueprint's prefix. */
  function OperadorRules(asWritten: bool): seq<Rule> {
    var p := if asWritten then OperadorPrefix else "";
    [Rule(Get, p + "/fazendas", OperatorListByCcir), Rule(Post, p + "/fazendas", OperatorAssociate),
     Rule(Get, p + "/fazendas/associadas", OperatorAssociatedFarms), Rule(Post, p + "/upload/imagem", OperatorUpload)]
  }

  /** The mosaiqueiro blueprint's rules; as written each one starts with the blueprint's prefix. */
  function MosaiqueiroRules(asWritten: bool): seq<Rule> {
    var p := if asWritten then MosaiqueiroPrefix else "";
    [Rule(Get, p + "/fazendas", MosaiqueiroListByCcir), Rule(Post, p + "/fazendas", MosaiqueiroAssociate)]
  }

  /** `register_blueprint(bp, url_prefix=prefix)`: each rule is served at the prefix followed by its path. */
  function Mount(prefix: string, rules: seq<Rule>): (r: seq<Rule>)
    ensures |r| == |rules|
    ensures forall k :: 0 <= k < |r| ==>
              r[k].verb == rules[k].verb && r[k].endpoint == rules[k].endpoint && r[k].path == prefix + rules[k].path
  {
    if |rules| == 0 then [] else [rules[0].(path := prefix + rules[0].path)] + Mount(prefix, rules[1..])
  }

  /** The rules the application serves, in registration order. */
  function Served(asWritten: bool): seq<Rule> {
    Mount(ProdutorPrefix, ProdutorRules()) + Mount(OperadorPrefix, OperadorRules(asWritten))
    + Mount(MosaiqueiroPrefix, MosaiqueiroRules(asWritten))
  }

  /** The endpoint of the first rule with this method and path, or None when there is none. */
  function Lookup(rules: seq<Rule>, m: Method, path: string): (r: Option<Endpoint>)
    ensures r.Some? ==> Rule(m, path, r.value) in rules
    ensures r.None? ==> forall e :: Rule(m, path, e) !in rules
  {
    if |rules| == 0 then None
    else if rules[0].verb == m && rules[0].path == path then Some(rules[0].endpoint)
    else Lookup(rules[1..], m, path)
  }

  /** The request target without its query string. */
  function PathOf(target: string): (p: string)
    ensures p <= target
    ensures forall k :: 0 <= k < |p| ==> p[k] != '?'
  {
    target[..Numerals.IndexOf(target, '?')]
  }

  /** The `<int:farm_id>` converter after `start`: a non-empty run of digits. */
  function IdAfter(path: string, start: string): (r: Option<nat>)
    ensures r.Some? ==> |start| < |path| && path[..|start|] == start && Numerals.IsDigits(path[|start|..])
  {
    if |start| < |path| && path[..|start|] == start && Numerals.IsDigits(path[|start|..])
    then Some(Numerals.DigitsValue(path[|start|..])) else None
  }

  const HeatMapStart: string := ProdutorPrefix + "/mapa-calor/"
  const ReportStart: string := ProdutorPrefix + "/relatorio/"

  /**
   * The endpoint a request reaches, or None where Flask answers 404: the
   * served rules first, then the producer's two routes with a farm id.
   */
  function Dispatch(m: Method, target: string, asWritten: bool): (r: Option<Endpoint>)
    ensures (exists e :: Rule(m, PathOf(target), e) in Served(asWritten)) ==> r.Some?
    ensures r.Some? && !r.value.HeatMap? && !r.value.Report? ==> Rule(m, PathOf(target), r.value) in Served(asWritten)
    ensures r.Some? && r.value.HeatMap? ==> m == Get && IdAfter(PathOf(target), HeatMapStart) == Some(r.value.farmId)
    ensures r.Some? && r.value.Report? ==> m == Get && IdAfter(PathOf(target), ReportStart) == Some(r.value.farmId)
  {
    ServedWithoutFarmId(asWritten);
    Route(Served(asWritten), m, target)
  }

  /** No rule of a table leads to one of the two views that take a farm id. */
  predicate WithoutFarmId(rules: seq<Rule>) {
    forall k :: 0 <= k < |rules| ==> !rules[k].endpoint.HeatMap? && !rules[k].endpoint.Report?
  }

  /** The served rules are the routes without a path parameter. */
  lemma ServedWithoutFarmId(asWritten: bool)
    ensures WithoutFarmId(Served(asWritten))
  {
    var a := Mount(ProdutorPrefix, ProdutorRules());
    var b := Mount(OperadorPrefix, OperadorRules(asWritten));
    var c := Mount(MosaiqueiroPrefix, MosaiqueiroRules(asWritten));
    assert WithoutFarmId(a) && WithoutFarmId(b) && WithoutFarmId(c);
    assert Served(asWritten) == a + b + c;
  }

  /** Dispatching over a table of rules without farm-id views. */
  function Route(rules: seq<Rule>, m: Method, target: string): (r: Option<Endpoint>)
    requires WithoutFarmId(rules)
    ensures (exists e :: Rule(m, PathOf(target), e) in rules) ==> r.Some?
    ensures r.Some? && !r.value.HeatMap? && !r.value.Report? ==> Rule(m, PathOf(target), r.value) in rules
    ensures r.Some? && r.value.HeatMap? ==> m == Get && IdAfter(PathOf(target), HeatMapStart) == Some(r.value.farmId)
    ensures r.Some? && r.value.Report? ==> m == Get && IdAfter(PathOf(target), ReportStart) == Some(r.value.farmId)
  {
    var path := PathOf(target);
    match Lookup(rules, m, path)
    case Some(e) => Some(e)
    case None =>
      if m != Get then None
      else if IdAfter(path, HeatMapStart).Some? then Some(HeatMap(IdAfter(path, HeatMapStart).value))
      else if IdAfter(path, ReportStart).Some? then Some(Report(IdAfter(path, ReportStart).value))
      else None
  }

  /** As written, the operator's rules are its intended rules already mounted under its prefix. */
  lemma OperadorRulesPrefixed()
    ensures OperadorRules(true) == Mount(OperadorPrefix, OperadorRules(false))
  {
    var written, mounted := OperadorRules(true), Mount(OperadorPrefix, OperadorRules(false));
    forall k | 0 <= k < 4
      ensures written[k] == mounted[k]
    {
      assert OperadorRules(false)[k].path == written[k].path[|OperadorPrefix|..];
    }
  }

  /** As written, the mosaiqueiro's rules are its intended rules already mounted under its prefix. */
  lemma MosaiqueiroRulesPrefixed()
    ensures MosaiqueiroRules(true) == Mount(MosaiqueiroPrefix, MosaiqueiroRules(false))
  {
    var written, mounted := MosaiqueiroRules(true), Mount(MosaiqueiroPrefix, MosaiqueiroRules(false));
    forall k | 0 <= k < 2
      ensures written[k] == mounted[k]
    {
      assert MosaiqueiroRules(false)[k].path == written[k].path[|MosaiqueiroPrefix|..];
    }
  }

  /**
   * The URL map as written is the intended one with the operator and
   * mosaiqueiro blueprints mounted under their prefix twice; the producer's
   * rules are the same in both.
   */
  lemma AsWrittenMountsTwice()
    ensures Served(true) == Mount(ProdutorPrefix, ProdutorRules())
                            + Mount(OperadorPrefix, Mount(OperadorPrefix, OperadorRules(false)))
                            + Mount(MosaiqueiroPrefix, Mount(MosaiqueiroPrefix, MosaiqueiroRules(false)))
  {
    OperadorRulesPrefixed();
    MosaiqueiroRulesPrefixed();
  }

  /** A path followed by a query string is dispatched on the path alone. */
  lemma PathOfDropsQuery(path: string, query: string)
    requires forall k :: 0 <= k < |path| ==> path[k] != '?'
    requires query == "" || query[0] == '?'
    ensures PathOf(path + query) == path
  {
    Numerals.IndexOfPast(path, query, '?');
    assert Numerals.IndexOf(query, '?') == 0;
    assert (path + query)[..|path|] == path;
  }

  /** The mosaiqueiro page's path for its farm search and its link request. */
  const MosaiqueiroFarms: string := MosaiqueiroPrefix + "/fazendas"

  /** Looking a request up in two tables one after the other is looking it up in their concatenation. */
  lemma {:induction false} LookupAppend(a: seq<Rule>, b: seq<Rule>, m: Method, path: string)
    ensures Lookup(a + b, m, path) == if Lookup(a, m, path).Some? then Lookup(a, m, path) else Lookup(b, m, path)
  {
    if |a| == 0 {
      assert a + b == b;
    } else {
      assert (a + b)[1..] == a[1..] + b;
      LookupAppend(a[1..], b, m, path);
    }
  }

  /** A blueprint of a GET and a POST rule at one path, mounted: the method picks the view. */
  lemma MountedFarms(prefix: string, rules: seq<Rule>, path: string, m: Method)
    requires |rules| == 2 && rules[0].verb == Get && rules[1].verb == Post
    requires prefix + rules[0].path == path && prefix + rules[1].path == path
    ensures Lookup(Mount(prefix, rules), m, path) == Some(if m == Get then rules[0].endpoint else rules[1].endpoint)
  {
    var c := Mount(prefix, rules);
    assert c[0] == Rule(Get, path, rules[0].endpoint);
    assert c[1] == Rule(Post, path, rules[1].endpoint);
    assert c[1..][1..] == [];
  }

  /** The producer's mounted rules all have 23-character paths, so they miss any other path. */
  lemma ProdutorMisses(m: Method, path: string)
    requires |path| != 23
    ensures Lookup(Mount(ProdutorPrefix, ProdutorRules()), m, path) == None
  {
    var a := Mount(ProdutorPrefix, ProdutorRules());
    assert forall k :: 0 <= k < |a| ==> |a[k].path| == 23;
  }

  /** The operator's mounted rules miss both mosaiqueiro paths, with the rules as written or intended. */
  lemma OperadorMisses(m: Method, path: string, asWritten: bool)
    requires |path| == 26 || |path| == 43
    ensures Lookup(Mount(OperadorPrefix, OperadorRules(asWritten)), m, path) == None
  {
    var b := Mount(OperadorPrefix, OperadorRules(asWritten));
    if asWritten {
      assert |b[0].path| == 37 && |b[1].path| == 37 && |b[2].path| == 48 && |b[3].path| == 42;
    } else {
      assert |b[0].path| == 23 && |b[1].path| == 23 && |b[2].path| == 34 && |b[3].path| == 28;
    }
    assert forall k :: 0 <= k < |b| ==> |b[k].path| != |path|;
  }

  /** As written, the mosaiqueiro's mounted rules have 43-character paths. */
  lemma MosaiqueiroWrittenMisses(m: Method, path: string)
    requires |path| != 43
    ensures Lookup(Mount(MosaiqueiroPrefix, MosaiqueiroRules(true)), m, path) == None
  {
    var c := Mount(MosaiqueiroPrefix, MosaiqueiroRules(true));
    assert |c[0].path| == 43 && |c[1].path| == 43;
    assert forall k :: 0 <= k < |c| ==> |c[k].path| != |path|;
  }

  /** No rule of the URL map as written has the mosaiqueiro page's path. */
  lemma MosaiqueiroFarmsUnservedAsWritten(m: Method)
    ensures Lookup(Served(true), m, MosaiqueiroFarms) == None
  {
    var a := Mount(ProdutorPrefix, ProdutorRules());
    var b := Mount(OperadorPrefix, OperadorRules(true));
    var c := Mount(MosaiqueiroPrefix, MosaiqueiroRules(true));
    assert Lookup(a + b, m, MosaiqueiroFarms) == None by {
      ProdutorMisses(m, MosaiqueiroFarms);
      OperadorMisses(m, MosaiqueiroFarms, true);
      LookupAppend(a, b, m, MosaiqueiroFarms);
    }
    MosaiqueiroWrittenMisses(m, MosaiqueiroFarms);
    LookupAppend(a + b, c, m, MosaiqueiroFarms);
  }

  /** With the intended rules, the mosaiqueiro page's path reaches the mosaiqueiro's views. */
  lemma MosaiqueiroFarmsServedAsIntended(m: Method)
    ensures Lookup(Served(false), m, MosaiqueiroFarms) == Some(if m == Get then MosaiqueiroListByCcir else MosaiqueiroAssociate)
  {
    var a := Mount(ProdutorPrefix, ProdutorRules());
    var b := Mount(OperadorPrefix, OperadorRules(false));
    var c := Mount(MosaiqueiroPrefix, MosaiqueiroRules(false));
    assert Lookup(a + b, m, MosaiqueiroFarms) == None by {
      ProdutorMisses(m, MosaiqueiroFarms);
      OperadorMisses(m, MosaiqueiroFarms, false);
      LookupAppend(a, b, m, MosaiqueiroFarms);
    }
    assert Lookup(c, m, MosaiqueiroFarms) == Some(if m == Get then MosaiqueiroListByCcir else MosaiqueiroAssociate) by {
      MountedFarms(MosaiqueiroPrefix, MosaiqueiroRules(false), MosaiqueiroFarms, m);
    }
    LookupAppend(a + b, c, m, MosaiqueiroFarms);
  }

  /** As written, the mosaiqueiro's views are reached only through the prefix written twice. */
  lemma MosaiqueiroDoubledPathServed(m: Method)
    ensures Lookup(Served(true), m, MosaiqueiroPrefix + MosaiqueiroFarms)
            == Some(if m == Get then MosaiqueiroListByCcir else MosaiqueiroAssociate)
  {
    var path := MosaiqueiroPrefix + MosaiqueiroFarms;
    var a := Mount(ProdutorPrefix, ProdutorRules());
    var b := Mount(OperadorPrefix, OperadorRules(true));
    var c := Mount(MosaiqueiroPrefix, MosaiqueiroRules(true));
    assert Lookup(a + b, m, path) == None by {
      ProdutorMisses(m, path);
      OperadorMisses(m, path, true);
      LookupAppend(a, b, m, path);
    }
    assert Lookup(c, m, path) == Some(if m == Get then MosaiqueiroListByCcir else MosaiqueiroAssociate) by {
      MountedFarms(MosaiqueiroPrefix, MosaiqueiroRules(true), path, m);
    }
    LookupAppend(a + b, c, m, path);
  }

  /**
   * The path the mosaiqueiro page requests, with or without a query: as
   * written no rule serves it (Flask answers 404), the path with the prefix
   * twice is served instead; with the intended rules it reaches the
   * mosaiqueiro's search (GET) or link (POST) view.
   */
  lemma MosaiqueiroFarmsDispatch(m: Method, query: string)
    requires query == "" || query[0] == '?'
    ensures Dispatch(m, MosaiqueiroFarms + query, true) == None
    ensures Dispatch(m, MosaiqueiroPrefix + MosaiqueiroFarms + query, true)
            == Some(if m == Get then MosaiqueiroListByCcir else MosaiqueiroAssociate)
    ensures Dispatch(m, MosaiqueiroFarms + query, false)
            == Some(if m == Get then MosaiqueiroListByCcir else MosaiqueiroAssociate)
  {
    PathOfDropsQuery(MosaiqueiroFarms, query);
    PathOfDropsQuery(MosaiqueiroPrefix + MosaiqueiroFarms, query);
    MosaiqueiroFarmsUnservedAsWritten(m);
    MosaiqueiroFarmsServedAsIntended(m);
    MosaiqueiroDoubledPathServed(m);
    NoFarmIdInMosaiqueiroFarms();
  }

  /** The mosaiqueiro page's path is neither of the producer's paths with a farm id. */
  lemma NoFarmIdInMosaiqueiroFarms()
    ensures IdAfter(MosaiqueiroFarms, HeatMapStart).None?
    ensures IdAfter(MosaiqueiroFarms, ReportStart).None?
  {
    assert |MosaiqueiroFarms| == |HeatMapStart|;
    assert MosaiqueiroFarms[6] != ReportStart[6];
  }
}

=== FILE: js.dfy ===
/** The few JavaScript string operations the pages rely on. */
module Js {
  import opened Wrappers

  /** `x || fallback` on an optional string: `undefined`, `null` and `''` give the fallback. */
  function OrElse(x: Option<string>, fallback: string): (r: string)
    ensures x.Some? && x.value != "" ==> r == x.value
    ensures x.None? || x.value == "" ==> r == fallback
  {
    if x.Some? && x.value != "" then x.value else fallback
  }

  /** `s.startsWith(prefix)`. */
  predicate StartsWith(s: string, prefix: string) {
    |prefix| <= |s| && s[..|prefix|] == prefix
  }
}

=== FILE: login_page.dfy ===
/** The login page: the user type of a successful login picks the area the page opens. */
module LoginPage {
  import opened Wrappers
  import Js
  import Router

  /** The area of each user type; other types have none. */
  function RoleRoute(tipo: string): (route: Option<string>)
    ensures route.Some? <==> tipo in {"produtor", "operador", "mosaiqueiro"}
  {
    match tipo
    case "produtor" => Some("/area-produtor")
    case "operador" => Some("/area-operador")
    case "mosaiqueiro" => Some("/area-mosaiqueiro")
    case _ => None
  }

  /** Every area a login opens is a page of the route table: the one of that user type. */
  lemma RoleRoutesResolve(tipo: string)
    requires RoleRoute(tipo).Some?
    ensures Router.Resolve(RoleRoute(tipo).value).Some?
    ensures tipo == "produtor" ==> Router.Resolve(RoleRoute(tipo).value) == Some(Router.ProducerScreen)
    ensures tipo == "operador" ==> Router.Resolve(RoleRoute(tipo).value) == Some(Router.OperatorScreen)
    ensures tipo == "mosaiqueiro" ==> Router.Resolve(RoleRoute(tipo).value) == Some(Router.MosaiqueiroScreen)
  {
    Router.FixedPathsResolve();
  }

  /** Each user type has its own area. */
  lemma RoleRouteInjective(t1: string, t2: string)
    requires RoleRoute(t1).Some? && RoleRoute(t1) == RoleRoute(t2)
    ensures t1 == t2
  {
  }

  /** The outcome of the login request: it threw, or a JSON answer with `status`, `tipo` and `message`. */
  datatype LoginResponse =
    | LoginThrew
    | LoginAnswer(success: bool, tipo: Option<string>, message: Option<string>)

  /** What the page does: show an alert or open a page, never both. */
  datatype Outcome = Alert(text: string) | Navigate(path: string)

  const UnknownType := "Tipo de usuário não reconhecido."
  const LoginFailed := "Erro ao fazer login."
  const ConnectionFailed := "Erro de conexão com o servidor."

  /**
   * `handleLogin`: a success opens the area of the user type, or alerts for
   * an unknown type; a failure alerts the server's message or a default; a
   * thrown request alerts the connection error.
   */
  function Login(resp: LoginResponse): (o: Outcome)
    ensures o.Navigate? <==> resp.LoginAnswer? && resp.success && resp.tipo.Some? && RoleRoute(resp.tipo.value).Some?
    ensures o.Navigate? ==> o.path == RoleRoute(resp.tipo.value).value
    ensures resp.LoginThrew? ==> o == Alert(ConnectionFailed)
    ensures resp.LoginAnswer? && !resp.success ==> o == Alert(Js.OrElse(resp.message, LoginFailed))
    ensures resp.LoginAnswer? && resp.success && !(resp.tipo.Some? && RoleRoute(resp.tipo.value).Some?) ==>
              o == Alert(UnknownType)
  {
    match resp
    case LoginThrew => Alert(ConnectionFailed)
    case LoginAnswer(success, tipo, message) =>
      if !success then Alert(Js.OrElse(message, LoginFailed))
      else if tipo.None? then Alert(UnknownType)
      else match RoleRoute(tipo.value)
        case Some(path) => Navigate(path)
        case None => Alert(UnknownType)
  }

  /** A failed login never opens a page and always says something. */
  lemma FailedLoginAlerts(message: Option<string>, tipo: Option<string>)
    ensures Login(LoginAnswer(false, tipo, message)).Alert?
    ensures Login(LoginAnswer(false, tipo, message)).text != ""
  {
  }
}

=== FILE: mapa_calor_page.dfy ===
/**
 * The heat-map page. It shows a fixed sample farm and ten sample images:
 * the anomalous images feed the heat layer (weight 1 each), the normal
 * ones become blue markers with a popup. The Leaflet map is created by an
 * effect that first removes the previous map, and removed again by the
 * effect's cleanup.
 */
module HeatMapPage {
  import opened Wrappers
  import Js
  import FarmHealth
  import Router

  /** An image of the farm with its position and verdict. */
  datatype Image = Image(nome: string, lat: real, lng: real, anomala: bool)

  /** `[lat, lng, weight]` of the heat layer. */
  datatype HeatPoint = HeatPoint(lat: real, lng: real, weight: int)

  /** A circle marker and its popup HTML. */
  datatype Marker = Marker(lat: real, lng: real, popup: string)

  /** The heat layer's points: the anomalous images, in order, each with weight 1. */
  function HeatData(images: seq<Image>): (r: seq<HeatPoint>)
    ensures |r| <= |images|
    ensures forall k :: 0 <= k < |r| ==> r[k].weight == 1
  {
    if |images| == 0 then []
    else (if images[0].anomala then [HeatPoint(images[0].lat, images[0].lng, 1)] else []) + HeatData(images[1..])
  }

  function Popup(nome: string): string {
    nome + "<br><strong>Normal</strong>"
  }

  /** The markers of the images that are not anomalous, in order. */
  function NormalMarkers(images: seq<Image>): (r: seq<Marker>)
    ensures |r| <= |images|
  {
    if |images| == 0 then []
    else (if !images[0].anomala then [Marker(images[0].lat, images[0].lng, Popup(images[0].nome))] else []) + NormalMarkers(images[1..])
  }

  /** Appending an image appends its heat point exactly when it is anomalous: the layer keeps the images' order. */
  lemma {:induction false} HeatDataAppend(images: seq<Image>, img: Image)
    ensures HeatData(images + [img]) == HeatData(images) + (if img.anomala then [HeatPoint(img.lat, img.lng, 1)] else [])
  {
    if |images| == 0 {
      assert images + [img] == [img];
    } else {
      assert (images + [img])[1..] == images[1..] + [img];
      HeatDataAppend(images[1..], img);
    }
  }

  /** Appending an image appends its marker exactly when it is normal: the markers keep the images' order. */
  lemma {:induction false} NormalMarkersAppend(images: seq<Image>, img: Image)
    ensures NormalMarkers(images + [img])
            == NormalMarkers(images) + (if !img.anomala then [Marker(img.lat, img.lng, Popup(img.nome))] else [])
  {
    if |images| == 0 {
      assert images + [img] == [img];
    } else {
      var head := if !images[0].anomala then [Marker(images[0].lat, images[0].lng, Popup(images[0].nome))] else [];
      assert (images + [img])[0] == images[0];
      assert (images + [img])[1..] == images[1..] + [img];
      assert NormalMarkers(images + [img]) == head + NormalMarkers(images[1..] + [img]);
      NormalMarkersAppend(images[1..], img);
      assert NormalMarkers(images) == head + NormalMarkers(images[1..]);
    }
  }

  /** How many images are anomalous. */
  function CountAnomalous(images: seq<Image>): (n: nat)
    ensures n <= |images|
  {
    if |images| == 0 then 0 else (if images[0].anomala then 1 else 0) + CountAnomalous(images[1..])
  }

  /**
   * The layers split the images: one heat point per anomalous image and one
   * marker per normal image, so together they show every image once.
   */
  lemma {:induction false} LayersPartitionImages(images: seq<Image>)
    ensures |HeatData(images)| == CountAnomalous(images)
    ensures |NormalMarkers(images)| == |images| - CountAnomalous(images)
    ensures forall img :: img in images && img.anomala ==> HeatPoint(img.lat, img.lng, 1) in HeatData(images)
    ensures forall img :: img in images && !img.anomala ==> Marker(img.lat, img.lng, Popup(img.nome)) in NormalMarkers(images)
    ensures forall p :: p in HeatData(images) ==> exists img :: img in images && img.anomala && p == HeatPoint(img.lat, img.lng, 1)
    ensures forall m :: m in NormalMarkers(images) ==> exists img :: img in images && !img.anomala && m == Marker(img.lat, img.lng, Popup(img.nome))
  {
    HeatLayerOfImages(images);
    MarkerLayerOfImages(images);
  }

  lemma {:induction false} HeatLayerOfImages(images: seq<Image>)
    ensures |HeatData(images)| == CountAnomalous(images)
    ensures forall img :: img in images && img.anomala ==> HeatPoint(img.lat, img.lng, 1) in HeatData(images)
    ensures forall p :: p in HeatData(images) ==> exists img :: img in images && img.anomala && p == HeatPoint(img.lat, img.lng, 1)
  {
    if |images| > 0 {
      HeatLayerOfImages(images[1..]);
      assert forall img :: img in images ==> img == images[0] || img in images[1..];
      assert images[0] in images;
      assert forall img :: img in images[1..] ==> img in images;
    }
  }

  lemma {:induction false} MarkerLayerOfImages(images: seq<Image>)
    ensures |NormalMarkers(images)| == |images| - CountAnomalous(images)
    ensures forall img :: img in images && !img.anomala ==> Marker(img.lat, img.lng, Popup(img.nome)) in NormalMarkers(images)
    ensures forall m :: m in NormalMarkers(images) ==> exists img :: img in images && !img.anomala && m == Marker(img.lat, img.lng, Popup(img.nome))
  {
    if |images| > 0 {
      MarkerLayerOfImages(images[1..]);
      assert forall img :: img in images ==> img == images[0] || img in images[1..];
      assert images[0] in images;
      assert forall img :: img in images[1..] ==> img in images;
    }
  }

  /** What the effect draws: the heat layer only when the heat plugin is loaded, the markers always. */
  datatype Layers = Layers(heat: Option<seq<HeatPoint>>, markers: seq<Marker>)

  function Draw(images: seq<Image>, heatPlugin: bool): (l: Layers)
    ensures l.heat.Some? <==> heatPlugin
    ensures heatPlugin ==> l.heat.value == HeatData(images)
    ensures l.markers == NormalMarkers(images)
  {
    Layers(if heatPlugin then Some(HeatData(images)) else None, NormalMarkers(images))
  }

  // ---------------------------------------------------------------- map lifecycle

  /**
   * The map instances: the one the ref holds (`None` before the first run),
   * the ones not yet removed, and the name the next created map gets.
   */
  datatype Maps = Maps(current: Option<nat>, live: set<nat>, next: nat)

  const NoMaps: Maps := Maps(None, {}, 0)

  /** Removing the map the ref holds, if any; the ref keeps pointing at it. */
  function RemoveCurrent(m: Maps): (r: Maps)
    ensures r.current == m.current && r.next == m.next
    ensures r.live == if m.current.Some? then m.live - {m.current.value} else m.live
  {
    if m.current.Some? then m.(live := m.live - {m.current.value}) else m
  }

  /**
   * The effect on `[farm]`: nothing unless the farm, the container and
   * Leaflet are all there; otherwise the previous map is removed and a new
   * one is created and stored in the ref.
   */
  function RunEffect(m: Maps, ready: bool): (r: Maps)
    ensures !ready ==> r == m
    ensures ready ==> r.current == Some(m.next) && r.next == m.next + 1
    ensures ready ==> r.live == RemoveCurrent(m).live + {m.next}
  {
    if !ready then m
    else
      var cleared := RemoveCurrent(m);
      Maps(Some(m.next), cleared.live + {m.next}, m.next + 1)
  }

  /** The effect's cleanup, run before the next effect and at unmount. */
  function Cleanup(m: Maps): (r: Maps)
    ensures r.current == m.current && r.next == m.next && r.live <= m.live
    ensures m.current.Some? ==> m.current.value !in r.live
  {
    RemoveCurrent(m)
  }

  /** At most one map is alive, and it is the one the ref holds; every map name is below `next`. */
  predicate OneLiveMap(m: Maps) {
    && (forall x :: x in m.live ==> m.current == Some(x))
    && (m.current.Some? ==> m.current.value < m.next)
  }

  /** A lifecycle event: an effect run (with whether it is ready) or a cleanup. */
  datatype Event = Effect(ready: bool) | CleanUp

  function Step(m: Maps, e: Event): Maps {
    match e
    case Effect(ready) => RunEffect(m, ready)
    case CleanUp => Cleanup(m)
  }

  function Replay(m: Maps, events: seq<Event>): Maps
    decreases |events|
  {
    if |events| == 0 then m else Replay(Step(m, events[0]), events[1..])
  }

  /** Whatever order the effect and its cleanups run in, no two maps are alive at once. */
  lemma {:induction false} ReplayKeepsOneLiveMap(m: Maps, events: seq<Event>)
    requires OneLiveMap(m)
    ensures OneLiveMap(Replay(m, events))
    ensures |Replay(m, events).live| <= 1
    decreases |events|
  {
    if |events| == 0 {
      if m.current.Some? {
        if m.live != {} {
          assert m.live == {m.current.value};
        }
      } else {
        assert m.live == {};
      }
    } else {
      var m1 := Step(m, events[0]);
      assert OneLiveMap(m1);
      ReplayKeepsOneLiveMap(m1, events[1..]);
    }
  }

  /** After a cleanup no map is alive. */
  lemma CleanupLeavesNone(m: Maps)
    requires OneLiveMap(m)
    ensures Cleanup(m).live == {}
  {
  }

  // ---------------------------------------------------------------- sample data and navigation

  /** The farm shown: everything but the id is fixed. */
  datatype Farm = Farm(id: string, name: string, ccm: string, latitude: string, longitude: string,
                       area: real, status: FarmHealth.Health, producerName: string, producerCpf: string)

  /** `mockFarm`, whose id is the route's `farmId || '1'`. */
  function SampleFarm(farmId: Option<string>): (f: Farm)
    ensures f.id == Js.OrElse(farmId, "1")
  {
    Farm(Js.OrElse(farmId, "1"), "Fazenda Vista Verde", "12345678", "-20.7596", "-42.8736",
         45.5, FarmHealth.Warning, "João Silva", "123.456.789-00")
  }

  const SampleImages: seq<Image> := [
    Image("IMG_001", -20.7596, -42.8736, true),
    Image("IMG_002", -20.7598, -42.8738, false),
    Image("IMG_003", -20.7594, -42.8734, true),
    Image("IMG_004", -20.7600, -42.8740, false),
    Image("IMG_005", -20.7592, -42.8732, true),
    Image("IMG_006", -20.7602, -42.8742, true),
    Image("IMG_007", -20.7590, -42.8730, false),
    Image("IMG_008", -20.7604, -42.8744, true),
    Image("IMG_009", -20.7588, -42.8728, false),
    Image("IMG_010", -20.7606, -42.8746, true)
  ]

  /** The sample has six anomalous images and four normal ones. */
  lemma SampleLayers()
    ensures |HeatData(SampleImages)| == 6
    ensures |NormalMarkers(SampleImages)| == 4
  {
    assert |HeatData(SampleImages)| == CountAnomalous(SampleImages)
           && |NormalMarkers(SampleImages)| == |SampleImages| - CountAnomalous(SampleImages) by {
      LayersPartitionImages(SampleImages);
    }
    SampleCount();
  }

  lemma SampleCount()
    ensures CountAnomalous(SampleImages) == 6
  {
  }

  const ProducerArea := "/area-produtor"
  const MosaiqueiroArea := "/area-mosaiqueiro"

  /** `handleGoBack`: the producer's area when the farm has a producer name, the mosaic worker's otherwise. */
  function GoBack(farm: Option<Farm>): (path: string)
    ensures path == ProducerArea <==> farm.Some? && farm.value.producerName != ""
    ensures path == MosaiqueiroArea <==> !(farm.Some? && farm.value.producerName != "")
  {
    if farm.Some? && farm.value.producerName != "" then ProducerArea else MosaiqueiroArea
  }

  /** With the sample farm the back button always leads to the producer's area, whoever came in. */
  lemma SampleFarmGoesBackToProducer(farmId: Option<string>)
    ensures GoBack(Some(SampleFarm(farmId))) == ProducerArea
  {
  }

  /** The back button always leads to one of the two areas of the route table. */
  lemma GoBackResolves(farm: Option<Farm>)
    ensures Router.Resolve(GoBack(farm)) == Some(Router.ProducerScreen) || Router.Resolve(GoBack(farm)) == Some(Router.MosaiqueiroScreen)
  {
    Router.FixedPathsResolve();
  }
}

=== FILE: mosaiqueiro_controller.dfy ===
/** The mosaiqueiro's routes: both are the shared farm-link routes. */
module MosaiqueiroController {
  import opened Wrappers
  import opened Flask
  import opened Store
  import FarmLinkRoutes

  /**
   * The rule `GET /area-mosaiqueiro/fazendas`. The blueprint is registered under the same
   * prefix, so Flask serves it at `/area-mosaiqueiro/area-mosaiqueiro/fazendas` (see `FlaskApp`).
   * It reads the committed farms, as evidently intended; the controller's
   * shared connection reads a snapshot instead (`FarmLinkRoutes.ListByCcirOn`).
   */
  function ListFarmsByCcir(session: Option<Cpf>, args: FarmLinkRoutes.Args, db: Db): (r: Reply<seq<CcirRow>>)
    ensures session.None? ==> r == Fail(401, NotAuthenticated)
    ensures session.Some? && ("ccir" !in args || args["ccir"] == "") ==> r == Fail(400, FarmLinkRoutes.CcirRequired)
    ensures r.code == 200 <==> session.Some? && "ccir" in args && args["ccir"] != ""
    ensures r.code == 200 ==> r.payload.Success?
    ensures r.code == 200 ==> forall row :: row in r.payload.data <==>
              exists f :: f in db.farms && f.ccir == Str(args["ccir"]) && row == ToCcirRow(f)
  {
    FarmLinkRoutes.ListByCcir(session, args, db)
  }

  /**
   * The rule `POST /area-mosaiqueiro/fazendas`. The blueprint is registered under the same
   * prefix, so Flask serves it at `/area-mosaiqueiro/area-mosaiqueiro/fazendas` (see `FlaskApp`).
   */
  function AssociateFarm(session: Option<Cpf>, body: Body, db: Db): (r: (Reply<()>, Db))
    ensures session.None? ==> r.0 == Fail(401, NotAuthenticated) && r.1 == db
    ensures session.Some? && !Truthy(Get(body, "farm_id")) ==> r.0 == Fail(400, FarmLinkRoutes.FarmIdRequired) && r.1 == db
    ensures r.0.code == 500 <==> session.Some? && Truthy(Get(body, "farm_id")) && ToInt(Get(body, "farm_id")).None?
    ensures r.0.code == 409 <==>
              session.Some? && Truthy(Get(body, "farm_id")) && ToInt(Get(body, "farm_id")).Some?
              && (session.value, ToInt(Get(body, "farm_id")).value) in db.links
    ensures r.0.code == 201 <==>
              session.Some? && Truthy(Get(body, "farm_id")) && ToInt(Get(body, "farm_id")).Some?
              && (session.value, ToInt(Get(body, "farm_id")).value) !in db.links
    ensures r.0.code == 201 ==>
              r.1 == db.(links := db.links + {(session.value, ToInt(Get(body, "farm_id")).value)})
    ensures r.0.code != 201 ==> r.1 == db && r.0.payload.Error?
  {
    FarmLinkRoutes.Associate(session, body, db)
  }
}

=== FILE: mosaiqueiro_page.dfy ===
/**
 * The mosaic worker's panel: search farms by CCIR, associate with one of
 * the results, pick a farm for its heat map. Each handler is a function from
 * the page state and the server's answer to the next state and the alert it
 * shows.
 */
module MosaiqueiroPage {
  import opened Wrappers
  import Js
  import Numerals
  import FarmHealth
  import Flask
  import Store
  import FarmLinkRoutes
  import FlaskApp
  import Router

  /** A farm card; the inspection date is left out. A coordinate is `None` where the page shows ''. */
  datatype Farm = Farm(
    id: string, name: string, ccm: string,
    latitude: Option<real>, longitude: Option<real>, area: real,
    status: FarmHealth.Health, producerName: string, producerCpf: string)

  /**
   * A farm object of the search answer: `None` for a missing or null key.
   * `area` is what `parseFloat` gives (`None` for NaN).
   */
  datatype FarmJson = FarmJson(
    id: Option<int>, nome: Option<string>, ccm: Option<string>,
    latitude: Option<real>, longitude: Option<real>, area: Option<real>,
    produtorNome: Option<string>, produtorCpf: Option<string>)

  /** The state of the panel. */
  datatype Page = Page(
    associated: seq<Farm>, results: seq<Farm>, ccir: string,
    associateOpen: bool, heatMapOpen: bool, loading: bool)

  const SearchHttpError := "Erro ao buscar fazenda"
  const SearchFailed := "Erro ao buscar fazendas"
  const SearchConnection := "Erro de conexão com o servidor"
  const AssociateConnection := "Erro ao associar fazenda"

  /** The mapping of one search result, with its defaults. */
  function ToFarm(j: FarmJson): (f: Farm)
    ensures j.id.Some? ==> f.id == Numerals.IntToText(j.id.value)
    ensures j.id.None? ==> f.id == ""
    ensures f.name == Js.OrElse(j.nome, "Sem nome") && f.name != ""
    ensures f.latitude == j.latitude && f.longitude == j.longitude
    ensures f.area == j.area.GetOr(0.0)
    ensures f.status == FarmHealth.Healthy
  {
    Farm(
      if j.id.Some? then Numerals.IntToText(j.id.value) else "",
      Js.OrElse(j.nome, "Sem nome"),
      Js.OrElse(j.ccm, ""),
      j.latitude, j.longitude,
      j.area.GetOr(0.0),
      FarmHealth.Healthy,
      Js.OrElse(j.produtorNome, ""),
      Js.OrElse(j.produtorCpf, ""))
  }

  /** `fazendas.map(...)`. */
  function ToFarms(js: seq<FarmJson>): (r: seq<Farm>)
    ensures |r| == |js|
    ensures forall k :: 0 <= k < |r| ==> r[k] == ToFarm(js[k])
  {
    if |js| == 0 then [] else [ToFarm(js[0])] + ToFarms(js[1..])
  }

  /**
   * The outcome of the search request: the request or the JSON decoding
   * threw, a non-ok HTTP status, or a JSON answer (`success` when its
   * `status` is 'success').
   */
  datatype SearchResponse =
    | SearchThrew
    | SearchNotOk(httpStatus: int)
    | SearchAnswer(success: bool, message: Option<string>, fazendas: Option<seq<FarmJson>>)

  /** The search button is enabled when nothing is loading and a CCIR is typed. */
  predicate SearchEnabled(page: Page) {
    !page.loading && page.ccir != ""
  }

  /** The button is disabled while a search runs; once it is answered, it is enabled exactly when a CCIR is typed. */
  lemma SearchButtonAroundSearch(page: Page, resp: SearchResponse)
    ensures !SearchEnabled(page.(loading := true))
    ensures SearchEnabled(Search(page.(loading := true), resp).0) <==> page.ccir != ""
  {
  }

  /**
   * `handleSearchProducer`: a successful answer replaces the results; every
   * other outcome keeps them and alerts. A success without a `fazendas`
   * array throws inside the handler and ends in the connection alert.
   */
  function Search(page: Page, resp: SearchResponse): (r: (Page, Option<string>))
    ensures !r.0.loading
    ensures r.0 == page.(results := r.0.results, loading := false)
    ensures r.1.None? <==> resp.SearchAnswer? && resp.success && resp.fazendas.Some?
    ensures r.1.None? ==> r.0.results == ToFarms(resp.fazendas.value)
    ensures r.1.Some? ==> r.0.results == page.results
    ensures resp.SearchNotOk? ==> r.1 == Some(SearchHttpError)
    ensures resp.SearchThrew? ==> r.1 == Some(SearchConnection)
    ensures resp.SearchAnswer? && resp.success && resp.fazendas.None? ==> r.1 == Some(SearchConnection)
    ensures resp.SearchAnswer? && !resp.success ==> r.1 == Some(Js.OrElse(resp.message, SearchFailed))
  {
    var done := page.(loading := false);
    match resp
    case SearchThrew => (done, Some(SearchConnection))
    case SearchNotOk(_) => (done, Some(SearchHttpError))
    case SearchAnswer(success, message, fazendas) =>
      if !success then (done, Some(Js.OrElse(message, SearchFailed)))
      else if fazendas.None? then (done, Some(SearchConnection))
      else (done.(results := ToFarms(fazendas.value)), None)
  }

  /**
   * A row of the backend's CCIR search as the page receives it. The row has
   * no `produtor_nome` or `produtor_cpf` key, and a name that is not text is
   * taken as missing.
   */
  function FromRow(row: Store.CcirRow): (j: FarmJson)
    ensures j.id == Some(row.id) && j.produtorNome.None? && j.produtorCpf.None?
  {
    FarmJson(
      Some(row.id),
      if row.nome.Str? then Some(row.nome.s) else None,
      if row.ccm.Str? then Some(row.ccm.s) else None,
      Some(row.latitude), Some(row.longitude), Some(row.area),
      None, None)
  }

  function FromRows(rows: seq<Store.CcirRow>): (r: seq<FarmJson>)
    ensures |r| == |rows|
    ensures forall k :: 0 <= k < |r| ==> r[k] == FromRow(rows[k])
  {
    if |rows| == 0 then [] else [FromRow(rows[0])] + FromRows(rows[1..])
  }

  /** How `fetch` presents the backend's reply: a 2xx status is ok, and its JSON `status` is 'success' for a success payload. */
  function ToSearchResponse(reply: Flask.Reply<seq<Store.CcirRow>>): (resp: SearchResponse)
    ensures resp.SearchNotOk? <==> !(200 <= reply.code < 300)
  {
    if !(200 <= reply.code < 300) then SearchNotOk(reply.code)
    else match reply.payload
      case Success(rows) => SearchAnswer(true, None, Some(FromRows(rows)))
      case Error(message) => SearchAnswer(false, Some(message), None)
  }

  /** The search handler fed with the backend route's reply to `?ccir=`. */
  function SearchBackend(page: Page, session: Option<Store.Cpf>, ccir: string, db: Store.Db): (Page, Option<string>) {
    Search(page, ToSearchResponse(FarmLinkRoutes.ListByCcir(session, map["ccir" := ccir], db)))
  }

  /** The search request's target; the typed CCIR goes into the query as it is. */
  function SearchTarget(ccir: string): string {
    FlaskApp.MosaiqueiroFarms + "?ccir=" + ccir
  }

  /**
   * The search as the application serves it: when the URL map sends the
   * request to the mosaiqueiro's search view, the page gets that route's
   * reply; otherwise Flask's 404, a non-ok status.
   */
  function SearchServed(page: Page, session: Option<Store.Cpf>, ccir: string, db: Store.Db, asWritten: bool)
    : (r: (Page, Option<string>))
    ensures FlaskApp.Dispatch(FlaskApp.Get, SearchTarget(ccir), asWritten) != Some(FlaskApp.MosaiqueiroListByCcir)
            ==> r == (page.(loading := false), Some(SearchHttpError))
  {
    if FlaskApp.Dispatch(FlaskApp.Get, SearchTarget(ccir), asWritten) == Some(FlaskApp.MosaiqueiroListByCcir)
    then SearchBackend(page, session, ccir, db)
    else Search(page, SearchNotOk(404))
  }

  /** The search request always reaches the path the URL map dispatches on. */
  lemma SearchDispatch(ccir: string, asWritten: bool)
    ensures FlaskApp.Dispatch(FlaskApp.Get, SearchTarget(ccir), asWritten)
            == if asWritten then None else Some(FlaskApp.MosaiqueiroListByCcir)
  {
    assert SearchTarget(ccir) == FlaskApp.MosaiqueiroFarms + ("?ccir=" + ccir);
    FlaskApp.MosaiqueiroFarmsDispatch(FlaskApp.Get, "?ccir=" + ccir);
  }

  /**
   * With the routes as registered, every search ends in the HTTP error
   * alert, whatever the session, the CCIR and the database: the request's
   * path is served by no rule.
   */
  lemma SearchAsWrittenFails(page: Page, session: Option<Store.Cpf>, ccir: string, db: Store.Db)
    ensures SearchServed(page, session, ccir, db, true) == (page.(loading := false), Some(SearchHttpError))
  {
    SearchDispatch(ccir, true);
  }

  /**
   * The search with the intended routes: a logged-in user with a CCIR sees
   * one card per matching farm, always without producer name or CPF since the
   * route does not send them; without a session the page shows the HTTP
   * error alert.
   */
  lemma SearchAgainstBackend(page: Page, session: Option<Store.Cpf>, ccir: string, db: Store.Db)
    requires ccir != ""
    ensures session.None? ==> SearchServed(page, session, ccir, db, false) == (page.(loading := false), Some(SearchHttpError))
    ensures session.Some? ==> SearchServed(page, session, ccir, db, false).1.None?
    ensures session.Some? ==> |SearchServed(page, session, ccir, db, false).0.results| == |Store.FarmsWithCcir(db.farms, ccir)|
    ensures session.Some? ==> forall k :: 0 <= k < |SearchServed(page, session, ccir, db, false).0.results| ==>
              var farm := SearchServed(page, session, ccir, db, false).0.results[k];
              && farm.producerName == "" && farm.producerCpf == ""
              && farm.id == Numerals.IntToText(Store.FarmsWithCcir(db.farms, ccir)[k].id)
  {
    SearchDispatch(ccir, false);
    assert SearchServed(page, session, ccir, db, false) == SearchBackend(page, session, ccir, db);
    SearchBackendResult(page, session, ccir, db);
  }

  /** The search handler fed directly with the backend route's reply. */
  lemma SearchBackendResult(page: Page, session: Option<Store.Cpf>, ccir: string, db: Store.Db)
    requires ccir != ""
    ensures session.None? ==> SearchBackend(page, session, ccir, db) == (page.(loading := false), Some(SearchHttpError))
    ensures session.Some? ==> SearchBackend(page, session, ccir, db).1.None?
    ensures session.Some? ==> |SearchBackend(page, session, ccir, db).0.results| == |Store.FarmsWithCcir(db.farms, ccir)|
    ensures session.Some? ==> forall k :: 0 <= k < |SearchBackend(page, session, ccir, db).0.results| ==>
              var farm := SearchBackend(page, session, ccir, db).0.results[k];
              && farm.producerName == "" && farm.producerCpf == ""
              && farm.id == Numerals.IntToText(Store.FarmsWithCcir(db.farms, ccir)[k].id)
  {
    var reply := FarmLinkRoutes.ListByCcir(session, map["ccir" := ccir], db);
    if session.Some? {
      assert reply == Flask.Reply(200, Flask.Success(Store.FarmsWithCcir(db.farms, ccir)));
    }
  }

  /** The farm joins the list unless a farm with its id is already there. */
  function AddUnique(farms: seq<Farm>, farm: Farm): (r: seq<Farm>)
    ensures (exists k :: 0 <= k < |farms| && farms[k].id == farm.id) ==> r == farms
    ensures (forall k :: 0 <= k < |farms| ==> farms[k].id != farm.id) ==> r == farms + [farm]
  {
    if exists k :: 0 <= k < |farms| && farms[k].id == farm.id then farms else farms + [farm]
  }

  /** No two associated farms share an id. */
  predicate UniqueIds(farms: seq<Farm>) {
    forall i, j :: 0 <= i < j < |farms| ==> farms[i].id != farms[j].id
  }

  /** Adding keeps ids unique, always leaves a farm with that id, and a second add changes nothing. */
  lemma AddUniqueProperties(farms: seq<Farm>, farm: Farm)
    requires UniqueIds(farms)
    ensures UniqueIds(AddUnique(farms, farm))
    ensures exists k :: 0 <= k < |AddUnique(farms, farm)| && AddUnique(farms, farm)[k].id == farm.id
    ensures AddUnique(AddUnique(farms, farm), farm) == AddUnique(farms, farm)
    ensures farms <= AddUnique(farms, farm)
  {
    var r := AddUnique(farms, farm);
    if forall k :: 0 <= k < |farms| ==> farms[k].id != farm.id {
      assert r[|farms|] == farm;
    }
  }

  /** The outcome of the associate request: it threw, or a JSON answer. */
  datatype AssociateResponse =
    | AssociateThrew
    | AssociateAnswer(success: bool, message: Option<string>)

  /** `alert(json.message)`: an absent message shows as 'undefined'. */
  function AlertText(message: Option<string>): string {
    if message.Some? then message.value else "undefined"
  }

  /**
   * `handleAssociateFarmConfirm`: on success the farm joins the associated
   * list (once), the results and the CCIR are cleared and the modal closes;
   * otherwise only an alert.
   */
  function Confirm(page: Page, farm: Farm, resp: AssociateResponse): (r: (Page, Option<string>))
    ensures !r.0.loading
    ensures r.1.None? <==> resp.AssociateAnswer? && resp.success
    ensures r.1.None? ==> r.0 == page.(associated := AddUnique(page.associated, farm),
                                       results := [], ccir := "", associateOpen := false, loading := false)
    ensures r.1.Some? ==> r.0 == page.(loading := false)
    ensures resp.AssociateThrew? ==> r.1 == Some(AssociateConnection)
    ensures resp.AssociateAnswer? && !resp.success ==> r.1 == Some(AlertText(resp.message))
  {
    match resp
    case AssociateThrew => (page.(loading := false), Some(AssociateConnection))
    case AssociateAnswer(success, message) =>
      if success then
        (page.(associated := AddUnique(page.associated, farm), results := [], ccir := "",
               associateOpen := false, loading := false), None)
      else (page.(loading := false), Some(AlertText(message)))
  }

  /** A confirmed association keeps the associated ids unique and is idempotent. */
  lemma ConfirmTwice(page: Page, farm: Farm)
    requires UniqueIds(page.associated)
    ensures var p1 := Confirm(page, farm, AssociateAnswer(true, None)).0;
            UniqueIds(p1.associated) && Confirm(p1, farm, AssociateAnswer(true, None)).0 == p1
  {
    AddUniqueProperties(page.associated, farm);
  }

  /** How `fetch` and `resp.json()` present the link route's JSON reply. */
  function ToAssociateResponse(reply: Flask.Reply<()>): (resp: AssociateResponse)
    ensures resp.AssociateAnswer?
    ensures resp.success <==> reply.payload.Success?
    ensures reply.payload.Error? ==> resp.message == Some(reply.payload.message)
  {
    match reply.payload
    case Success(_) => AssociateAnswer(true, None)
    case Error(message) => AssociateAnswer(false, Some(message))
  }

  /**
   * The confirmation as the application serves it: the page posts
   * `{farm_id: farm.id}`; when the URL map sends it to the mosaiqueiro's link
   * view, the page and the database follow that route's reply. Otherwise
   * the JSON POST never leaves the browser: it is cross-origin, its CORS
   * preflight gets a 404 and is refused, `fetch` rejects, and nothing is
   * linked.
   */
  function ConfirmServed(page: Page, farm: Farm, session: Option<Store.Cpf>, db: Store.Db, asWritten: bool)
    : (r: (Page, Option<string>, Store.Db))
    ensures FlaskApp.Dispatch(FlaskApp.Post, FlaskApp.MosaiqueiroFarms, asWritten) != Some(FlaskApp.MosaiqueiroAssociate)
            ==> r == (page.(loading := false), Some(AssociateConnection), db)
  {
    if FlaskApp.Dispatch(FlaskApp.Post, FlaskApp.MosaiqueiroFarms, asWritten) == Some(FlaskApp.MosaiqueiroAssociate) then
      var (reply, db1) := FarmLinkRoutes.Associate(session, map["farm_id" := Flask.Str(farm.id)], db);
      var (next, alert) := Confirm(page, farm, ToAssociateResponse(reply));
      (next, alert, db1)
    else
      var (next, alert) := Confirm(page, farm, AssociateThrew);
      (next, alert, db)
  }

  /** The confirmation request reaches the path the URL map dispatches on. */
  lemma ConfirmDispatch(asWritten: bool)
    ensures FlaskApp.Dispatch(FlaskApp.Post, FlaskApp.MosaiqueiroFarms, asWritten)
            == if asWritten then None else Some(FlaskApp.MosaiqueiroAssociate)
  {
    assert FlaskApp.MosaiqueiroFarms + "" == FlaskApp.MosaiqueiroFarms;
    FlaskApp.MosaiqueiroFarmsDispatch(FlaskApp.Post, "");
  }

  /** With the routes as registered, every confirmation ends in the connection alert and links nothing. */
  lemma ConfirmAsWrittenFails(page: Page, farm: Farm, session: Option<Store.Cpf>, db: Store.Db)
    ensures ConfirmServed(page, farm, session, db, true) == (page.(loading := false), Some(AssociateConnection), db)
  {
    ConfirmDispatch(true);
  }

  /**
   * The confirmation with the intended routes: for a farm whose id came from
   * a search result (`id.toString()`), the logged-in user is linked to that
   * farm, and the page accepts exactly when the link was new.
   */
  lemma AssociateRequestLinksFarm(page: Page, farm: Farm, cpf: Store.Cpf, farmId: int, db: Store.Db)
    requires farm.id == Numerals.IntToText(farmId)
    ensures var r := ConfirmServed(page, farm, Some(cpf), db, false);
            && (r.1.None? <==> (cpf, farmId) !in db.links)
            && (cpf, farmId) in r.2.links
            && r.2.links <= db.links + {(cpf, farmId)}
  {
    ConfirmDispatch(false);
    Numerals.IntTextRoundTrip(farmId);
    assert Flask.ToInt(Flask.Str(farm.id)) == Some(farmId);
    assert Flask.Truthy(Flask.Str(farm.id));
  }

  // ---------------------------------------------------------------- CPF display

  /** Eleven digits in a row start at position `i`. */
  predicate RunAt(s: string, i: int) {
    0 <= i && i + 11 <= |s| && Numerals.IsDigits(s[i..i + 11])
  }

  /** The leftmost position, from `from` on, where eleven digits in a row start. */
  function FirstRun(s: string, from: nat): (r: Option<nat>)
    requires from <= |s|
    ensures r.Some? ==> from <= r.value && RunAt(s, r.value)
    ensures r.Some? ==> forall i :: from <= i < r.value ==> !RunAt(s, i)
    ensures r.None? ==> forall i :: from <= i ==> !RunAt(s, i)
    decreases |s| - from
  {
    if from + 11 > |s| then None
    else if Numerals.IsDigits(s[from..from + 11]) then Some(from)
    else FirstRun(s, from + 1)
  }

  /** Eleven digits in the `ddd.ddd.ddd-dd` layout. */
  function Layout(d: string): (r: string)
    requires |d| == 11
    ensures |r| == 14
  {
    d[..3] + "." + d[3..6] + "." + d[6..9] + "-" + d[9..]
  }

  /**
   * `formatCpf`: '' stays ''; the first run of eleven digits is laid out as
   * `ddd.ddd.ddd-dd` (the regular expression has no `g` flag); a text
   * without such a run is shown as it is.
   */
  function FormatCpf(cpf: string): (r: string)
    ensures FirstRun(cpf, 0).None? ==> r == cpf
    ensures FirstRun(cpf, 0).Some? ==>
              var i := FirstRun(cpf, 0).value;
              r == cpf[..i] + Layout(cpf[i..i + 11]) + cpf[i + 11..]
  {
    if cpf == "" then ""
    else match FirstRun(cpf, 0)
      case None => cpf
      case Some(i) => cpf[..i] + Layout(cpf[i..i + 11]) + cpf[i + 11..]
  }

  /** The digits of a text, in order. */
  function DigitsOf(s: string): (r: string)
    ensures Numerals.IsDigits(r)
  {
    if |s| == 0 then "" else (if Numerals.IsDigit(s[0]) then [s[0]] else []) + DigitsOf(s[1..])
  }

  lemma {:induction false} DigitsOfAppend(a: string, b: string)
    ensures DigitsOf(a + b) == DigitsOf(a) + DigitsOf(b)
  {
    if |a| == 0 {
      assert a + b == b;
    } else {
      assert (a + b)[1..] == a[1..] + b;
      DigitsOfAppend(a[1..], b);
    }
  }

  lemma {:induction false} DigitsOfDigits(d: string)
    requires Numerals.IsDigits(d)
    ensures DigitsOf(d) == d
  {
    if |d| > 0 {
      DigitsOfDigits(d[1..]);
      assert d == [d[0]] + d[1..];
    }
  }

  /** A punctuation mark adds no digit. */
  lemma SkipMark(a: string, c: char, b: string)
    requires !Numerals.IsDigit(c)
    ensures DigitsOf(a + [c] + b) == DigitsOf(a) + DigitsOf(b)
  {
    DigitsOfAppend(a + [c], b);
    DigitsOfAppend(a, [c]);
  }

  /** Dropping the punctuation of the layout gives the eleven digits back. */
  lemma LayoutDigits(d: string)
    requires |d| == 11 && Numerals.IsDigits(d)
    ensures DigitsOf(Layout(d)) == d
  {
    var a, b, c, e := d[..3], d[3..6], d[6..9], d[9..];
    var t1 := c + ['-'] + e;
    var t2 := b + ['.'] + t1;
    assert DigitsOf(t1) == c + e by {
      SkipMark(c, '-', e);
      DigitsOfDigits(c);
      DigitsOfDigits(e);
    }
    assert DigitsOf(t2) == b + (c + e) by {
      SkipMark(b, '.', t1);
      DigitsOfDigits(b);
    }
    assert DigitsOf(Layout(d)) == a + (b + (c + e)) by {
      assert Layout(d) == a + ['.'] + t2;
      SkipMark(a, '.', t2);
      DigitsOfDigits(a);
    }
    assert d == a + (b + (c + e));
  }

  /** A bare eleven-digit CPF is laid out whole, and dropping the punctuation gives it back. */
  lemma FormatCpfKeepsDigits(d: string)
    requires |d| == 11 && Numerals.IsDigits(d)
    ensures FormatCpf(d) == Layout(d)
    ensures DigitsOf(FormatCpf(d)) == d
  {
    assert d[0..11] == d;
    assert RunAt(d, 0);
    assert d[..0] + Layout(d[0..11]) + d[11..] == Layout(d);
    LayoutDigits(d);
  }

  /** Formatting a bare eleven-digit CPF twice is formatting it once: the layout has no run of eleven digits. */
  lemma FormatCpfIdempotent(d: string)
    requires |d| == 11 && Numerals.IsDigits(d)
    ensures FormatCpf(FormatCpf(d)) == FormatCpf(d)
  {
    FormatCpfKeepsDigits(d);
    var l := Layout(d);
    assert l[3] == '.' && l[7] == '.' && l[11] == '-';
    forall i | 0 <= i && i + 11 <= |l|
      ensures !RunAt(l, i)
    {
      var k := if i <= 3 then 3 - i else 7 - i;
      assert l[i..i + 11][k] == l[i + k];
    }
  }

  // ---------------------------------------------------------------- status text and navigation

  /** The mosaic worker's `getStatusText`: unknown statuses read as healthy. */
  function HealthText(status: string): (t: string)
    ensures status == "warning" ==> t == "Atenção"
    ensures status == "critical" ==> t == "Crítico"
    ensures status !in {"warning", "critical"} <==> t == "Saudável"
  {
    match status
    case "healthy" => "Saudável"
    case "warning" => "Atenção"
    case "critical" => "Crítico"
    case _ => "Saudável"
  }

  /** The three statuses have three different labels. */
  lemma HealthTextsDistinct(h1: FarmHealth.Health, h2: FarmHealth.Health)
    requires h1 != h2
    ensures HealthText(FarmHealth.HealthName(h1)) != HealthText(FarmHealth.HealthName(h2))
  {
  }

  const MosaiqueiroQuery := "?userType=mosaiqueiro"

  /** `handleFarmSelect`: go to the farm's heat map as a mosaic worker and close the picker. */
  function FarmSelect(page: Page, farmId: string): (r: (Page, string))
    ensures r.0 == page.(heatMapOpen := false)
    ensures Js.StartsWith(r.1, Router.HeatMapPrefix)
  {
    var path := Router.HeatMapPrefix + farmId + MosaiqueiroQuery;
    assert path[..|Router.HeatMapPrefix|] == Router.HeatMapPrefix;
    (page.(heatMapOpen := false), path)
  }

  /** The path opens the heat map of the chosen farm; the query is not part of the route. */
  lemma FarmSelectOpensHeatMap(page: Page, farmId: string)
    requires Router.PlainSegment(farmId)
    ensures Router.Resolve(FarmSelect(page, farmId).1) == Some(Router.HeatMapScreen(farmId))
  {
    Router.HeatMapPathResolves(farmId, MosaiqueiroQuery);
  }
}

=== FILE: numerals.dfy ===
/**
 * Decimal text and numbers, as the controllers use them: Python's `str()` of
 * an integer id, and `int()` / `float()` applied to request fields. Only the
 * plain decimal forms are modelled: an optional sign, digits, and for
 * `float()` an optional fractional part.
 */
module Numerals {
  import opened Wrappers

  predicate IsDigit(c: char) {
    '0' <= c <= '9'
  }

  predicate IsDigits(s: string) {
    forall i :: 0 <= i < |s| ==> IsDigit(s[i])
  }

  function DigitChar(d: nat): (c: char)
    requires d < 10
    ensures IsDigit(c)
    ensures c as int - '0' as int == d
  {
    ('0' as int + d) as char
  }

  /** The value of a run of decimal digits, most significant digit first. */
  function DigitsValue(s: string): nat
    requires IsDigits(s)
  {
    if |s| == 0 then 0
    else DigitsValue(s[..|s| - 1]) * 10 + (s[|s| - 1] as int - '0' as int)
  }

  function Pow10(k: nat): (p: nat)
    ensures p >= 1
  {
    if k == 0 then 1 else 10 * Pow10(k - 1)
  }

  /** Decimal text of a natural number: non-empty, digits only, no leading zero. */
  function NatToText(n: nat): (s: string)
    ensures |s| > 0 && IsDigits(s)
    ensures DigitsValue(s) == n
    ensures s[0] == '0' ==> n == 0 && |s| == 1
    decreases n
  {
    if n < 10 then [DigitChar(n)]
    else
      var prefix := NatToText(n / 10);
      var s := prefix + [DigitChar(n % 10)];
      assert s[..|s| - 1] == prefix;
      s
  }

  /** Python's `str()` of an integer. */
  function IntToText(i: int): (s: string)
    ensures |s| > 0
    ensures i < 0 <==> s[0] == '-'
  {
    if i < 0 then "-" + NatToText(-i) else NatToText(i)
  }

  /** Splits an optional leading sign off `s`: (negative?, rest). */
  function SplitSign(s: string): (r: (bool, string))
    ensures |r.1| <= |s|
  {
    if |s| > 0 && (s[0] == '-' || s[0] == '+') then (s[0] == '-', s[1..]) else (false, s)
  }

  /** Python's `int()` on text: None where Python raises ValueError. */
  function ParseInt(s: string): (r: Option<int>)
    ensures r.Some? <==> |SplitSign(s).1| > 0 && IsDigits(SplitSign(s).1)
  {
    var (negative, digits) := SplitSign(s);
    if |digits| > 0 && IsDigits(digits) then
      Some(if negative then -(DigitsValue(digits) as int) else DigitsValue(digits))
    else None
  }

  /** Index of the first `c` in `s`, or `|s|` when there is none. */
  function IndexOf(s: string, c: char): (k: nat)
    ensures k <= |s|
    ensures k < |s| ==> s[k] == c
    ensures forall j :: 0 <= j < k ==> s[j] != c
  {
    if |s| == 0 then 0
    else if s[0] == c then 0
    else 1 + IndexOf(s[1..], c)
  }

  /** The first `c` of `a + b`, when `a` holds none, is the first `c` of `b`, shifted. */
  lemma {:induction false} IndexOfPast(a: string, b: string, c: char)
    requires forall k :: 0 <= k < |a| ==> a[k] != c
    ensures IndexOf(a + b, c) == |a| + IndexOf(b, c)
  {
    if |a| > 0 {
      assert (a + b)[1..] == a[1..] + b;
      IndexOfPast(a[1..], b, c);
    } else {
      assert a + b == b;
    }
  }

  /** Python's `float()` on text in the form [sign] digits [. digits]: None where Python raises ValueError. */
  function ParseFloat(s: string): (r: Option<real>)
  {
    var (negative, body) := SplitSign(s);
    var dot := IndexOf(body, '.');
    var whole := body[..dot];
    var fraction := if dot < |body| then body[dot + 1..] else "";
    if IsDigits(whole) && IsDigits(fraction) && |whole| + |fraction| > 0 then
      var magnitude := DigitsValue(whole) as real + DigitsValue(fraction) as real / Pow10(|fraction|) as real;
      Some(if negative then -magnitude else magnitude)
    else None
  }

  /** Python's `int()` of a float: truncation toward zero. */
  function Truncate(x: real): (n: int)
    ensures n as real <= x < n as real + 1.0 || n as real - 1.0 < x <= n as real
    ensures 0.0 <= x ==> 0 <= n
    ensures x <= 0.0 ==> n <= 0
  {
    if x >= 0.0 then x.Floor else -((-x).Floor)
  }

  /** `int()` reads back what `str()` wrote. */
  lemma IntTextRoundTrip(i: int)
    ensures ParseInt(IntToText(i)) == Some(i)
  {
    if i < 0 {
      assert ("-" + NatToText(-i))[1..] == NatToText(-i);
    }
  }

  /** `float()` of an integer's text is that integer. */
  lemma FloatOfIntText(i: int)
    ensures ParseFloat(IntToText(i)) == Some(i as real)
  {
    var t := IntToText(i);
    var (negative, body) := SplitSign(t);
    assert body == NatToText(if i < 0 then -i else i) by {
      if i < 0 {
        assert t[1..] == NatToText(-i);
      }
    }
    NoDotInDigits(body);
    ParseFloatWhole(t);
  }

  /** A run of digits holds no '.'. */
  lemma NoDotInDigits(s: string)
    requires IsDigits(s)
    ensures IndexOf(s, '.') == |s|
  {
    var dot := IndexOf(s, '.');
    assert dot < |s| ==> IsDigit(s[dot]);
  }

  /** `float()` of a signed run of digits with no '.' is the number they spell. */
  lemma ParseFloatWhole(s: string)
    requires |SplitSign(s).1| > 0 && IsDigits(SplitSign(s).1)
    requires IndexOf(SplitSign(s).1, '.') == |SplitSign(s).1|
    ensures ParseFloat(s)
            == Some(if SplitSign(s).0 then -(DigitsValue(SplitSign(s).1) as real) else DigitsValue(SplitSign(s).1) as real)
  {
    var body := SplitSign(s).1;
    assert body[..|body|] == body;
    assert DigitsValue("") == 0 && Pow10(0) == 1;
    assert DigitsValue("") as real / Pow10(0) as real == 0.0;
  }

  /** `float()` of a plain run of digits is the number they spell. */
  lemma FloatOfDigits(s: string)
    requires |s| > 0 && IsDigits(s)
    ensures ParseFloat(s) == Some(DigitsValue(s) as real)
  {
    assert SplitSign(s) == (false, s) by {
      assert IsDigit(s[0]);
    }
    NoDotInDigits(s);
    ParseFloatWhole(s);
  }

  /** A digits-only text is never mistaken for a negative number, and has no fractional part. */
  lemma ParseIntOfDigits(s: string)
    requires |s| > 0 && IsDigits(s)
    ensures ParseInt(s) == Some(DigitsValue(s))
  {
    assert SplitSign(s).1 == s by {
      assert IsDigit(s[0]);
    }
  }
}

=== FILE: operador_controller.dfy ===
/**
 * The operator's routes: list farms by CCIR, link to a farm (both shared with
 * the mosaiqueiro) and upload a photo, which is analysed and stored with its
 * anomaly flag.
 */
module OperadorController {
  import opened Wrappers
  import opened Flask
  import opened Store
  import Numerals
  import FarmLinkRoutes

  /**
   * The rule `GET /area-operador/fazendas`. The blueprint is registered under the same
   * prefix, so Flask serves it at `/area-operador/area-operador/fazendas` (see `FlaskApp`).
   * It reads the committed farms, as evidently intended; the controller's
   * shared connection reads a snapshot instead (`FarmLinkRoutes.ListByCcirOn`).
   */
  function ListFarmsByCcir(session: Option<Cpf>, args: FarmLinkRoutes.Args, db: Db): (r: Reply<seq<CcirRow>>)
    ensures session.None? ==> r == Fail(401, NotAuthenticated)
    ensures session.Some? && ("ccir" !in args || args["ccir"] == "") ==> r == Fail(400, FarmLinkRoutes.CcirRequired)
    ensures r.code == 200 <==> session.Some? && "ccir" in args && args["ccir"] != ""
    ensures r.code == 200 ==> r.payload.Success?
    ensures r.code == 200 ==> forall row :: row in r.payload.data <==>
              exists f :: f in db.farms && f.ccir == Str(args["ccir"]) && row == ToCcirRow(f)
  {
    FarmLinkRoutes.ListByCcir(session, args, db)
  }

  /**
   * The rule `POST /area-operador/fazendas`. The blueprint is registered under the same
   * prefix, so Flask serves it at `/area-operador/area-operador/fazendas` (see `FlaskApp`).
   */
  function AssociateFarm(session: Option<Cpf>, body: Body, db: Db): (r: (Reply<()>, Db))
    ensures session.None? ==> r.0 == Fail(401, NotAuthenticated) && r.1 == db
    ensures session.Some? && !Truthy(Get(body, "farm_id")) ==> r.0 == Fail(400, FarmLinkRoutes.FarmIdRequired) && r.1 == db
    ensures r.0.code == 500 <==> session.Some? && Truthy(Get(body, "farm_id")) && ToInt(Get(body, "farm_id")).None?
    ensures r.0.code == 409 <==>
              session.Some? && Truthy(Get(body, "farm_id")) && ToInt(Get(body, "farm_id")).Some?
              && (session.value, ToInt(Get(body, "farm_id")).value) in db.links
    ensures r.0.code == 201 <==>
              session.Some? && Truthy(Get(body, "farm_id")) && ToInt(Get(body, "farm_id")).Some?
              && (session.value, ToInt(Get(body, "farm_id")).value) !in db.links
    ensures r.0.code == 201 ==>
              r.1 == db.(links := db.links + {(session.value, ToInt(Get(body, "farm_id")).value)})
    ensures r.0.code != 201 ==> r.1 == db && r.0.payload.Error?
  {
    FarmLinkRoutes.Associate(session, body, db)
  }

  // ---------------------------------------------------------------- upload

  const NoFile: string := "Nenhum arquivo de imagem enviado."
  const EmptyFilename: string := "Nome de arquivo vazio."
  const IncompleteData: string := "Dados incompletos (fazenda_id, latitude ou longitude faltando)."
  const UploadFailed: string := "Ocorreu um erro interno no servidor."
  const UploadSaved: string := "Imagem processada e salva com sucesso!"
  /** The analyser's verdict for an anomalous plant. */
  const AnomalousVerdict: string := "Anômala"

  /** A file part of a multipart request. */
  datatype FilePart = FilePart(filename: string)

  /** The multipart request: `request.files` and `request.form`. */
  datatype UploadRequest = UploadRequest(files: map<string, FilePart>, form: map<string, string>)

  /**
   * What the collaborators outside the controller decide: the name
   * `secure_filename` gives the saved file, the analyser's verdict (None
   * when saving the file or the analysis raises), and how the database
   * transaction ends.
   */
  datatype UploadEnv = UploadEnv(storedName: string, verdict: Option<string>, txn: TxnEnd)

  /** The success body: its message and `data: {imagemId, resultado}`. */
  datatype UploadData = UploadData(message: string, imagemId: int, resultado: bool)

  /** The reply, the database afterwards, and the file left in `uploads/`, if any. */
  datatype UploadOutcome = UploadOutcome(reply: Reply<UploadData>, db: Db, savedFile: Option<string>)

  /** `request.form.get(k)` is present and non-empty. */
  predicate FormFilled(form: map<string, string>, k: string) {
    k in form && form[k] != ""
  }

  /** The stored anomaly flag: the verdict is exactly "Anômala". */
  function AnomalyFlag(verdict: string): (anomala: bool)
    ensures anomala <==> verdict == AnomalousVerdict
  {
    verdict == AnomalousVerdict
  }

  /** The `int()` / `float()` conversions of the three form fields all succeed. */
  predicate FieldsParse(form: map<string, string>)
    requires FormFilled(form, "fazenda_id") && FormFilled(form, "latitude") && FormFilled(form, "longitude")
  {
    Numerals.ParseInt(form["fazenda_id"]).Some? && Numerals.ParseFloat(form["latitude"]).Some?
    && Numerals.ParseFloat(form["longitude"]).Some?
  }

  /** The guards pass, the file is saved and analysed and the fields convert: the DAO's transaction runs. */
  predicate ReachesInsert(session: Option<Cpf>, req: UploadRequest, env: UploadEnv) {
    && session.Some? && "imagem" in req.files && req.files["imagem"].filename != ""
    && FormFilled(req.form, "fazenda_id") && FormFilled(req.form, "latitude") && FormFilled(req.form, "longitude")
    && env.verdict.Some? && FieldsParse(req.form)
  }

  /**
   * The rule `POST /area-operador/upload/imagem` (served, like the other
   * operator rules, under the prefix twice; see `FlaskApp`): 401, then 400
   * for a missing file part, an empty filename or an incomplete form; then
   * the file is saved, analysed and stored. A failed save or analysis, a
   * failed conversion or a rolled-back transaction gives 500, stores no
   * row and leaves no file behind (a rollback may still have spent an image
   * id); otherwise 201 with the new id and the flag.
   */
  function UploadImage(session: Option<Cpf>, req: UploadRequest, env: UploadEnv, db: Db): (r: UploadOutcome)
    ensures session.None? ==> r == UploadOutcome(Fail(401, NotAuthenticated), db, None)
    ensures session.Some? && "imagem" !in req.files ==> r == UploadOutcome(Fail(400, NoFile), db, None)
    ensures session.Some? && "imagem" in req.files && req.files["imagem"].filename == ""
            ==> r == UploadOutcome(Fail(400, EmptyFilename), db, None)
    ensures session.Some? && "imagem" in req.files && req.files["imagem"].filename != ""
            && !(FormFilled(req.form, "fazenda_id") && FormFilled(req.form, "latitude") && FormFilled(req.form, "longitude"))
            ==> r == UploadOutcome(Fail(400, IncompleteData), db, None)
    ensures r.reply.code in {201, 400, 401, 500}
    ensures r.reply.code == 500 ==> r.reply == Fail(500, UploadFailed) && r.savedFile.None?
    ensures r.reply.code != 201 ==> r.db.images == db.images
    ensures r.reply.code != 201 ==>
              r.db == db.(nextImageId := db.nextImageId + (if ReachesInsert(session, req, env) && env.txn == RolledBack(true) then 1 else 0))
    ensures r.reply.code == 201 <==> ReachesInsert(session, req, env) && env.txn.Committed?
    ensures r.reply.code == 201 ==>
              && r.reply.payload == Success(UploadData(UploadSaved, db.nextImageId, env.verdict == Some(AnomalousVerdict)))
              && r.savedFile == Some(env.storedName)
              && r.db.images == db.images + [ImageRow(db.nextImageId, Numerals.ParseInt(req.form["fazenda_id"]).value,
                                                      env.storedName, Numerals.ParseFloat(req.form["latitude"]).value,
                                                      Numerals.ParseFloat(req.form["longitude"]).value,
                                                      env.verdict == Some(AnomalousVerdict))]
              && r.db == db.(images := r.db.images, nextImageId := db.nextImageId + 1)
  {
    if session.None? then UploadOutcome(Fail(401, NotAuthenticated), db, None)
    else if "imagem" !in req.files then UploadOutcome(Fail(400, NoFile), db, None)
    else if req.files["imagem"].filename == "" then UploadOutcome(Fail(400, EmptyFilename), db, None)
    else if !(FormFilled(req.form, "fazenda_id") && FormFilled(req.form, "latitude") && FormFilled(req.form, "longitude")) then
      UploadOutcome(Fail(400, IncompleteData), db, None)
    else if env.verdict.None? then
      // Saving or analysing the file raised; the except branch removes a saved file.
      UploadOutcome(Fail(500, UploadFailed), db, None)
    else
      // The file is now saved under env.storedName and analysed; a failure below removes it.
      var anomala := AnomalyFlag(env.verdict.value);
      if !FieldsParse(req.form) then UploadOutcome(Fail(500, UploadFailed), db, None)
      else
        match InsertImage(db, Numerals.ParseInt(req.form["fazenda_id"]).value, env.storedName,
                          Numerals.ParseFloat(req.form["latitude"]).value,
                          Numerals.ParseFloat(req.form["longitude"]).value, anomala, env.txn)
        case (None, db') => UploadOutcome(Fail(500, UploadFailed), db', None)
        case (Some(id), db') => UploadOutcome(Reply(201, Success(UploadData(UploadSaved, id, anomala))), db', Some(env.storedName))
  }

  /** The reply's `resultado` and the stored flag are the same, and both are true exactly for the verdict "Anômala". */
  lemma UploadStoresVerdict(cpf: Cpf, req: UploadRequest, env: UploadEnv, db: Db)
    requires UploadImage(Some(cpf), req, env, db).reply.code == 201
    ensures var r := UploadImage(Some(cpf), req, env, db);
            && |r.db.images| == |db.images| + 1
            && r.db.images[|db.images|].anomala == r.reply.payload.data.resultado
            && (r.reply.payload.data.resultado <==> env.verdict == Some("Anômala"))
  {
  }

  /** When saving or analysing the file raises, the reply is the generic 500, nothing is stored and no file is left. */
  lemma UploadFailureLeavesNothing(cpf: Cpf, req: UploadRequest, env: UploadEnv, db: Db)
    requires "imagem" in req.files && req.files["imagem"].filename != ""
    requires FormFilled(req.form, "fazenda_id") && FormFilled(req.form, "latitude") && FormFilled(req.form, "longitude")
    requires env.verdict.None?
    ensures UploadImage(Some(cpf), req, env, db) == UploadOutcome(Fail(500, UploadFailed), db, None)
  {
  }

  /**
   * A transaction rolled back after its `imagens` insert has used up an id:
   * the next upload that commits gets the id one past the counter the
   * failed one saw.
   */
  lemma {:induction false} UploadAfterRollbackSkipsId(cpf: Cpf, failed: UploadRequest, failedEnv: UploadEnv,
                                                      req: UploadRequest, env: UploadEnv, db: Db)
    requires ReachesInsert(Some(cpf), failed, failedEnv) && failedEnv.txn == RolledBack(true)
    requires UploadImage(Some(cpf), req, env, UploadImage(Some(cpf), failed, failedEnv, db).db).reply.code == 201
    ensures UploadImage(Some(cpf), failed, failedEnv, db).reply.code == 500
    ensures UploadImage(Some(cpf), req, env, UploadImage(Some(cpf), failed, failedEnv, db).db).reply.payload.data.imagemId
            == db.nextImageId + 1
  {
  }

  /** Whatever the outcome, an upload leaves farms, users and links alone. */
  lemma UploadTouchesOnlyImages(session: Option<Cpf>, req: UploadRequest, env: UploadEnv, db: Db)
    ensures var db1 := UploadImage(session, req, env, db).db;
            db1.farms == db.farms && db1.users == db.users && db1.links == db.links && db1.nextFarmId == db.nextFarmId
  {
  }
}

=== FILE: operador_page.dfy ===
/**
 * The operator's photo panel as a state machine. A batch of files is
 * admitted one by one (image MIME type, at most 10 MiB) and each accepted file
 * is prepended as an uploading photo. Its simulated upload is an interval
 * timer that adds a random 5 to 20 per tick until 100, then the photo is
 * processing, and a later timeout marks it completed. Photos can be deleted,
 * and the grid shows the six most recent.
 */
module OperadorPage {
  import opened Wrappers
  import Js
  import StatusBadge

  datatype Status = Uploading | Processing | Completed | Error

  /** The status string of the `PhotoUpload` type. */
  function StatusName(s: Status): string {
    match s
    case Uploading => "uploading"
    case Processing => "processing"
    case Completed => "completed"
    case Error => "error"
  }

  /** `getStatusText`: the badge label of any status string. */
  function StatusText(status: string): (t: string)
    ensures status == "uploading" ==> t == "Enviando"
    ensures status == "processing" ==> t == "Processando"
    ensures status == "completed" ==> t == "Concluído"
    ensures status == "error" ==> t == "Erro"
    ensures status !in StatusBadge.KnownStatuses <==> t == "Aguardando"
  {
    match status
    case "uploading" => "Enviando"
    case "processing" => "Processando"
    case "completed" => "Concluído"
    case "error" => "Erro"
    case _ => "Aguardando"
  }

  /** Every status of a photo has its own label and its own badge background. */
  lemma StatusesAreDistinguishable(s1: Status, s2: Status)
    requires s1 != s2
    ensures StatusText(StatusName(s1)) != StatusText(StatusName(s2))
    ensures StatusBadge.StatusColor(StatusName(s1)).bg != StatusBadge.StatusColor(StatusName(s2)).bg
    ensures StatusBadge.StatusColor(StatusName(s1)) != StatusBadge.DefaultBadge
  {
    StatusBadge.KnownBackgroundsDistinct(StatusName(s1), StatusName(s2));
  }

  /** A photo of the list; the date, time, size label and preview URL are left out. */
  datatype Photo = Photo(id: string, filename: string, status: Status, progress: int, size: nat)

  /** A dropped or selected file: name, MIME type and size in bytes. */
  datatype FileInfo = FileInfo(name: string, mime: string, size: nat)

  const MaxBytes: nat := 10 * 1024 * 1024

  datatype Admission = Admitted | NotAnImage | TooLarge

  /** The two checks of `processFiles`, the MIME type first. */
  function Admit(f: FileInfo): (a: Admission)
    ensures a == Admitted <==> Js.StartsWith(f.mime, "image/") && f.size <= MaxBytes
    ensures a == NotAnImage <==> !Js.StartsWith(f.mime, "image/")
    ensures a == TooLarge <==> Js.StartsWith(f.mime, "image/") && f.size > MaxBytes
  {
    if !Js.StartsWith(f.mime, "image/") then NotAnImage
    else if f.size > 10 * 1024 * 1024 then TooLarge
    else Admitted
  }

  /** The size limit is inclusive. */
  lemma SizeLimitInclusive(name: string, mime: string)
    requires Js.StartsWith(mime, "image/")
    ensures Admit(FileInfo(name, mime, 10485760)) == Admitted
    ensures Admit(FileInfo(name, mime, 10485761)) == TooLarge
  {
  }

  const NotAnImageAlert: string := " não é um arquivo de imagem válido."
  const TooLargeAlert: string := " é muito grande. Tamanho máximo: 10MB"

  /** The alert shown for a refused file: it starts with the file's name and then says which check failed. */
  function RejectionAlert(f: FileInfo): (a: string)
    ensures |f.name| < |a| && a[..|f.name|] == f.name
    ensures a[|f.name|..] == NotAnImageAlert <==> Admit(f) == NotAnImage
    ensures a[|f.name|..] == TooLargeAlert <==> Admit(f) != NotAnImage
  {
    assert NotAnImageAlert != TooLargeAlert by {
      assert NotAnImageAlert[1] != TooLargeAlert[1];
    }
    var suffix := if Admit(f) == NotAnImage then NotAnImageAlert else TooLargeAlert;
    var a := f.name + suffix;
    assert a[..|f.name|] == f.name && a[|f.name|..] == suffix;
    a
  }

  /** The state of one photo's simulated upload: the interval with its accumulated progress, the completion timeout, or finished. */
  datatype Timer = Ticking(acc: real) | Pending | Done

  /** The panel: the photo list, newest first, and the timers keyed by photo id. */
  datatype Page = Page(photos: seq<Photo>, timers: map<string, Timer>)

  /** `Math.round` on a non-negative number. */
  function Round(x: real): int {
    (x + 0.5).Floor
  }

  function NewPhoto(f: FileInfo, id: string): Photo {
    Photo(id, f.name, Uploading, 0, f.size)
  }

  function Reverse<T>(s: seq<T>): (r: seq<T>)
    ensures |r| == |s|
  {
    if |s| == 0 then [] else Reverse(s[1..]) + [s[0]]
  }

  /** The photos a batch creates, in file order. */
  function Accepted(files: seq<FileInfo>, ids: seq<string>): (r: seq<Photo>)
    requires |ids| == |files|
    ensures |r| <= |files|
  {
    if |files| == 0 then []
    else (if Admit(files[0]) == Admitted then [NewPhoto(files[0], ids[0])] else []) + Accepted(files[1..], ids[1..])
  }

  /** The files of a batch that are refused, in file order. */
  function Refused(files: seq<FileInfo>): (r: seq<FileInfo>) {
    if |files| == 0 then []
    else (if Admit(files[0]) != Admitted then [files[0]] else []) + Refused(files[1..])
  }

  /** One file of `processFiles`: an alert, or the photo prepended and its interval started. */
  function AddFile(page: Page, f: FileInfo, id: string): (r: (Page, seq<string>))
  {
    if Admit(f) != Admitted then (page, [RejectionAlert(f)])
    else (Page([NewPhoto(f, id)] + page.photos, page.timers[id := Ticking(0.0)]), [])
  }

  /** The alerts of refused files, one per file, in order. */
  function Alerts(refused: seq<FileInfo>): (r: seq<string>)
    ensures |r| == |refused|
    ensures forall k :: 0 <= k < |r| ==> r[k] == RejectionAlert(refused[k])
  {
    seq(|refused|, k requires 0 <= k < |refused| => RejectionAlert(refused[k]))
  }

  lemma ReverseCons<T>(x: T, s: seq<T>)
    ensures Reverse([x] + s) == Reverse(s) + [x]
  {
    assert ([x] + s)[1..] == s;
  }

  /** The panel after the accepted files of a batch are added, one by one. */
  function AddPhotos(page: Page, files: seq<FileInfo>, ids: seq<string>): (r: Page)
    requires |ids| == |files|
    ensures r.photos == Reverse(Accepted(files, ids)) + page.photos
    ensures forall id :: id in page.timers && id !in ids ==> id in r.timers && r.timers[id] == page.timers[id]
    ensures page.timers.Keys <= r.timers.Keys
    ensures forall k :: 0 <= k < |Accepted(files, ids)| ==> Accepted(files, ids)[k].id in r.timers
    decreases |files|
  {
    if |files| == 0 then page
    else
      var page1 := AddFile(page, files[0], ids[0]).0;
      var head := if Admit(files[0]) == Admitted then [NewPhoto(files[0], ids[0])] else [];
      assert Accepted(files, ids) == head + Accepted(files[1..], ids[1..]);
      assert Reverse(head + Accepted(files[1..], ids[1..])) == Reverse(Accepted(files[1..], ids[1..])) + head by {
        if head != [] {
          ReverseCons(head[0], Accepted(files[1..], ids[1..]));
        } else {
          assert head + Accepted(files[1..], ids[1..]) == Accepted(files[1..], ids[1..]);
        }
      }
      AddPhotos(page1, files[1..], ids[1..])
  }

  /**
   * `processFiles` over a batch, `ids[k]` being the id drawn for `files[k]`:
   * the accepted files end up in front, the last one first; the existing
   * photos keep their order behind them; each refused file gives one alert.
   * A file's alert does not depend on the panel, so the photos and the alerts
   * of the loop are computed apart.
   */
  function AddFiles(page: Page, files: seq<FileInfo>, ids: seq<string>): (r: (Page, seq<string>))
    requires |ids| == |files|
    ensures r.0.photos == Reverse(Accepted(files, ids)) + page.photos
    ensures |r.1| == |Refused(files)|
    ensures forall k :: 0 <= k < |r.1| ==> r.1[k] == RejectionAlert(Refused(files)[k])
    ensures forall id :: id in page.timers && id !in ids ==> id in r.0.timers && r.0.timers[id] == page.timers[id]
    ensures page.timers.Keys <= r.0.timers.Keys
    ensures forall k :: 0 <= k < |Accepted(files, ids)| ==> Accepted(files, ids)[k].id in r.0.timers
  {
    (AddPhotos(page, files, ids), Alerts(Refused(files)))
  }

  // ---------------------------------------------------------------- updates by id

  /** The three updates the timers make to a photo. */
  datatype Change = SetProgress(n: int) | ToProcessing | ToCompleted

  function Apply(p: Photo, c: Change): (q: Photo)
    ensures q.id == p.id && q.filename == p.filename && q.size == p.size
  {
    match c
    case SetProgress(n) => p.(progress := n)
    case ToProcessing => p.(status := Processing, progress := 100)
    case ToCompleted => p.(status := Completed)
  }

  /** The change applied to every photo with that id; the others stay as they are. */
  function UpdateById(photos: seq<Photo>, id: string, c: Change): (r: seq<Photo>)
    ensures |r| == |photos|
    ensures forall k :: 0 <= k < |r| ==> r[k].id == photos[k].id
    ensures forall k :: 0 <= k < |r| && photos[k].id != id ==> r[k] == photos[k]
    ensures forall k :: 0 <= k < |r| && photos[k].id == id ==> r[k] == Apply(photos[k], c)
    ensures (forall k :: 0 <= k < |photos| ==> photos[k].id != id) ==> r == photos
  {
    if |photos| == 0 then []
    else
      var rest := UpdateById(photos[1..], id, c);
      var r := [if photos[0].id == id then Apply(photos[0], c) else photos[0]] + rest;
      assert forall k :: 1 <= k < |r| ==> r[k] == rest[k - 1] && photos[k] == photos[1..][k - 1];
      r
  }

  /** `deletePhoto`: the photos with that id are dropped, the others kept in order. */
  function RemoveById(photos: seq<Photo>, id: string): (r: seq<Photo>)
    ensures |r| <= |photos|
    ensures forall p :: p in r <==> p in photos && p.id != id
  {
    if |photos| == 0 then []
    else
      var rest := RemoveById(photos[1..], id);
      assert photos == [photos[0]] + photos[1..];
      if photos[0].id == id then rest else [photos[0]] + rest
  }

  /** Deleting distributes over concatenation, so the survivors keep their relative order. */
  lemma {:induction false} RemoveByIdSplits(xs: seq<Photo>, ys: seq<Photo>, id: string)
    ensures RemoveById(xs + ys, id) == RemoveById(xs, id) + RemoveById(ys, id)
  {
    if |xs| == 0 {
      assert xs + ys == ys;
    } else {
      assert (xs + ys)[1..] == xs[1..] + ys;
      RemoveByIdSplits(xs[1..], ys, id);
    }
  }

  // ---------------------------------------------------------------- events

  /**
   * One interval tick adding `inc` (`Math.random() * 15 + 5`): from 100 on the
   * interval stops and the photo is processing at exactly 100, before that it
   * shows the rounded progress. A tick of a timer that is not running is no event.
   */
  function Tick(page: Page, id: string, inc: real): (r: Page)
    requires 5.0 <= inc < 20.0
    ensures |r.photos| == |page.photos|
    ensures forall k :: 0 <= k < |r.photos| && page.photos[k].id != id ==> r.photos[k] == page.photos[k]
    ensures id in page.timers && page.timers[id].Ticking? && page.timers[id].acc + inc >= 100.0 ==>
              && r.timers == page.timers[id := Pending]
              && forall k :: 0 <= k < |r.photos| && page.photos[k].id == id ==>
                   r.photos[k] == page.photos[k].(status := Processing, progress := 100)
    ensures id in page.timers && page.timers[id].Ticking? && page.timers[id].acc + inc < 100.0 ==>
              && r.timers == page.timers[id := Ticking(page.timers[id].acc + inc)]
              && forall k :: 0 <= k < |r.photos| && page.photos[k].id == id ==>
                   r.photos[k] == page.photos[k].(progress := Round(page.timers[id].acc + inc))
    ensures !(id in page.timers && page.timers[id].Ticking?) ==> r == page
  {
    if id in page.timers && page.timers[id].Ticking? then
      var acc := page.timers[id].acc + inc;
      if acc >= 100.0 then Page(UpdateById(page.photos, id, ToProcessing), page.timers[id := Pending])
      else Page(UpdateById(page.photos, id, SetProgress(Round(acc))), page.timers[id := Ticking(acc)])
    else page
  }

  /** The completion timeout: processing becomes completed. */
  function Finish(page: Page, id: string): (r: Page)
    ensures |r.photos| == |page.photos|
    ensures forall k :: 0 <= k < |r.photos| && page.photos[k].id != id ==> r.photos[k] == page.photos[k]
    ensures id in page.timers && page.timers[id] == Pending ==>
              && r.timers == page.timers[id := Done]
              && forall k :: 0 <= k < |r.photos| && page.photos[k].id == id ==>
                   r.photos[k] == page.photos[k].(status := Completed)
    ensures !(id in page.timers && page.timers[id] == Pending) ==> r == page
  {
    if id in page.timers && page.timers[id] == Pending then
      Page(UpdateById(page.photos, id, ToCompleted), page.timers[id := Done])
    else page
  }

  /** `deletePhoto`; the photo's timers keep running and their later updates find nothing to change. */
  function Delete(page: Page, id: string): (r: Page)
    ensures r.timers == page.timers
    ensures forall p :: p in r.photos <==> p in page.photos && p.id != id
  {
    Page(RemoveById(page.photos, id), page.timers)
  }

  // ---------------------------------------------------------------- invariant

  /** A photo shows what its timer says. */
  predicate Agrees(p: Photo, t: Timer) {
    match t
    case Ticking(acc) => p.status == Uploading && p.progress == Round(acc)
    case Pending => p.status == Processing && p.progress == 100
    case Done => p.status == Completed && p.progress == 100
  }

  /** No two photos share an id. */
  predicate DistinctIds(photos: seq<Photo>) {
    forall i, j :: 0 <= i < j < |photos| ==> photos[i].id != photos[j].id
  }

  /** Photo ids are unique, every photo has a timer it agrees with, and running timers are below 100. */
  ghost predicate Consistent(page: Page) {
    && DistinctIds(page.photos)
    && (forall i :: 0 <= i < |page.photos| ==> page.photos[i].id in page.timers)
    && (forall i :: 0 <= i < |page.photos| ==> Agrees(page.photos[i], page.timers[page.photos[i].id]))
    && (forall id :: id in page.timers && page.timers[id].Ticking? ==> 0.0 <= page.timers[id].acc < 100.0)
  }

  /** The empty panel. */
  const Initial: Page := Page([], map[])

  lemma InitialConsistent()
    ensures Consistent(Initial)
  {
  }

  /** In a consistent panel every progress is between 0 and 100. */
  lemma ProgressInRange(page: Page, k: int)
    requires Consistent(page)
    requires 0 <= k < |page.photos|
    ensures 0 <= page.photos[k].progress <= 100
  {
    var t := page.timers[page.photos[k].id];
    if t.Ticking? {
      assert 0.5 <= t.acc + 0.5 < 100.5;
    }
  }

  lemma {:induction false} AcceptedIdsAmong(files: seq<FileInfo>, ids: seq<string>)
    requires |ids| == |files|
    ensures forall p :: p in Accepted(files, ids) ==> p.id in ids && p.status == Uploading && p.progress == 0
  {
    if |files| > 0 {
      AcceptedIdsAmong(files[1..], ids[1..]);
    }
  }

  /** Fresh ids (distinct, and not used before) keep the panel consistent when a batch is added. */
  lemma {:induction false} AddFilesPreservesConsistent(page: Page, files: seq<FileInfo>, ids: seq<string>)
    requires Consistent(page)
    requires |ids| == |files|
    requires forall k :: 0 <= k < |ids| ==> ids[k] !in page.timers
    requires forall k, l :: 0 <= k < l < |ids| ==> ids[k] != ids[l]
    ensures Consistent(AddFiles(page, files, ids).0)
    decreases |files|
  {
    if |files| > 0 {
      var page1 := AddFile(page, files[0], ids[0]).0;
      if Admit(files[0]) == Admitted {
        assert page1.photos == [NewPhoto(files[0], ids[0])] + page.photos;
        assert forall i :: 0 <= i < |page.photos| ==> page.photos[i].id != ids[0];
        assert Round(0.0) == 0;
        forall i | 0 <= i < |page1.photos|
          ensures page1.photos[i].id in page1.timers && Agrees(page1.photos[i], page1.timers[page1.photos[i].id])
        {
          if i > 0 {
            assert page1.photos[i] == page.photos[i - 1];
          }
        }
      }
      assert forall k :: 0 <= k < |ids[1..]| ==> ids[1..][k] == ids[k + 1];
      AddFilesPreservesConsistent(page1, files[1..], ids[1..]);
    }
  }

  /** Updating the photo with `id` so that it agrees with the new timer keeps the panel consistent. */
  lemma UpdatePreservesConsistent(page: Page, id: string, c: Change, t: Timer)
    requires Consistent(page)
    requires id in page.timers
    requires forall p :: p in page.photos && p.id == id ==> Agrees(Apply(p, c), t)
    requires t.Ticking? ==> 0.0 <= t.acc < 100.0
    ensures Consistent(Page(UpdateById(page.photos, id, c), page.timers[id := t]))
  {
    var photos := UpdateById(page.photos, id, c);
    var timers := page.timers[id := t];
    SameIdsStayDistinct(page.photos, photos);
    forall i | 0 <= i < |photos|
      ensures photos[i].id in timers && Agrees(photos[i], timers[photos[i].id])
    {
      UpdatedPhotoAgrees(page, id, c, t, i);
    }
    assert forall other :: other in timers && timers[other].Ticking? ==> 0.0 <= timers[other].acc < 100.0;
  }

  /** A list with the same ids, position by position, as a list of distinct ids has distinct ids. */
  lemma SameIdsStayDistinct(before: seq<Photo>, after: seq<Photo>)
    requires |after| == |before|
    requires forall i :: 0 <= i < |after| ==> after[i].id == before[i].id
    requires forall i, j :: 0 <= i < j < |before| ==> before[i].id != before[j].id
    ensures forall i, j :: 0 <= i < j < |after| ==> after[i].id != after[j].id
  {
  }

  /** One photo after the update agrees with its timer. */
  lemma UpdatedPhotoAgrees(page: Page, id: string, c: Change, t: Timer, i: int)
    requires Consistent(page)
    requires forall p :: p in page.photos && p.id == id ==> Agrees(Apply(p, c), t)
    requires 0 <= i < |page.photos|
    ensures var q := UpdateById(page.photos, id, c)[i];
            q.id in page.timers[id := t] && Agrees(q, page.timers[id := t][q.id])
  {
    if page.photos[i].id == id {
      assert page.photos[i] in page.photos;
    }
  }

  /** A tick keeps the panel consistent. */
  lemma TickPreservesConsistent(page: Page, id: string, inc: real)
    requires Consistent(page)
    requires 5.0 <= inc < 20.0
    ensures Consistent(Tick(page, id, inc))
  {
    if id in page.timers && page.timers[id].Ticking? {
      if page.timers[id].acc + inc >= 100.0 {
        TickToPendingConsistent(page, id, inc);
      } else {
        TickProgressConsistent(page, id, inc);
      }
    }
  }

  lemma TickToPendingConsistent(page: Page, id: string, inc: real)
    requires Consistent(page)
    requires 5.0 <= inc < 20.0
    requires id in page.timers && page.timers[id].Ticking? && page.timers[id].acc + inc >= 100.0
    ensures Consistent(Tick(page, id, inc))
  {
    var next := Page(UpdateById(page.photos, id, ToProcessing), page.timers[id := Pending]);
    assert Consistent(next) by {
      UpdatePreservesConsistent(page, id, ToProcessing, Pending);
    }
    assert Tick(page, id, inc) == next;
  }

  lemma TickProgressConsistent(page: Page, id: string, inc: real)
    requires Consistent(page)
    requires 5.0 <= inc < 20.0
    requires id in page.timers && page.timers[id].Ticking? && page.timers[id].acc + inc < 100.0
    ensures Consistent(Tick(page, id, inc))
  {
    var acc := page.timers[id].acc + inc;
    TickBelowHundred(page, id, inc);
    RunningTimerInRange(page, id);
    UploadingWhileTicking(page, id, SetProgress(Round(acc)), Ticking(acc));
    UpdatePreservesConsistent(page, id, SetProgress(Round(acc)), Ticking(acc));
  }

  /** A tick that stays below 100 sets the rounded progress and keeps the interval running. */
  lemma TickBelowHundred(page: Page, id: string, inc: real)
    requires 5.0 <= inc < 20.0
    requires id in page.timers && page.timers[id].Ticking? && page.timers[id].acc + inc < 100.0
    ensures Tick(page, id, inc)
            == Page(UpdateById(page.photos, id, SetProgress(Round(page.timers[id].acc + inc))),
                    page.timers[id := Ticking(page.timers[id].acc + inc)])
  {
  }

  /** In a consistent panel a running timer's total is within 0..100. */
  lemma RunningTimerInRange(page: Page, id: string)
    requires Consistent(page)
    requires id in page.timers && page.timers[id].Ticking?
    ensures 0.0 <= page.timers[id].acc < 100.0
  {
  }

  /** While a photo's interval runs it is uploading, so setting any progress agrees with a running timer. */
  lemma UploadingWhileTicking(page: Page, id: string, c: Change, t: Timer)
    requires Consistent(page)
    requires id in page.timers && page.timers[id].Ticking?
    requires c.SetProgress? && t.Ticking? && c.n == Round(t.acc)
    ensures forall p :: p in page.photos && p.id == id ==> Agrees(Apply(p, c), t)
  {
    forall p | p in page.photos && p.id == id
      ensures Agrees(Apply(p, c), t)
    {
      var k :| 0 <= k < |page.photos| && page.photos[k] == p;
      assert Agrees(page.photos[k], page.timers[id]);
    }
  }

  /** The completion timeout keeps the panel consistent. */
  lemma FinishPreservesConsistent(page: Page, id: string)
    requires Consistent(page)
    ensures Consistent(Finish(page, id))
  {
    if id in page.timers && page.timers[id] == Pending {
      forall p | p in page.photos && p.id == id
        ensures Agrees(Apply(p, ToCompleted), Done)
      {
        var k :| 0 <= k < |page.photos| && page.photos[k] == p;
        assert Agrees(page.photos[k], page.timers[id]);
      }
      UpdatePreservesConsistent(page, id, ToCompleted, Done);
    }
  }

  /** The survivors of a delete have distinct ids when the photos had. */
  lemma {:induction false} RemoveKeepsDistinct(photos: seq<Photo>, id: string)
    requires DistinctIds(photos)
    ensures DistinctIds(RemoveById(photos, id))
  {
    if |photos| > 0 {
      var rest := RemoveById(photos[1..], id);
      DistinctTail(photos);
      RemoveKeepsDistinct(photos[1..], id);
      if photos[0].id != id {
        assert RemoveById(photos, id) == [photos[0]] + rest;
        HeadIdNotAmong(photos, rest);
        ConsKeepsDistinct(photos[0], rest);
      }
    }
  }

  /** With distinct ids, no photo drawn from the rest has the first photo's id. */
  lemma HeadIdNotAmong(photos: seq<Photo>, rest: seq<Photo>)
    requires |photos| > 0 && DistinctIds(photos)
    requires forall p :: p in rest ==> p in photos[1..]
    ensures forall j :: 0 <= j < |rest| ==> rest[j].id != photos[0].id
  {
    forall j | 0 <= j < |rest|
      ensures rest[j].id != photos[0].id
    {
      assert rest[j] in photos[1..];
      var k :| 0 <= k < |photos[1..]| && photos[1..][k] == rest[j];
      assert photos[k + 1] == rest[j];
    }
  }

  lemma ConsKeepsDistinct(p: Photo, rest: seq<Photo>)
    requires DistinctIds(rest)
    requires forall j :: 0 <= j < |rest| ==> rest[j].id != p.id
    ensures DistinctIds([p] + rest)
  {
    var r := [p] + rest;
    forall i, j | 0 <= i < j < |r|
      ensures r[i].id != r[j].id
    {
      assert r[j] == rest[j - 1];
      if i > 0 {
        assert r[i] == rest[i - 1];
      }
    }
  }

  /** Dropping the first photo keeps the ids distinct. */
  lemma DistinctTail(photos: seq<Photo>)
    requires |photos| > 0 && DistinctIds(photos)
    ensures DistinctIds(photos[1..])
  {
    forall i, j | 0 <= i < j < |photos[1..]|
      ensures photos[1..][i].id != photos[1..][j].id
    {
      assert photos[1..][i] == photos[i + 1] && photos[1..][j] == photos[j + 1];
    }
  }

  /** With unique ids, deleting a present id removes exactly one photo, and an absent id removes none. */
  lemma {:induction false} DeleteRemovesOne(photos: seq<Photo>, id: string)
    requires DistinctIds(photos)
    ensures (exists k :: 0 <= k < |photos| && photos[k].id == id) ==> |RemoveById(photos, id)| == |photos| - 1
    ensures (forall k :: 0 <= k < |photos| ==> photos[k].id != id) ==> RemoveById(photos, id) == photos
  {
    if |photos| > 0 {
      var tail := photos[1..];
      DistinctTail(photos);
      DeleteRemovesOne(tail, id);
      if photos[0].id == id {
        IdNotInTail(photos, id);
        assert RemoveById(photos, id) == RemoveById(tail, id);
        assert photos[0].id == id;
      } else {
        assert RemoveById(photos, id) == [photos[0]] + RemoveById(tail, id);
        if exists k :: 0 <= k < |photos| && photos[k].id == id {
          IdInTail(photos, id);
        }
        if forall k :: 0 <= k < |photos| ==> photos[k].id != id {
          NoIdInTail(photos, id);
          assert [photos[0]] + tail == photos;
        }
      }
    }
  }

  /** With distinct ids, a photo with `id` in front leaves no other photo with it. */
  lemma IdNotInTail(photos: seq<Photo>, id: string)
    requires |photos| > 0 && DistinctIds(photos) && photos[0].id == id
    ensures forall k :: 0 <= k < |photos[1..]| ==> photos[1..][k].id != id
  {
    forall k | 0 <= k < |photos[1..]|
      ensures photos[1..][k].id != id
    {
      assert photos[1..][k] == photos[k + 1];
    }
  }

  lemma IdInTail(photos: seq<Photo>, id: string)
    requires |photos| > 0 && photos[0].id != id
    requires exists k :: 0 <= k < |photos| && photos[k].id == id
    ensures exists k :: 0 <= k < |photos[1..]| && photos[1..][k].id == id
  {
    var k :| 0 <= k < |photos| && photos[k].id == id;
    assert photos[1..][k - 1].id == id;
  }

  lemma NoIdInTail(photos: seq<Photo>, id: string)
    requires |photos| > 0
    requires forall k :: 0 <= k < |photos| ==> photos[k].id != id
    ensures forall k :: 0 <= k < |photos[1..]| ==> photos[1..][k].id != id
  {
    assert forall k :: 0 <= k < |photos[1..]| ==> photos[1..][k] == photos[k + 1];
  }

  /** Deleting keeps the panel consistent. */
  lemma DeletePreservesConsistent(page: Page, id: string)
    requires Consistent(page)
    ensures Consistent(Delete(page, id))
  {
    var photos := RemoveById(page.photos, id);
    assert forall p :: p in photos ==> p in page.photos;
    RemoveKeepsDistinct(page.photos, id);
  }

  // ---------------------------------------------------------------- progress of one upload

  /** Stage order of a photo: uploading, processing, completed. */
  function Stage(s: Status): nat {
    match s
    case Uploading => 0
    case Processing => 1
    case Completed => 2
    case Error => 3
  }

  /** No event moves a photo back: every photo after a tick or a timeout is at the same or a later stage. */
  lemma TimersOnlyAdvance(page: Page, id: string, inc: real, k: int)
    requires Consistent(page)
    requires 5.0 <= inc < 20.0
    requires 0 <= k < |page.photos|
    ensures Tick(page, id, inc).photos[k].id == page.photos[k].id
    ensures Stage(Tick(page, id, inc).photos[k].status) >= Stage(page.photos[k].status)
    ensures Tick(page, id, inc).photos[k].progress >= page.photos[k].progress
    ensures Finish(page, id).photos[k].id == page.photos[k].id
    ensures Stage(Finish(page, id).photos[k].status) >= Stage(page.photos[k].status)
    ensures Finish(page, id).photos[k].progress == page.photos[k].progress
  {
    var p := page.photos[k];
    if id in page.timers && page.timers[id].Ticking? && p.id == id {
      var acc := page.timers[id].acc;
      assert Agrees(p, page.timers[id]);
      if acc + inc < 100.0 {
        assert (acc + 0.5).Floor <= (acc + inc + 0.5).Floor;
      } else {
        assert p.progress == (acc + 0.5).Floor <= 100;
      }
    }
    if id in page.timers && page.timers[id] == Pending && p.id == id {
      assert Agrees(p, page.timers[id]);
    }
  }

  /**
   * The tick that reaches 100 and the timeout after it finish the upload: the
   * photo is completed at 100, and a second timeout changes nothing.
   */
  lemma TickThenFinishCompletes(page: Page, id: string, inc: real)
    requires 5.0 <= inc < 20.0
    requires id in page.timers && page.timers[id].Ticking? && page.timers[id].acc + inc >= 100.0
    ensures var done := Finish(Tick(page, id, inc), id);
            && done.timers == page.timers[id := Done]
            && (forall k :: 0 <= k < |done.photos| && page.photos[k].id == id ==>
                  done.photos[k].status == Completed && done.photos[k].progress == 100)
            && Finish(done, id) == done
  {
    var ticked := Tick(page, id, inc);
    assert ticked.timers == page.timers[id := Pending];
    var done := Finish(ticked, id);
    assert done.timers == page.timers[id := Done];
    forall k | 0 <= k < |done.photos| && page.photos[k].id == id
      ensures done.photos[k].status == Completed && done.photos[k].progress == 100
    {
      assert ticked.photos[k] == page.photos[k].(status := Processing, progress := 100);
      assert done.photos[k] == ticked.photos[k].(status := Completed);
    }
    assert done.timers[id] == Done;
  }

  /** Each tick adds at least 5, so an interval stops after at most 20 ticks. */
  lemma TickAdvances(page: Page, id: string, inc: real)
    requires 5.0 <= inc < 20.0
    requires id in page.timers && page.timers[id].Ticking?
    ensures var t := Tick(page, id, inc).timers[id];
            t == Pending || (t.Ticking? && t.acc >= page.timers[id].acc + 5.0)
  {
  }

  // ---------------------------------------------------------------- grid

  const GridSize: nat := 6

  /** `photos.slice(0, 6)`: the most recent photos, at most six. */
  function Visible(photos: seq<Photo>): (r: seq<Photo>)
    ensures |r| == if |photos| < 6 then |photos| else 6
    ensures r <= photos
  {
    if |photos| <= GridSize then photos else photos[..GridSize]
  }

  /** The "view all" button appears when there are more than six photos. */
  predicate ShowViewAll(photos: seq<Photo>) {
    |photos| > GridSize
  }

  /** The button appears exactly when the grid hides some photo. */
  lemma ViewAllWhenHidden(photos: seq<Photo>)
    ensures ShowViewAll(photos) <==> |Visible(photos)| < |photos|
    ensures !ShowViewAll(photos) ==> Visible(photos) == photos
  {
  }
}

=== FILE: produtor_controller.dfy ===
/**
 * The producer's routes: create a farm, list own farms, heat-map data and the
 * farm report. Each route is a function from the session's cpf, the request
 * and the database to a reply (and, for creation, the new database).
 */
module ProdutorController {
  import opened Wrappers
  import opened Flask
  import opened Store
  import opened FarmHealth
  import Numerals

  const MissingFields: string := "Todos os campos são obrigatórios."
  const DuplicateCcir: string := "CCIR já cadastrado."
  /** Prefix of the 500 message; the exception text that follows it is not modelled. */
  const CreateFailed: string := "Erro ao criar fazenda: "
  const ListFailed: string := "Erro ao listar fazendas."
  const HeatMapNotFound: string := "Fazenda não encontrada."
  const HeatMapDenied: string := "Acesso negado."
  const HeatMapInternal: string := "Erro interno inesperado no servidor."
  const ReportNotFound: string := "Fazenda não encontrada"
  const ReportDenied: string := "Acesso negado: Esta fazenda não pertence ao seu usuário."
  /** The report's 500 message for the KeyError raised by `farm_data['cpf_produtor']`. */
  const ReportKeyError: string := "Erro interno do servidor: 'cpf_produtor'"

  // ---------------------------------------------------------------- creation

  /** The five fields creation reads, after the `ccm`/`ccir` and `name`/`nome` fallbacks. */
  datatype FarmFields = FarmFields(ccir: Value, nome: Value, latitude: Value, longitude: Value, area: Value)

  function ReadFarmFields(body: Body): (r: FarmFields)
    ensures Truthy(r.ccir) <==> Truthy(Get(body, "ccm")) || Truthy(Get(body, "ccir"))
    ensures Truthy(r.nome) <==> Truthy(Get(body, "name")) || Truthy(Get(body, "nome"))
    ensures Truthy(Get(body, "ccm")) ==> r.ccir == Get(body, "ccm")
    ensures Truthy(Get(body, "name")) ==> r.nome == Get(body, "name")
    ensures r.latitude == Get(body, "latitude") && r.longitude == Get(body, "longitude") && r.area == Get(body, "area")
  {
    FarmFields(Or(Get(body, "ccm"), Get(body, "ccir")), Or(Get(body, "name"), Get(body, "nome")),
               Get(body, "latitude"), Get(body, "longitude"), Get(body, "area"))
  }

  /** The `all([...])` check: every one of the five fields is present and truthy. */
  predicate HasAllFields(f: FarmFields) {
    AllTruthy([f.ccir, f.nome, f.latitude, f.longitude, f.area])
  }

  /** The three `float()` conversions succeed. */
  predicate NumbersParse(f: FarmFields) {
    ToFloat(f.latitude).Some? && ToFloat(f.longitude).Some? && ToFloat(f.area).Some?
  }

  /**
   * `POST /fazendas`: 401, then 400, then 500 on a failed conversion, then
   * 409 on a taken CCIR, else 201. The 409 adds no row but has spent the
   * farm id, so the next farm created gets the id after it.
   */
  function CreateFarm(session: Option<Cpf>, body: Body, db: Db): (r: (Reply<int>, Db))
    ensures session.None? ==> r.0 == Fail(401, NotAuthenticated) && r.1 == db
    ensures session.Some? && !HasAllFields(ReadFarmFields(body)) ==> r.0 == Fail(400, MissingFields) && r.1 == db
    ensures r.0.code == 500 <==> session.Some? && HasAllFields(ReadFarmFields(body)) && !NumbersParse(ReadFarmFields(body))
    ensures r.0.code == 409 <==>
              session.Some? && HasAllFields(ReadFarmFields(body)) && NumbersParse(ReadFarmFields(body))
              && CcirTaken(db.farms, ReadFarmFields(body).ccir)
    ensures r.0.code == 201 <==>
              session.Some? && HasAllFields(ReadFarmFields(body)) && NumbersParse(ReadFarmFields(body))
              && !CcirTaken(db.farms, ReadFarmFields(body).ccir)
    ensures r.0.code in {201, 400, 401, 409, 500}
    ensures r.0.code != 201 ==> r.0.payload.Error?
    ensures r.0.code in {400, 401, 500} ==> r.1 == db
    ensures r.0.code == 409 ==> r.1 == db.(nextFarmId := db.nextFarmId + 1)
    ensures r.0.code == 201 ==> r.0.payload == Success(db.nextFarmId)
    ensures r.0.code == 201 ==>
              var f := ReadFarmFields(body);
              r.1 == db.(farms := db.farms + [FarmRow(db.nextFarmId, session.value, f.ccir, f.nome,
                                                      ToFloat(f.latitude).value, ToFloat(f.longitude).value,
                                                      ToFloat(f.area).value)],
                         nextFarmId := db.nextFarmId + 1)
  {
    if session.None? then (Fail(401, NotAuthenticated), db)
    else
      var f := ReadFarmFields(body);
      if !HasAllFields(f) then (Fail(400, MissingFields), db)
      else if !NumbersParse(f) then (Fail(500, CreateFailed), db)
      else
        match InsertFarm(db, session.value, f.ccir, f.nome, ToFloat(f.latitude).value,
                         ToFloat(f.longitude).value, ToFloat(f.area).value)
        case (None, db') => (Fail(409, DuplicateCcir), db')
        case (Some(id), db') => (Reply(201, Success(id)), db')
  }

  /** The stored CCIR is `ccm` when that is truthy, else `ccir`; the stored name is `name`, else `nome`. */
  lemma CreateFarmAliases(session: Option<Cpf>, body: Body, db: Db)
    requires CreateFarm(session, body, db).0.code == 201
    ensures var stored := CreateFarm(session, body, db).1.farms[|db.farms|];
            && stored.ccir == (if Truthy(Get(body, "ccm")) then Get(body, "ccm") else Get(body, "ccir"))
            && stored.nome == (if Truthy(Get(body, "name")) then Get(body, "name") else Get(body, "nome"))
            && stored.owner == session.value
  {
  }

  /** Creation keeps farm ids and CCIRs unique. */
  lemma CreateFarmPreservesValid(session: Option<Cpf>, body: Body, db: Db)
    requires Valid(db)
    ensures Valid(CreateFarm(session, body, db).1)
  {
    var f := ReadFarmFields(body);
    if session.Some? && HasAllFields(f) && NumbersParse(f) {
      InsertFarmPreservesValid(db, session.value, f.ccir, f.nome, ToFloat(f.latitude).value,
                               ToFloat(f.longitude).value, ToFloat(f.area).value);
    }
  }

  /**
   * A refused duplicate has used up an id: a farm created right after a 409
   * gets the id one past the counter the 409 saw.
   */
  lemma {:induction false} CreateAfterConflictSkipsId(cpf: Cpf, duplicate: Body, body: Body, db: Db)
    requires CreateFarm(Some(cpf), duplicate, db).0.code == 409
    requires CreateFarm(Some(cpf), body, CreateFarm(Some(cpf), duplicate, db).1).0.code == 201
    ensures CreateFarm(Some(cpf), body, CreateFarm(Some(cpf), duplicate, db).1).0.payload == Success(db.nextFarmId + 1)
    ensures CreateFarm(Some(cpf), body, CreateFarm(Some(cpf), duplicate, db).1).1.farms[|db.farms|].id == db.nextFarmId + 1
  {
  }

  /** A farm sent with the number 0 as its latitude (the equator) is refused as incomplete. */
  lemma ZeroLatitudeIsMissing(cpf: Cpf, body: Body, db: Db)
    requires "latitude" in body && body["latitude"] == Num(0.0)
    ensures CreateFarm(Some(cpf), body, db).0.code == 400
  {
    var f := ReadFarmFields(body);
    assert [f.ccir, f.nome, f.latitude, f.longitude, f.area][2] == f.latitude;
  }

  // ---------------------------------------------------------------- listing

  /** One element of the `fazendas` list of `GET /fazendas`. */
  datatype FarmItem = FarmItem(id: string, ccm: Value, name: Value, latitude: real, longitude: real, area: real)

  /** The row as a listing item; its id is sent as text that `int()` reads back. */
  function ToFarmItem(f: FarmRow): (r: FarmItem)
    ensures Numerals.ParseInt(r.id) == Some(f.id)
    ensures r.ccm == f.ccir && r.name == f.nome && r.area == f.area
  {
    Numerals.IntTextRoundTrip(f.id);
    FarmItem(Numerals.IntToText(f.id), f.ccir, f.nome, f.latitude, f.longitude, f.area)
  }

  /** The farms whose owner is `cpf`, in table order, as listing items. */
  function FarmsOfOwner(farms: seq<FarmRow>, cpf: Cpf): (r: seq<FarmItem>)
    ensures |r| <= |farms|
    ensures forall f :: f in farms && f.owner == cpf ==> ToFarmItem(f) in r
    ensures forall item :: item in r ==> exists f :: f in farms && f.owner == cpf && item == ToFarmItem(f)
  {
    if |farms| == 0 then []
    else
      var rest := FarmsOfOwner(farms[1..], cpf);
      assert forall f :: f in farms ==> f == farms[0] || f in farms[1..];
      if farms[0].owner == cpf then [ToFarmItem(farms[0])] + rest else rest
  }

  /**
   * `GET /fazendas` as written: `FazendaDAO` defines no `buscar_fazendas_por_produtor`,
   * so the AttributeError is caught and every authenticated call gets a 500.
   */
  function ListFarmsAsWritten(session: Option<Cpf>, db: Db): (r: Reply<seq<FarmItem>>)
    ensures session.None? ==> r == Fail(401, NotAuthenticated)
    ensures session.Some? ==> r == Fail(500, ListFailed)
  {
    if session.None? then Fail(401, NotAuthenticated)
    else Fail(500, ListFailed)
  }

  /** `GET /fazendas` as intended: 401 without a session, else 200 with exactly the caller's farms. */
  function ListFarms(session: Option<Cpf>, db: Db): (r: Reply<seq<FarmItem>>)
    ensures session.None? ==> r == Fail(401, NotAuthenticated)
    ensures session.Some? ==> r.code == 200 && r.payload.Success?
    ensures session.Some? ==> forall f :: f in db.farms ==> (ToFarmItem(f) in r.payload.data <== f.owner == session.value)
    ensures session.Some? ==> forall item :: item in r.payload.data ==>
              exists f :: f in db.farms && f.owner == session.value && item == ToFarmItem(f)
  {
    if session.None? then Fail(401, NotAuthenticated)
    else Reply(200, Success(FarmsOfOwner(db.farms, session.value)))
  }

  /** The as-written listing never answers a logged-in producer; the intended one always does. */
  lemma ListFarmsFinding(cpf: Cpf, db: Db)
    ensures ListFarmsAsWritten(Some(cpf), db).code == 500
    ensures ListFarms(Some(cpf), db).code == 200
  {
  }

  // ---------------------------------------------------------------- access guard

  /** Outcome of the guard shared by the heat-map and report routes. */
  datatype Gate = Refused(code: int, message: string) | Admitted(farm: FarmDetails)

  /** 401 without a session, then 404 for a missing farm, then 403 for someone else's farm. */
  function CheckAccess(session: Option<Cpf>, farmId: int, db: Db, notFound: string, denied: string): (g: Gate)
    ensures session.None? ==> g == Refused(401, NotAuthenticated)
    ensures session.Some? && FarmById(db, farmId).None? ==> g == Refused(404, notFound)
    ensures session.Some? && FarmById(db, farmId).Some? && FarmById(db, farmId).value.producerCpf != session.value
            ==> g == Refused(403, denied)
    ensures g.Admitted? <==> session.Some? && FarmById(db, farmId).Some?
                             && FarmById(db, farmId).value.producerCpf == session.value
    ensures g.Admitted? ==> g.farm == FarmById(db, farmId).value
  {
    if session.None? then Refused(401, NotAuthenticated)
    else match FarmById(db, farmId)
      case None => Refused(404, notFound)
      case Some(d) => if d.producerCpf != session.value then Refused(403, denied) else Admitted(d)
  }

  /**
   * The guard as written: after the 404 check it reads `row['cpf_produtor']`, but
   * `buscar_fazenda_por_id` selects no such column (see `Store.FarmDetails`), so every
   * found farm ends in the reply for the KeyError and the 403 check is never reached.
   */
  function CheckAccessAsWritten(session: Option<Cpf>, farmId: int, db: Db, notFound: string, denied: string,
                                keyError: string): (g: Gate)
    ensures session.None? ==> g == Refused(401, NotAuthenticated)
    ensures session.Some? && FarmById(db, farmId).None? ==> g == Refused(404, notFound)
    ensures session.Some? && FarmById(db, farmId).Some? ==> g == Refused(500, keyError)
  {
    if session.None? then Refused(401, NotAuthenticated)
    else match FarmById(db, farmId)
      case None => Refused(404, notFound)
      case Some(_) => Refused(500, keyError)
  }

  // ---------------------------------------------------------------- heat map

  /** The `farm` object of the heat-map reply. */
  datatype HeatMapFarm = HeatMapFarm(id: string, name: Value, ccm: Value, latitude: real, longitude: real,
                                     area: real, producerName: string, producerCpf: Cpf)

  /** One element of `images`: the DAO row with `anomala` made a boolean. */
  datatype HeatImage = HeatImage(nome: string, lat: real, lng: real, anomala: bool)

  datatype HeatMapData = HeatMapData(farm: HeatMapFarm, images: seq<HeatImage>)

  /** The farm object of the heat map; its id is sent as text that `int()` reads back. */
  function ToHeatMapFarm(d: FarmDetails): (r: HeatMapFarm)
    ensures Numerals.ParseInt(r.id) == Some(d.id)
    ensures r.ccm == d.ccir && r.area == d.extTerritorial && r.producerCpf == d.producerCpf
  {
    Numerals.IntTextRoundTrip(d.id);
    HeatMapFarm(Numerals.IntToText(d.id), d.nome, d.ccir, d.latitude, d.longitude, d.extTerritorial,
                d.producerName, d.producerCpf)
  }

  /** Each result row with its 0/1 anomaly flag turned back into a boolean. */
  function CoerceImages(rows: seq<ImageResultRow>): (r: seq<HeatImage>)
    ensures |r| == |rows|
    ensures forall k :: 0 <= k < |r| ==>
              && r[k].nome == rows[k].nome && r[k].lat == rows[k].lat && r[k].lng == rows[k].lng
              && (r[k].anomala <==> rows[k].anomala != 0)
  {
    if |rows| == 0 then []
    else [HeatImage(rows[0].nome, rows[0].lat, rows[0].lng, rows[0].anomala != 0)] + CoerceImages(rows[1..])
  }

  /** A stored image as it appears in the heat-map reply. */
  function ToHeatImage(img: ImageRow): HeatImage {
    HeatImage(img.nome, img.latitude, img.longitude, img.anomala)
  }

  /** The heat-map images of a farm are exactly its stored images, one per image. */
  lemma HeatImagesOfFarm(images: seq<ImageRow>, farmId: int)
    ensures forall img :: img in images && img.farmId == farmId ==>
              ToHeatImage(img) in CoerceImages(ImagesOfFarm(images, farmId))
    ensures forall h :: h in CoerceImages(ImagesOfFarm(images, farmId)) ==>
              exists img :: img in images && img.farmId == farmId && h == ToHeatImage(img)
  {
    var rows := ImagesOfFarm(images, farmId);
    var r := CoerceImages(rows);
    forall img | img in images && img.farmId == farmId
      ensures ToHeatImage(img) in r
    {
      var k :| 0 <= k < |rows| && rows[k] == ToResultRow(img);
      assert r[k] == ToHeatImage(img);
    }
    forall h | h in r
      ensures exists img :: img in images && img.farmId == farmId && h == ToHeatImage(img)
    {
      var k :| 0 <= k < |r| && r[k] == h;
      assert rows[k] in rows;
      var img :| img in images && img.farmId == farmId && rows[k] == ToResultRow(img);
      assert h == ToHeatImage(img);
    }
  }

  /** `GET /mapa-calor/<farm_id>` as intended: the guard, then 200 with the farm and all its images. */
  function HeatMap(session: Option<Cpf>, farmId: int, db: Db): (r: Reply<HeatMapData>)
    ensures session.None? ==> r == Fail(401, NotAuthenticated)
    ensures session.Some? && FarmById(db, farmId).None? ==> r == Fail(404, HeatMapNotFound)
    ensures session.Some? && FarmById(db, farmId).Some? && FarmById(db, farmId).value.producerCpf != session.value
            ==> r == Fail(403, HeatMapDenied)
    ensures r.code == 200 <==> CheckAccess(session, farmId, db, HeatMapNotFound, HeatMapDenied).Admitted?
    ensures r.code == 200 ==> r.payload.Success? && r.payload.data.farm == ToHeatMapFarm(FarmById(db, farmId).value)
    ensures r.code == 200 ==> |r.payload.data.images| == CountOfFarm(db.images, farmId)
    ensures r.code == 200 ==> forall img :: img in db.images && img.farmId == farmId ==>
              ToHeatImage(img) in r.payload.data.images
    ensures r.code == 200 ==> forall h :: h in r.payload.data.images ==>
              exists img :: img in db.images && img.farmId == farmId && h == ToHeatImage(img)
  {
    match CheckAccess(session, farmId, db, HeatMapNotFound, HeatMapDenied)
    case Refused(code, message) => Fail(code, message)
    case Admitted(d) =>
      HeatImagesOfFarm(db.images, farmId);
      Reply(200, Success(HeatMapData(ToHeatMapFarm(d), CoerceImages(ImagesOfFarm(db.images, farmId)))))
  }

  /** The heat-map route as written: 500 for every farm that exists. */
  function HeatMapAsWritten(session: Option<Cpf>, farmId: int, db: Db): (r: Reply<HeatMapData>)
    ensures session.None? ==> r.code == 401
    ensures session.Some? && FarmById(db, farmId).None? ==> r.code == 404
    ensures session.Some? && FarmById(db, farmId).Some? ==> r == Fail(500, HeatMapInternal)
  {
    match CheckAccessAsWritten(session, farmId, db, HeatMapNotFound, HeatMapDenied, HeatMapInternal)
    case Refused(code, message) => Fail(code, message)
    case Admitted(d) => Reply(200, Success(HeatMapData(ToHeatMapFarm(d), CoerceImages(ImagesOfFarm(db.images, farmId)))))
  }

  /** The owner of an existing farm: refused by the route as written, served by the intended one. */
  lemma HeatMapFinding(cpf: Cpf, farmId: int, db: Db)
    requires FarmById(db, farmId).Some? && FarmById(db, farmId).value.producerCpf == cpf
    ensures HeatMapAsWritten(Some(cpf), farmId, db).code == 500
    ensures HeatMap(Some(cpf), farmId, db).code == 200
  {
  }

  /** A producer who has just created a farm can open its heat map, which has no images yet. */
  lemma {:induction false} CreatedFarmHasHeatMap(cpf: Cpf, body: Body, db: Db)
    requires Valid(db)
    requires forall k :: 0 <= k < |db.images| ==> db.images[k].farmId < db.nextFarmId
    requires cpf in db.users
    requires CreateFarm(Some(cpf), body, db).0.code == 201
    ensures var (reply, db') := CreateFarm(Some(cpf), body, db);
            var id := reply.payload.data;
            HeatMap(Some(cpf), id, db').code == 200 && HeatMap(Some(cpf), id, db').payload.data.images == []
  {
    var (reply, db') := CreateFarm(Some(cpf), body, db);
    var id := db.nextFarmId;
    assert FindFarm(db.farms, id).None?;
    FindFarmAppend(db.farms, db'.farms[|db.farms|], id);
    assert db'.farms == db.farms + [db'.farms[|db.farms|]];
    assert FindFarm(db'.farms, id).Some? && FindFarm(db'.farms, id).value.owner == cpf;
    NoImagesOfNewFarm(db.images, id);
  }

  lemma {:induction false} FindFarmAppend(farms: seq<FarmRow>, row: FarmRow, id: int)
    requires FindFarm(farms, id).None?
    requires row.id == id
    ensures FindFarm(farms + [row], id) == Some(row)
  {
    if |farms| == 0 {
      assert farms + [row] == [row];
    } else {
      assert (farms + [row])[1..] == farms[1..] + [row];
      FindFarmAppend(farms[1..], row, id);
    }
  }

  lemma {:induction false} NoImagesOfNewFarm(images: seq<ImageRow>, id: int)
    requires forall k :: 0 <= k < |images| ==> images[k].farmId < id
    ensures ImagesOfFarm(images, id) == []
  {
    if |images| > 0 {
      NoImagesOfNewFarm(images[1..], id);
    }
  }

  // ---------------------------------------------------------------- report

  /** An entry of `anomalyTypes`. */
  datatype Slice = Slice(name: string, value: int, color: string)

  /** The `farm` object of the report reply. */
  datatype ReportFarm = ReportFarm(id: string, name: Value, ccm: Value, latitude: real, longitude: real, area: real,
                                   status: Health, producerName: string, producerCpf: Cpf,
                                   totalImages: int, anomalousImages: int, normalImages: int)

  /** The `reportData` object; the three lists other than `anomalyTypes` are always empty. */
  datatype ReportData = ReportData(weeklyAnalysis: seq<Slice>, anomalyTypes: seq<Slice>,
                                   monthlyTrend: seq<Slice>, recommendations: seq<string>)

  datatype Report = Report(farm: ReportFarm, reportData: ReportData)

  /** Report counts: a missing row or NULL column reads as 0, and normal = total - anomalous. */
  function ReportCounts(stats: Option<ImageStats>): (c: (int, int, int))
    ensures stats.None? ==> c == (0, 0, 0)
    ensures stats.Some? ==> c.0 == stats.value.totalImages.GetOr(0) && c.1 == stats.value.anomalousImages.GetOr(0)
    ensures c.2 == c.0 - c.1
  {
    var total := if stats.Some? && stats.value.totalImages.Some? then stats.value.totalImages.value else 0;
    var anomalous := if stats.Some? && stats.value.anomalousImages.Some? then stats.value.anomalousImages.value else 0;
    (total, anomalous, total - anomalous)
  }

  function AnomalyTypes(anomalous: int, normal: int): seq<Slice> {
    [Slice("Anômalas", anomalous, "#ef4444"), Slice("Normais", normal, "#22c55e")]
  }

  function BuildReport(d: FarmDetails, stats: Option<ImageStats>): (r: Report)
    ensures r.farm.totalImages == ReportCounts(stats).0
    ensures r.farm.anomalousImages == ReportCounts(stats).1
    ensures r.farm.normalImages == ReportCounts(stats).2
    ensures r.farm.status == Classify(r.farm.totalImages, r.farm.anomalousImages)
    ensures |r.reportData.anomalyTypes| == 2
    ensures r.reportData.anomalyTypes[0].value == r.farm.anomalousImages
    ensures r.reportData.anomalyTypes[1].value == r.farm.normalImages
    ensures r.reportData.weeklyAnalysis == [] && r.reportData.monthlyTrend == [] && r.reportData.recommendations == []
  {
    var (total, anomalous, normal) := ReportCounts(stats);
    Report(ReportFarm(Numerals.IntToText(d.id), d.nome, d.ccir, d.latitude, d.longitude, d.extTerritorial,
                      Classify(total, anomalous), d.producerName, d.producerCpf, total, anomalous, normal),
           ReportData([], AnomalyTypes(anomalous, normal), [], []))
  }

  /** `GET /relatorio/<farm_id>` as intended: the guard, then 200 with counts, status and chart data. */
  function FarmReport(session: Option<Cpf>, farmId: int, db: Db): (r: Reply<Report>)
    ensures session.None? ==> r == Fail(401, NotAuthenticated)
    ensures session.Some? && FarmById(db, farmId).None? ==> r == Fail(404, ReportNotFound)
    ensures session.Some? && FarmById(db, farmId).Some? && FarmById(db, farmId).value.producerCpf != session.value
            ==> r == Fail(403, ReportDenied)
    ensures r.code == 200 <==> CheckAccess(session, farmId, db, ReportNotFound, ReportDenied).Admitted?
    ensures r.code == 200 ==> r.payload.Success?
    ensures r.code == 200 ==>
              var report := r.payload.data;
              var total := CountOfFarm(db.images, farmId);
              var anomalous := AnomalousOfFarm(db.images, farmId);
              && report.farm.totalImages == total
              && report.farm.anomalousImages == anomalous
              && report.farm.normalImages == total - anomalous >= 0
              && report.farm.status == Classify(total, anomalous)
              && |report.reportData.anomalyTypes| == 2
              && report.reportData.anomalyTypes[0].value == anomalous
              && report.reportData.anomalyTypes[1].value == total - anomalous
              && report.reportData.weeklyAnalysis == [] && report.reportData.monthlyTrend == []
              && report.reportData.recommendations == []
  {
    match CheckAccess(session, farmId, db, ReportNotFound, ReportDenied)
    case Refused(code, message) => Fail(code, message)
    case Admitted(d) =>
      var stats := StatsOfFarm(db, farmId);
      assert ReportCounts(Some(stats)).0 == CountOfFarm(db.images, farmId);
      assert ReportCounts(Some(stats)).1 == AnomalousOfFarm(db.images, farmId);
      Reply(200, Success(BuildReport(d, Some(stats))))
  }

  /** The report route as written: 500 for every farm that exists. */
  function FarmReportAsWritten(session: Option<Cpf>, farmId: int, db: Db): (r: Reply<Report>)
    ensures session.None? ==> r.code == 401
    ensures session.Some? && FarmById(db, farmId).None? ==> r.code == 404
    ensures session.Some? && FarmById(db, farmId).Some? ==> r == Fail(500, ReportKeyError)
  {
    match CheckAccessAsWritten(session, farmId, db, ReportNotFound, ReportDenied, ReportKeyError)
    case Refused(code, message) => Fail(code, message)
    case Admitted(d) => Reply(200, Success(BuildReport(d, Some(StatsOfFarm(db, farmId)))))
  }

  /** The owner of an existing farm: refused by the report as written, served by the intended one. */
  lemma FarmReportFinding(cpf: Cpf, farmId: int, db: Db)
    requires FarmById(db, farmId).Some? && FarmById(db, farmId).value.producerCpf == cpf
    ensures FarmReportAsWritten(Some(cpf), farmId, db).code == 500
    ensures FarmReport(Some(cpf), farmId, db).code == 200
  {
  }

  /** A farm without images is reported healthy with all counts 0. */
  lemma EmptyFarmIsHealthy(cpf: Cpf, farmId: int, db: Db)
    requires FarmReport(Some(cpf), farmId, db).code == 200
    requires CountOfFarm(db.images, farmId) == 0
    ensures var farm := FarmReport(Some(cpf), farmId, db).payload.data.farm;
            farm.status == Healthy && farm.totalImages == 0 && farm.anomalousImages == 0 && farm.normalImages == 0
  {
  }
}

=== FILE: produtor_page.dfy ===
/**
 * The producer's panel: the list of the producer's farms, the add-farm form,
 * and the pickers that lead to a farm's heat map or report.
 */
module ProdutorPage {
  import opened Wrappers
  import Js
  import Numerals
  import Flask
  import Store
  import ProdutorController
  import Router

  /** The five inputs of the add-farm form, as typed. */
  datatype FarmForm = FarmForm(name: string, ccm: string, latitude: string, longitude: string, area: string)

  datatype Field = Name | Ccm | Latitude | Longitude | Area

  const EmptyForm: FarmForm := FarmForm("", "", "", "", "")

  function FieldValue(form: FarmForm, field: Field): string {
    match field
    case Name => form.name
    case Ccm => form.ccm
    case Latitude => form.latitude
    case Longitude => form.longitude
    case Area => form.area
  }

  /** `handleInputChange`: the named input takes the value, the others keep theirs. */
  function SetField(form: FarmForm, field: Field, value: string): (r: FarmForm)
    ensures FieldValue(r, field) == value
    ensures forall other :: other != field ==> FieldValue(r, other) == FieldValue(form, other)
  {
    match field
    case Name => form.(name := value)
    case Ccm => form.(ccm := value)
    case Latitude => form.(latitude := value)
    case Longitude => form.(longitude := value)
    case Area => form.(area := value)
  }

  /** A click on the map selector fills both coordinates (their `toFixed(6)` texts) and nothing else. */
  function SelectLocation(form: FarmForm, latText: string, lngText: string): (r: FarmForm)
    ensures r == SetField(SetField(form, Latitude, latText), Longitude, lngText)
  {
    form.(latitude := latText, longitude := lngText)
  }

  /** The state of the panel; the farm list holds the items the listing route returned. */
  datatype Page = Page(
    farms: seq<ProdutorController.FarmItem>, form: FarmForm,
    addOpen: bool, heatMapOpen: bool, reportOpen: bool, loading: bool)

  /** The outcome of the listing request: it threw, or a JSON answer. */
  datatype LoadResponse =
    | LoadThrew
    | LoadAnswer(success: bool, fazendas: seq<ProdutorController.FarmItem>)

  /** `carregarFazendas`: the listed farms on success, an empty list on any failure. */
  function LoadFarms(resp: LoadResponse): (farms: seq<ProdutorController.FarmItem>)
    ensures farms != [] ==> resp.LoadAnswer? && resp.success && farms == resp.fazendas
    ensures resp.LoadAnswer? && resp.success ==> farms == resp.fazendas
  {
    match resp
    case LoadThrew => []
    case LoadAnswer(success, fazendas) => if success then fazendas else []
  }

  /** The outcome of the create request: it threw, or a JSON answer. */
  datatype SubmitResponse =
    | SubmitThrew
    | SubmitAnswer(success: bool, message: Option<string>)

  const ConnectionFailed := "Falha de conexão com o servidor."

  /** `alert(data.message)`: an absent message shows as 'undefined'. */
  function AlertText(message: Option<string>): string {
    if message.Some? then message.value else "undefined"
  }

  /**
   * `handleFormSubmit`: on success the list is reloaded (`reload` is the
   * listing request's outcome), the form is cleared and the modal closes;
   * otherwise the page keeps its state and alerts.
   */
  function Submit(page: Page, resp: SubmitResponse, reload: LoadResponse): (r: (Page, Option<string>))
    ensures !r.0.loading
    ensures r.1.None? <==> resp.SubmitAnswer? && resp.success
    ensures r.1.None? ==> r.0 == page.(farms := LoadFarms(reload), form := EmptyForm, addOpen := false, loading := false)
    ensures r.1.Some? ==> r.0 == page.(loading := false)
    ensures resp.SubmitThrew? ==> r.1 == Some(ConnectionFailed)
    ensures resp.SubmitAnswer? && !resp.success ==> r.1 == Some(AlertText(resp.message))
  {
    match resp
    case SubmitThrew => (page.(loading := false), Some(ConnectionFailed))
    case SubmitAnswer(success, message) =>
      if success then (page.(farms := LoadFarms(reload), form := EmptyForm, addOpen := false, loading := false), None)
      else (page.(loading := false), Some(AlertText(message)))
  }

  // ---------------------------------------------------------------- navigation

  /** The path the heat-map picker opens as written. */
  const ProducerHeatMapPrefix := "/area-produtor/heat-map/"
  const ReportPrefix := "/relatorio/"

  /**
   * `handleFarmSelect` as written: `/area-produtor/heat-map/<id>`; the picker
   * closes. The route table has no such route.
   */
  function FarmSelectAsWritten(page: Page, farmId: string): (r: (Page, string))
    ensures r.0 == page.(heatMapOpen := false)
    ensures Js.StartsWith(r.1, ProducerHeatMapPrefix) && r.1[|ProducerHeatMapPrefix|..] == farmId
  {
    var path := ProducerHeatMapPrefix + farmId;
    assert path[..|ProducerHeatMapPrefix|] == ProducerHeatMapPrefix && path[|ProducerHeatMapPrefix|..] == farmId;
    (page.(heatMapOpen := false), path)
  }

  /** `handleFarmSelect` as intended: the farm's heat map on the one heat-map route; the picker closes. */
  function FarmSelect(page: Page, farmId: string): (r: (Page, string))
    ensures r.0 == page.(heatMapOpen := false)
    ensures Js.StartsWith(r.1, Router.HeatMapPrefix) && r.1[|Router.HeatMapPrefix|..] == farmId
  {
    var path := Router.HeatMapPrefix + farmId;
    assert path[..|Router.HeatMapPrefix|] == Router.HeatMapPrefix && path[|Router.HeatMapPrefix|..] == farmId;
    (page.(heatMapOpen := false), path)
  }

  /**
   * The producer's heat-map picker as written leads to no page for any farm;
   * the intended path opens the heat map of the chosen farm.
   */
  lemma HeatMapLinkFinding(page: Page, farmId: string)
    requires Router.PlainSegment(farmId)
    ensures Router.Resolve(FarmSelectAsWritten(page, farmId).1) == None
    ensures Router.Resolve(FarmSelect(page, farmId).1) == Some(Router.HeatMapScreen(farmId))
  {
    assert ProducerHeatMapPrefix + farmId == "/area-produtor/" + ("heat-map/" + farmId);
    Router.BelowProducerAreaUnrouted("heat-map/" + farmId);
    assert Router.HeatMapPrefix + farmId + "" == Router.HeatMapPrefix + farmId;
    Router.HeatMapPathResolves(farmId, "");
  }

  /** `handleReportFarmSelect`: the report route of the farm; the picker closes. */
  function ReportSelect(page: Page, farmId: string): (r: (Page, string))
    ensures r.0 == page.(reportOpen := false)
    ensures Js.StartsWith(r.1, ReportPrefix) && r.1[|ReportPrefix|..] == farmId
  {
    var path := ReportPrefix + farmId;
    assert path[..|ReportPrefix|] == ReportPrefix && path[|ReportPrefix|..] == farmId;
    (page.(reportOpen := false), path)
  }

  /** Different farms lead to different pages, and a heat-map route is never a report route. */
  lemma RoutesDistinguishFarms(page: Page, a: string, b: string)
    ensures FarmSelect(page, a).1 == FarmSelect(page, b).1 <==> a == b
    ensures ReportSelect(page, a).1 == ReportSelect(page, b).1 <==> a == b
    ensures FarmSelect(page, a).1 != ReportSelect(page, b).1
    ensures Router.PlainSegment(b) ==> Router.Resolve(ReportSelect(page, b).1) == Some(Router.ReportScreen(b))
  {
    var h, r := FarmSelect(page, a).1, ReportSelect(page, b).1;
    assert h[1] == 'h' && r[1] == 'r';
    if Router.PlainSegment(b) {
      Router.ReportPathResolves(b);
    }
  }

  // ---------------------------------------------------------------- against the backend

  /** The key under which the body sends each input. */
  function BodyKey(field: Field): string {
    match field
    case Name => "name"
    case Ccm => "ccm"
    case Latitude => "latitude"
    case Longitude => "longitude"
    case Area => "area"
  }

  /** The JSON body the form sends: every input, as text, under its key, and nothing else. */
  function FormBody(form: FarmForm): (body: Flask.Body)
    ensures body.Keys == {"ccm", "name", "latitude", "longitude", "area"}
    ensures forall field :: BodyKey(field) in body && body[BodyKey(field)] == Flask.Str(FieldValue(form, field))
  {
    map["ccm" := Flask.Str(form.ccm), "name" := Flask.Str(form.name), "latitude" := Flask.Str(form.latitude),
        "longitude" := Flask.Str(form.longitude), "area" := Flask.Str(form.area)]
  }

  /** Some input of the form is empty. */
  predicate SomeFieldEmpty(form: FarmForm) {
    exists field :: FieldValue(form, field) == ""
  }

  /** A logged-in producer's form is refused with 400 exactly when one of its inputs is empty. */
  lemma EmptyInputIsRefused(cpf: Store.Cpf, form: FarmForm, db: Store.Db)
    ensures ProdutorController.CreateFarm(Some(cpf), FormBody(form), db).0.code == 400 <==> SomeFieldEmpty(form)
  {
    var f := ProdutorController.ReadFarmFields(FormBody(form));
    assert f.ccir == Flask.Or(Flask.Str(form.ccm), Flask.Null);
    assert f.nome == Flask.Or(Flask.Str(form.name), Flask.Null);
    var vs := [f.ccir, f.nome, f.latitude, f.longitude, f.area];
    if SomeFieldEmpty(form) {
      var field :| FieldValue(form, field) == "";
      var k := match field case Ccm => 0 case Name => 1 case Latitude => 2 case Longitude => 3 case Area => 4;
      assert !Flask.Truthy(vs[k]);
    } else {
      assert FieldValue(form, Ccm) != "" && FieldValue(form, Name) != "" && FieldValue(form, Latitude) != "";
      assert FieldValue(form, Longitude) != "" && FieldValue(form, Area) != "";
      assert Flask.AllTruthy(vs);
    }
  }

  /** The reply of the create route as the page reads it. */
  function ToSubmitResponse(reply: Flask.Reply<int>): (resp: SubmitResponse)
    ensures resp.SubmitAnswer? && (resp.success <==> reply.payload.Success?)
  {
    match reply.payload
    case Success(_) => SubmitAnswer(true, None)
    case Error(message) => SubmitAnswer(false, Some(message))
  }

  /** The reply of the listing route as the page reads it. */
  function ToLoadResponse(reply: Flask.Reply<seq<ProdutorController.FarmItem>>): (resp: LoadResponse)
    ensures resp.LoadAnswer? && (resp.success <==> reply.payload.Success?)
  {
    match reply.payload
    case Success(items) => LoadAnswer(true, items)
    case Error(_) => LoadAnswer(false, [])
  }

  /** A form the create route accepts: every input filled, the numbers readable, the CCIR free. */
  predicate Acceptable(form: FarmForm, db: Store.Db) {
    && !SomeFieldEmpty(form)
    && Numerals.ParseFloat(form.latitude).Some?
    && Numerals.ParseFloat(form.longitude).Some?
    && Numerals.ParseFloat(form.area).Some?
    && !Store.CcirTaken(db.farms, Flask.Str(form.ccm))
  }

  /** The row the create route inserts for an acceptable form. */
  function NewRow(cpf: Store.Cpf, form: FarmForm, db: Store.Db): Store.FarmRow
    requires Acceptable(form, db)
  {
    Store.FarmRow(db.nextFarmId, cpf, Flask.Str(form.ccm), Flask.Str(form.name),
                  Numerals.ParseFloat(form.latitude).value, Numerals.ParseFloat(form.longitude).value,
                  Numerals.ParseFloat(form.area).value)
  }

  lemma AcceptableIsCreated(cpf: Store.Cpf, form: FarmForm, db: Store.Db)
    requires Acceptable(form, db)
    ensures var r := ProdutorController.CreateFarm(Some(cpf), FormBody(form), db);
            r.0.code == 201 && r.1 == db.(farms := db.farms + [NewRow(cpf, form, db)], nextFarmId := db.nextFarmId + 1)
  {
    var f := FilledFields(form);
    assert Flask.ToFloat(f.latitude).value == Numerals.ParseFloat(form.latitude).value;
  }

  /** What the create route reads from a body whose inputs are all filled. */
  lemma FilledFields(form: FarmForm) returns (f: ProdutorController.FarmFields)
    requires !SomeFieldEmpty(form)
    ensures f == ProdutorController.ReadFarmFields(FormBody(form))
    ensures f == ProdutorController.FarmFields(Flask.Str(form.ccm), Flask.Str(form.name), Flask.Str(form.latitude),
                                               Flask.Str(form.longitude), Flask.Str(form.area))
    ensures ProdutorController.HasAllFields(f)
  {
    f := ProdutorController.ReadFarmFields(FormBody(form));
    assert FieldValue(form, Ccm) != "" && FieldValue(form, Name) != "" && FieldValue(form, Latitude) != "";
    assert FieldValue(form, Longitude) != "" && FieldValue(form, Area) != "";
    var vs := [f.ccir, f.nome, f.latitude, f.longitude, f.area];
    assert forall i :: 0 <= i < 5 ==> Flask.Truthy(vs[i]);
  }

  /** Submitting the form to the backend and reloading the list with the given listing route. */
  function SubmitToBackend(page: Page, cpf: Store.Cpf, db: Store.Db, asWritten: bool): (Page, Option<string>) {
    var created := ProdutorController.CreateFarm(Some(cpf), FormBody(page.form), db);
    var listed := if asWritten then ProdutorController.ListFarmsAsWritten(Some(cpf), created.1)
                  else ProdutorController.ListFarms(Some(cpf), created.1);
    Submit(page, ToSubmitResponse(created.0), ToLoadResponse(listed))
  }

  /**
   * After a farm is added, the reload with the listing route as written
   * leaves the producer's list empty; with the intended listing the new farm
   * is in it.
   */
  lemma AddedFarmIsListed(page: Page, cpf: Store.Cpf, db: Store.Db)
    requires Acceptable(page.form, db)
    ensures SubmitToBackend(page, cpf, db, true).1.None?
    ensures SubmitToBackend(page, cpf, db, true).0.farms == []
    ensures SubmitToBackend(page, cpf, db, false).1.None?
    ensures ProdutorController.ToFarmItem(NewRow(cpf, page.form, db)) in SubmitToBackend(page, cpf, db, false).0.farms
  {
    AcceptableIsCreated(cpf, page.form, db);
    var db' := db.(farms := db.farms + [NewRow(cpf, page.form, db)], nextFarmId := db.nextFarmId + 1);
    assert NewRow(cpf, page.form, db) in db'.farms;
  }
}

=== FILE: register_page.dfy ===
/** The sign-up page: it checks the four inputs, sends them, and opens the login page on success. */
module RegisterPage {
  import opened Wrappers
  import Js
  import LoginPage
  import Router

  /** The four inputs; `tipo` is the selected option's value ('' for the placeholder). */
  datatype SignUpForm = SignUpForm(cpf: string, nome: string, senha: string, tipo: string)

  /** The values of the user-type select; '' is the placeholder option. */
  const TypeOptions: seq<string> := ["", "produtor", "operador", "mosaiqueiro"]

  /** The submit button is disabled while no user type is selected. */
  predicate SubmitDisabled(form: SignUpForm) {
    form.tipo == ""
  }

  /** Every user type one can sign up as has an area the login page opens. */
  lemma EveryTypeHasAnArea(k: int)
    requires 0 < k < |TypeOptions|
    ensures LoginPage.RoleRoute(TypeOptions[k]).Some?
  {
  }

  /** The outcome of the sign-up request: it threw, or a reply with its ok flag and JSON answer. */
  datatype SignUpResponse =
    | SignUpThrew
    | SignUpAnswer(ok: bool, success: bool, message: Option<string>)

  /** What the handler did: whether it sent the request, the alerts in order, and the page it opened. */
  datatype Outcome = Outcome(sent: bool, alerts: seq<string>, navigate: Option<string>)

  const FillAll := "Preencha todos os campos!"
  const Registered := "Cadastro realizado com sucesso! Você será redirecionado para a página de login."
  const SignUpFailed := "Erro ao realizar o cadastro."
  const Unreachable := "Não foi possível conectar ao servidor. Tente novamente mais tarde."

  predicate AllFilled(form: SignUpForm) {
    form.cpf != "" && form.nome != "" && form.senha != "" && form.tipo != ""
  }

  /**
   * `handleSubmit`: an empty input stops it before any request; then an ok
   * reply whose status is 'success' alerts and opens the login page; any other
   * reply alerts the server's message or a default; a thrown request alerts
   * that the server is unreachable.
   */
  function SignUp(form: SignUpForm, resp: SignUpResponse): (o: Outcome)
    ensures o.sent <==> AllFilled(form)
    ensures !AllFilled(form) ==> o == Outcome(false, [FillAll], None)
    ensures o.navigate.Some? <==> AllFilled(form) && resp.SignUpAnswer? && resp.ok && resp.success
    ensures o.navigate.Some? ==> o.navigate.value == "/login" && o.alerts == [Registered]
    ensures |o.alerts| == 1
    ensures AllFilled(form) && resp.SignUpAnswer? && !(resp.ok && resp.success) ==>
              o.alerts == [Js.OrElse(resp.message, SignUpFailed)]
    ensures AllFilled(form) && resp.SignUpThrew? ==> o.alerts == [Unreachable]
  {
    if !AllFilled(form) then Outcome(false, [FillAll], None)
    else match resp
      case SignUpThrew => Outcome(true, [Unreachable], None)
      case SignUpAnswer(ok, success, message) =>
        if ok && success then Outcome(true, [Registered], Some("/login"))
        else Outcome(true, [Js.OrElse(message, SignUpFailed)], None)
  }

  /** A success body on a non-2xx reply is still a failure. */
  lemma SuccessNeedsOkStatus(form: SignUpForm, message: Option<string>)
    requires AllFilled(form)
    ensures SignUp(form, SignUpAnswer(false, true, message)).navigate.None?
    ensures SignUp(form, SignUpAnswer(false, true, message)).alerts == [Js.OrElse(message, SignUpFailed)]
  {
  }

  /** A successful sign-up opens the login page. */
  lemma SignUpOpensLogin(form: SignUpForm, resp: SignUpResponse)
    requires SignUp(form, resp).navigate.Some?
    ensures Router.Resolve(SignUp(form, resp).navigate.value) == Some(Router.LoginScreen)
  {
    Router.FixedPathsResolve();
  }

  /** A form whose button is disabled could not be sent anyway: the handler stops at its own check. */
  lemma DisabledFormIsStopped(form: SignUpForm, resp: SignUpResponse)
    requires SubmitDisabled(form)
    ensures SignUp(form, resp) == Outcome(false, [FillAll], None)
  {
  }
}

=== FILE: router.dfy ===
/**
 * The route table of the frontend: which page a path opens. The query
 * string is not part of the match; `:farmId` matches one non-empty segment.
 */
module Router {
  import opened Wrappers
  import Js
  import Numerals

  datatype Screen =
    | InitialScreen
    | LoginScreen
    | RegisterScreen
    | ProducerScreen
    | OperatorScreen
    | MosaiqueiroScreen
    | HeatMapScreen(farmId: string)
    | ReportScreen(farmId: string)

  const HeatMapPrefix := "/heat-map/"
  const ReportPrefix := "/relatorio/"

  /** A text with no '/' and no '?'. */
  predicate PlainSegment(s: string) {
    s != "" && forall k :: 0 <= k < |s| ==> s[k] != '/' && s[k] != '?'
  }

  /** The path without its query string. */
  function PathPart(path: string): (p: string)
    ensures p <= path
    ensures forall k :: 0 <= k < |p| ==> p[k] != '?'
    ensures (forall k :: 0 <= k < |path| ==> path[k] != '?') ==> p == path
  {
    path[..Numerals.IndexOf(path, '?')]
  }

  /** The page a path opens, or None when no route matches; only the part before any '?' counts. */
  function Resolve(path: string): (s: Option<Screen>)
    ensures (forall k :: 0 <= k < |path| ==> path[k] != '?') ==> s == Match(path)
    ensures s.Some? && s.value.HeatMapScreen? ==> Js.StartsWith(path, HeatMapPrefix + s.value.farmId)
    ensures s.Some? && s.value.ReportScreen? ==> Js.StartsWith(path, ReportPrefix + s.value.farmId)
  {
    Match(PathPart(path))
  }

  /**
   * The route matching a path without query: each fixed page exactly at its
   * path, and a farm page exactly at its prefix followed by the farm id.
   */
  function Match(p: string): (s: Option<Screen>)
    ensures s == Some(InitialScreen) <==> p == "/"
    ensures s == Some(LoginScreen) <==> p == "/login"
    ensures s == Some(RegisterScreen) <==> p == "/register"
    ensures s == Some(ProducerScreen) <==> p == "/area-produtor"
    ensures s == Some(OperatorScreen) <==> p == "/area-operador"
    ensures s == Some(MosaiqueiroScreen) <==> p == "/area-mosaiqueiro"
    ensures s.Some? && s.value.HeatMapScreen? ==> p == HeatMapPrefix + s.value.farmId && Segment(s.value.farmId)
    ensures s.Some? && s.value.ReportScreen? ==> p == ReportPrefix + s.value.farmId && Segment(s.value.farmId)
  {
    if p == "/" then Some(InitialScreen)
    else if p == "/login" then Some(LoginScreen)
    else if p == "/register" then Some(RegisterScreen)
    else if p == "/area-produtor" then Some(ProducerScreen)
    else if p == "/area-operador" then Some(OperatorScreen)
    else if p == "/area-mosaiqueiro" then Some(MosaiqueiroScreen)
    else if Js.StartsWith(p, HeatMapPrefix) && Segment(p[|HeatMapPrefix|..]) then Some(HeatMapScreen(p[|HeatMapPrefix|..]))
    else if Js.StartsWith(p, ReportPrefix) && Segment(p[|ReportPrefix|..]) then Some(ReportScreen(p[|ReportPrefix|..]))
    else None
  }

  /** A `:farmId` segment: non-empty, without '/'. */
  predicate Segment(s: string) {
    s != "" && forall k :: 0 <= k < |s| ==> s[k] != '/'
  }

  /** A path with a question-mark-free prefix keeps that prefix after the query is dropped. */
  lemma PathPartKeepsPrefix(prefix: string, rest: string)
    requires forall k :: 0 <= k < |prefix| ==> prefix[k] != '?'
    ensures var p := PathPart(prefix + rest);
            |prefix| <= |p| && p[..|prefix|] == prefix
            && p == prefix + PathPart(rest)
  {
    Numerals.IndexOfPast(prefix, rest, '?');
  }

  /** A heat-map path is matched as that farm's heat map. */
  lemma HeatMapPathMatches(farmId: string)
    requires Segment(farmId)
    ensures Match(HeatMapPrefix + farmId) == Some(HeatMapScreen(farmId))
  {
    var p := HeatMapPrefix + farmId;
    assert p[..|HeatMapPrefix|] == HeatMapPrefix && p[|HeatMapPrefix|..] == farmId;
    assert p[1] == 'h' && |p| > |HeatMapPrefix|;
  }

  /** A report path is matched as that farm's report. */
  lemma ReportPathMatches(farmId: string)
    requires Segment(farmId)
    ensures Match(ReportPrefix + farmId) == Some(ReportScreen(farmId))
  {
    var p := ReportPrefix + farmId;
    assert p[..|ReportPrefix|] == ReportPrefix && p[|ReportPrefix|..] == farmId;
    assert p[1] == 'r' && |p| > |ReportPrefix|;
    assert p[..|HeatMapPrefix|] != HeatMapPrefix by {
      assert HeatMapPrefix[1] == 'h';
    }
  }

  /** A farm's heat-map path, with any query, opens that farm's heat map. */
  lemma HeatMapPathResolves(farmId: string, query: string)
    requires PlainSegment(farmId)
    requires query == "" || query[0] == '?'
    ensures Resolve(HeatMapPrefix + farmId + query) == Some(HeatMapScreen(farmId))
  {
    var p := HeatMapPrefix + farmId;
    assert PathPart(p + query) == p by {
      PathPartKeepsPrefix(p, query);
      assert PathPart(query) == "";
    }
    assert HeatMapPrefix + farmId + query == p + query;
    HeatMapPathMatches(farmId);
  }

  /** A farm's report path opens that farm's report. */
  lemma ReportPathResolves(farmId: string)
    requires PlainSegment(farmId)
    ensures Resolve(ReportPrefix + farmId) == Some(ReportScreen(farmId))
  {
    var p := ReportPrefix + farmId;
    assert PathPart(p) == p by {
      PathPartKeepsPrefix(p, "");
      assert p + "" == p;
    }
    ReportPathMatches(farmId);
  }

  /**
   * No route lies below `/area-produtor/`: a path that goes on past that
   * slash into a further segment opens nothing. (`rest` starting with '/'
   * or '?' is left out: React Router reads `/area-produtor/` and
   * `/area-produtor//` as the producer's area.)
   */
  lemma BelowProducerAreaUnrouted(rest: string)
    requires |rest| > 0 && rest[0] != '/' && rest[0] != '?'
    ensures Resolve("/area-produtor/" + rest) == None
  {
    var prefix := "/area-produtor/";
    assert |prefix| == 15 && PathPart(prefix + rest)[..15] == prefix by {
      PathPartKeepsPrefix(prefix, rest);
    }
    UnderProducerAreaUnmatched(PathPart(prefix + rest));
  }

  lemma UnderProducerAreaUnmatched(p: string)
    requires |p| >= 15 && p[..15] == "/area-produtor/"
    ensures Match(p) == None
  {
    assert p[1] == 'a' && p[14] == '/';
    assert p != "/area-mosaiqueiro" by {
      assert "/area-mosaiqueiro"[14] == 'i';
    }
  }

  lemma LoginPathMatches()
    ensures Match("/login") == Some(LoginScreen)
  {
  }

  lemma LoginPathResolves()
    ensures Resolve("/login") == Some(LoginScreen)
  {
    var p := "/login";
    assert Resolve(p) == Match(p) by {
      assert forall k :: 0 <= k < |p| ==> p[k] != '?';
    }
    LoginPathMatches();
  }

  lemma ProducerPathMatches()
    ensures Match("/area-produtor") == Some(ProducerScreen)
  {
  }

  lemma ProducerPathResolves()
    ensures Resolve("/area-produtor") == Some(ProducerScreen)
  {
    var p := "/area-produtor";
    assert Resolve(p) == Match(p) by {
      assert forall k :: 0 <= k < |p| ==> p[k] != '?';
    }
    ProducerPathMatches();
  }

  lemma OperatorPathMatches()
    ensures Match("/area-operador") == Some(OperatorScreen)
  {
  }

  lemma OperatorPathResolves()
    ensures Resolve("/area-operador") == Some(OperatorScreen)
  {
    var p := "/area-operador";
    assert Resolve(p) == Match(p) by {
      assert forall k :: 0 <= k < |p| ==> p[k] != '?';
    }
    OperatorPathMatches();
  }

  lemma MosaiqueiroPathMatches()
    ensures Match("/area-mosaiqueiro") == Some(MosaiqueiroScreen)
  {
  }

  lemma MosaiqueiroPathResolves()
    ensures Resolve("/area-mosaiqueiro") == Some(MosaiqueiroScreen)
  {
    var p := "/area-mosaiqueiro";
    assert Resolve(p) == Match(p) by {
      assert forall k :: 0 <= k < |p| ==> p[k] != '?';
    }
    MosaiqueiroPathMatches();
  }

  /** The fixed pages: the three areas and the login page. */
  lemma FixedPathsResolve()
    ensures Resolve("/login") == Some(LoginScreen)
    ensures Resolve("/area-produtor") == Some(ProducerScreen)
    ensures Resolve("/area-operador") == Some(OperatorScreen)
    ensures Resolve("/area-mosaiqueiro") == Some(MosaiqueiroScreen)
  {
    LoginPathResolves();
    ProducerPathResolves();
    OperatorPathResolves();
    MosaiqueiroPathResolves();
  }
}

=== FILE: status_badge.dfy ===
/** `getStatusColor`: the badge colours of an upload status. */
module StatusBadge {

  /** Background and text colour of a status badge. */
  datatype Badge = Badge(bg: string, color: string)

  const UploadingBadge: Badge := Badge("#fff3cd", "#856404")
  const ProcessingBadge: Badge := Badge("#cce7ff", "#0056b3")
  const CompletedBadge: Badge := Badge("#d4edda", "#155724")
  const ErrorBadge: Badge := Badge("#f8d7da", "#721c24")
  const DefaultBadge: Badge := Badge("#e2e8f0", "#4a5568")

  /** The statuses with a badge of their own. */
  const KnownStatuses: set<string> := {"uploading", "processing", "completed", "error"}

  /** Every string has a badge: the four known statuses their own, anything else the default. */
  function StatusColor(status: string): (b: Badge)
    ensures status == "uploading" ==> b == Badge("#fff3cd", "#856404")
    ensures status == "processing" ==> b == Badge("#cce7ff", "#0056b3")
    ensures status == "completed" ==> b == Badge("#d4edda", "#155724")
    ensures status == "error" ==> b == Badge("#f8d7da", "#721c24")
    ensures status !in KnownStatuses <==> b == Badge("#e2e8f0", "#4a5568")
  {
    match status
    case "uploading" => UploadingBadge
    case "processing" => ProcessingBadge
    case "completed" => CompletedBadge
    case "error" => ErrorBadge
    case _ => DefaultBadge
  }

  /** The known statuses have pairwise distinct backgrounds, none of them the default one. */
  lemma KnownBackgroundsDistinct(s1: string, s2: string)
    requires s1 in KnownStatuses && s2 in KnownStatuses && s1 != s2
    ensures StatusColor(s1).bg != StatusColor(s2).bg
    ensures StatusColor(s1).bg != DefaultBadge.bg
  {
  }
}

=== FILE: store.dfy ===
/**
 * The MySQL tables behind the controllers, as plain values, and the DAO
 * queries the controllers call. Rows are kept in insertion order, which
 * stands for the unspecified order of `fetchall()`.
 *
 * The only integrity failures modelled are the documented ones: a second
 * farm with the same CCIR, and a second link of the same (cpf, farm) pair.
 */
module Store {
  import opened Wrappers
  import opened Flask

  type Cpf = string

  /** A row of table `fazendas`. */
  datatype FarmRow = FarmRow(id: int, owner: Cpf, ccir: Value, nome: Value,
                             latitude: real, longitude: real, area: real)

  /** A row of `imagens` together with its row of `resultados` (both are written in one transaction). */
  datatype ImageRow = ImageRow(id: int, farmId: int, nome: string,
                               latitude: real, longitude: real, anomala: bool)

  /**
   * The database: users (cpf -> name), farms, images with their results,
   * the user/farm links of `usuarios_fazendas`, and the next AUTO_INCREMENT ids.
   */
  datatype Db = Db(users: map<Cpf, string>, farms: seq<FarmRow>, images: seq<ImageRow>,
                   links: set<(Cpf, int)>, nextFarmId: int, nextImageId: int)

  /** Farm ids and CCIRs are unique and below the next id; image ids are below theirs. */
  ghost predicate Valid(db: Db) {
    && (forall i :: 0 <= i < |db.farms| ==> db.farms[i].id < db.nextFarmId)
    && (forall i, j :: 0 <= i < j < |db.farms| ==> db.farms[i].id != db.farms[j].id)
    && (forall i, j :: 0 <= i < j < |db.farms| ==> db.farms[i].ccir != db.farms[j].ccir)
    && (forall i :: 0 <= i < |db.images| ==> db.images[i].id < db.nextImageId)
  }

  /** The farm with the given id, if any. */
  function FindFarm(farms: seq<FarmRow>, id: int): (r: Option<FarmRow>)
    ensures r.None? <==> forall i :: 0 <= i < |farms| ==> farms[i].id != id
    ensures r.Some? ==> r.value in farms && r.value.id == id
  {
    if |farms| == 0 then None
    else if farms[0].id == id then Some(farms[0])
    else FindFarm(farms[1..], id)
  }

  /** Whether some farm already has this CCIR (the unique key of `fazendas`). */
  predicate CcirTaken(farms: seq<FarmRow>, ccir: Value) {
    exists i :: 0 <= i < |farms| && farms[i].ccir == ccir
  }

  /**
   * The columns `buscar_fazenda_por_id` selects: the farm joined with its producer.
   * The owner appears only as `producerCpf`; there is no `cpf_produtor` column.
   */
  datatype FarmDetails = FarmDetails(id: int, nome: Value, ccir: Value, latitude: real, longitude: real,
                                     extTerritorial: real, producerName: string, producerCpf: Cpf)

  /** `buscar_fazenda_por_id`: the farm joined with its owner in `usuarios`; None when either is missing. */
  function FarmById(db: Db, id: int): (r: Option<FarmDetails>)
    ensures r.Some? <==> FindFarm(db.farms, id).Some? && FindFarm(db.farms, id).value.owner in db.users
    ensures r.Some? ==> r.value.id == id && r.value.producerCpf == FindFarm(db.farms, id).value.owner
    ensures r.Some? ==> var f := FindFarm(db.farms, id).value;
              && r.value.nome == f.nome && r.value.ccir == f.ccir
              && r.value.latitude == f.latitude && r.value.longitude == f.longitude && r.value.extTerritorial == f.area
              && r.value.producerName == db.users[f.owner]
  {
    match FindFarm(db.farms, id)
    case None => None
    case Some(f) =>
      if f.owner in db.users then
        Some(FarmDetails(f.id, f.nome, f.ccir, f.latitude, f.longitude, f.area, db.users[f.owner], f.owner))
      else None
  }

  /**
   * `criar_fazenda` of the DAO: the new id, or None for the duplicate-CCIR
   * IntegrityError, together with the database afterwards. InnoDB does not
   * give back the AUTO_INCREMENT value of a failed insert, so the counter
   * moves on the duplicate path as well, with no row added.
   */
  function InsertFarm(db: Db, owner: Cpf, ccir: Value, nome: Value, latitude: real, longitude: real, area: real)
    : (r: (Option<int>, Db))
    ensures r.0.None? <==> CcirTaken(db.farms, ccir)
    ensures r.0.None? ==> r.1 == db.(nextFarmId := db.nextFarmId + 1)
    ensures r.0.Some? ==> r.0.value == db.nextFarmId
    ensures r.0.Some? ==>
              r.1 == db.(farms := db.farms + [FarmRow(db.nextFarmId, owner, ccir, nome, latitude, longitude, area)],
                         nextFarmId := db.nextFarmId + 1)
  {
    if CcirTaken(db.farms, ccir) then (None, db.(nextFarmId := db.nextFarmId + 1))
    else
      var row := FarmRow(db.nextFarmId, owner, ccir, nome, latitude, longitude, area);
      (Some(db.nextFarmId), db.(farms := db.farms + [row], nextFarmId := db.nextFarmId + 1))
  }

  /** Either outcome of an insert keeps the database valid. */
  lemma InsertFarmPreservesValid(db: Db, owner: Cpf, ccir: Value, nome: Value, latitude: real, longitude: real, area: real)
    requires Valid(db)
    ensures Valid(InsertFarm(db, owner, ccir, nome, latitude, longitude, area).1)
  {
  }

  /** A row of `buscar_fazendas_por_ccir`: `id, ccir AS ccm, nome, latitude, longitude, ext_territorial AS area`. */
  datatype CcirRow = CcirRow(id: int, ccm: Value, nome: Value, latitude: real, longitude: real, area: real)

  function ToCcirRow(f: FarmRow): CcirRow {
    CcirRow(f.id, f.ccir, f.nome, f.latitude, f.longitude, f.area)
  }

  /** `buscar_fazendas_por_ccir`: the farms whose CCIR is the given text, in table order. */
  function FarmsWithCcir(farms: seq<FarmRow>, ccir: string): (r: seq<CcirRow>)
    ensures |r| <= |farms|
    ensures forall k :: 0 <= k < |r| ==> r[k].ccm == Str(ccir)
    ensures forall f :: f in farms && f.ccir == Str(ccir) ==> ToCcirRow(f) in r
    ensures forall row :: row in r ==> exists f :: f in farms && row == ToCcirRow(f)
  {
    if |farms| == 0 then []
    else
      var rest := FarmsWithCcir(farms[1..], ccir);
      assert forall f :: f in farms ==> f == farms[0] || f in farms[1..];
      if farms[0].ccir == Str(ccir) then [ToCcirRow(farms[0])] + rest else rest
  }

  /** A row of `buscar_imagens_e_resultados_por_fazenda`: `nome, latitude AS lat, longitude AS lng, anomala` (a TINYINT). */
  datatype ImageResultRow = ImageResultRow(nome: string, lat: real, lng: real, anomala: int)

  function ToResultRow(img: ImageRow): ImageResultRow {
    ImageResultRow(img.nome, img.latitude, img.longitude, if img.anomala then 1 else 0)
  }

  /** `buscar_imagens_e_resultados_por_fazenda`: the farm's images, in table order. */
  function ImagesOfFarm(images: seq<ImageRow>, farmId: int): (r: seq<ImageResultRow>)
    ensures |r| == CountOfFarm(images, farmId)
    ensures forall k :: 0 <= k < |r| ==> r[k].anomala == 0 || r[k].anomala == 1
    ensures forall img :: img in images && img.farmId == farmId ==> ToResultRow(img) in r
    ensures forall row :: row in r ==> exists img :: img in images && img.farmId == farmId && row == ToResultRow(img)
  {
    if |images| == 0 then []
    else
      var rest := ImagesOfFarm(images[1..], farmId);
      assert forall img :: img in images ==> img == images[0] || img in images[1..];
      if images[0].farmId == farmId then [ToResultRow(images[0])] + rest else rest
  }

  /** The query keeps table order: an image stored later comes after the farm's earlier ones. */
  lemma {:induction false} ImagesOfFarmAppend(images: seq<ImageRow>, img: ImageRow, farmId: int)
    ensures ImagesOfFarm(images + [img], farmId)
            == ImagesOfFarm(images, farmId) + (if img.farmId == farmId then [ToResultRow(img)] else [])
  {
    if |images| == 0 {
      assert images + [img] == [img];
    } else {
      assert (images + [img])[1..] == images[1..] + [img];
      ImagesOfFarmAppend(images[1..], img, farmId);
    }
  }

  /** The SQL count of the farm's images. */
  function CountOfFarm(images: seq<ImageRow>, farmId: int): nat {
    if |images| == 0 then 0
    else (if images[0].farmId == farmId then 1 else 0) + CountOfFarm(images[1..], farmId)
  }

  /** The SQL sum that adds one per anomalous image of the farm (leaving aside its NULL over no rows). */
  function AnomalousOfFarm(images: seq<ImageRow>, farmId: int): (n: nat)
    ensures n <= CountOfFarm(images, farmId)
  {
    if |images| == 0 then 0
    else (if images[0].farmId == farmId && images[0].anomala then 1 else 0) + AnomalousOfFarm(images[1..], farmId)
  }

  /** The one row of `get_farm_image_stats`: SQL columns that may be NULL. */
  datatype ImageStats = ImageStats(totalImages: Option<int>, anomalousImages: Option<int>)

  /** `get_farm_image_stats`: COUNT is never NULL, SUM over no rows is NULL. */
  function StatsOfFarm(db: Db, farmId: int): (r: ImageStats)
    ensures r.totalImages == Some(CountOfFarm(db.images, farmId) as int)
    ensures r.anomalousImages.None? <==> CountOfFarm(db.images, farmId) == 0
    ensures r.anomalousImages.Some? ==> r.anomalousImages.value == AnomalousOfFarm(db.images, farmId) as int
    ensures r.anomalousImages.Some? ==> 0 <= r.anomalousImages.value <= r.totalImages.value
  {
    var total := CountOfFarm(db.images, farmId);
    ImageStats(Some(total), if total == 0 then None else Some(AnomalousOfFarm(db.images, farmId)))
  }

  /** `associar_fazenda` of the DAO: the new database, or None for the duplicate-link IntegrityError. */
  function InsertLink(db: Db, cpf: Cpf, farmId: int): (r: Option<Db>)
    ensures r.None? <==> (cpf, farmId) in db.links
    ensures r.Some? ==> r.value == db.(links := db.links + {(cpf, farmId)})
  {
    if (cpf, farmId) in db.links then None else Some(db.(links := db.links + {(cpf, farmId)}))
  }

  /**
   * How the transaction of `salvar_imagem_e_resultado` ends. A rollback
   * after the `imagens` insert has taken its AUTO_INCREMENT value
   * (`idSpent`) does not give that value back.
   */
  datatype TxnEnd = Committed | RolledBack(idSpent: bool)

  /** `salvar_imagem_e_resultado`: the new image id, or None when the transaction is rolled back, and the database afterwards. */
  function InsertImage(db: Db, farmId: int, nome: string, latitude: real, longitude: real, anomala: bool,
                       txn: TxnEnd): (r: (Option<int>, Db))
    ensures r.0.None? <==> txn.RolledBack?
    ensures r.0.None? ==> r.1 == db.(nextImageId := db.nextImageId + (if txn.idSpent then 1 else 0))
    ensures r.0.Some? ==> r.0.value == db.nextImageId
    ensures r.0.Some? ==>
              r.1 == db.(images := db.images + [ImageRow(db.nextImageId, farmId, nome, latitude, longitude, anomala)],
                         nextImageId := db.nextImageId + 1)
  {
    match txn
    case RolledBack(spent) => (None, db.(nextImageId := if spent then db.nextImageId + 1 else db.nextImageId))
    case Committed =>
      var row := ImageRow(db.nextImageId, farmId, nome, latitude, longitude, anomala);
      (Some(db.nextImageId), db.(images := db.images + [row], nextImageId := db.nextImageId + 1))
  }

  /** Images are counted per farm: adding one to farm `farmId` raises its count by one and no other farm's. */
  lemma {:induction false} CountOfFarmAppend(images: seq<ImageRow>, img: ImageRow, farmId: int)
    ensures CountOfFarm(images + [img], farmId) == CountOfFarm(images, farmId) + (if img.farmId == farmId then 1 else 0)
    ensures AnomalousOfFarm(images + [img], farmId)
            == AnomalousOfFarm(images, farmId) + (if img.farmId == farmId && img.anomala then 1 else 0)
  {
    if |images| == 0 {
      assert images + [img] == [img];
    } else {
      assert (images + [img])[1..] == images[1..] + [img];
      CountOfFarmAppend(images[1..], img, farmId);
    }
  }
}

=== FILE: wrappers.dfy ===
/** Optional values: Python's `None` and JavaScript's `undefined` / `null`. */
module Wrappers {

  datatype Option<+T> = None | Some(value: T) {

    /** The wrapped value, or `default` when there is none. */
    function GetOr(default: T): T {
      match this
      case Some(v) => v
      case None => default
    }
  }
}
